=== FILE: README.md ===
# SWIG template instantiation, modelled in Dafny

This project models the template engine of SWIG's C/C++ parser
(`Source/CParse/templ.c`). The engine runs when an interface file says
`%template(Name) X<args>;`, and it does five things:

- **Locate.** It finds the template to instantiate. That is an explicit
  specialization, the best-ranked partial specialization, the primary
  template, or the overloaded function templates with a matching number
  of parameters.
- **Complete the arguments.** It fills in the instantiation's arguments
  from the template's parameters. That means names, missing types and
  default values, with the defaults rewritten in terms of the actual
  arguments.
- **Walk.** It walks a copy of the template's parse tree. Each node
  visited has its names fixed up, and any variadic parameter lists and
  base lists are expanded. The strings that later need rewriting are
  queued on three worklists: identifier substitution, type substitution
  and code substitution.
- **Patch.** For each template parameter, it rewrites every queued string
  with the actual argument.
- **Post-process.** It walks the expanded tree again and moves pointer
  and reference operators of function declarations from the return type
  into the declarator.

The model has one module per concern:

| module | what it models |
|---|---|
| `Strings` | The DOH string operations the engine relies on: identifier replacement (`Replaceid`, `DOH_REPLACE_ID`), first and all occurrences, search. |
| `Types` | SWIG's encoded type strings (`p.`, `r.`, `q(const).`, `a(N).`, `f(...).`, `v.`), split into operators and a base. |
| `Parms` | Parameters, as `Parm` values. |
| `Matching` | `does_parm_match` and `partial_arg`. |
| `Ranking` | The priority matrix and tournament that choose among partial specializations. The matrix is an `array2`, as the source's `int *` matrix is. |
| `Locate` | `template_locate` and `Swig_cparse_template_locate`. Template nodes are a class, because the source sets their `instantiate` flag. |
| `Defaults` | `merge_parameters`, `mark_defaults`, `expand_defaults` and `Swig_cparse_template_parms_expand`. |
| `Variadic` | `expand_variadic_parms`. |
| `Tree` | The parse tree. It is an arena of records that the engine rewrites in place. Worklist entries are *slots* (addresses of strings in the arena), so two entries for one string alias as they do in the source. |
| `Visit` | One step of `cparse_template_expand` per node type, together with `add_parms` and `expand_parms`. |
| `Traverse` | The recursion of `cparse_template_expand`. The function's static `expanded` flag is the walk's `inTemplate` parameter. |
| `Normalizer` | `cparse_fix_function_decl`. |
| `Postprocess` | `cparse_postprocess_expanded_template`. |
| `Patch` | `Swig_cparse_template_expand`: the name, the parameter loop over the three worklists, and the call to post-processing. |

Symbol-table and type-system services are parameters of the model:
typedef reduction, qualification, `SwigType_str`, `SwigType_typename_replace`,
`SwigType_variadic_replace`, symbol lookup and `Swig_scopename_last`. In
`Patch` they are the function-typed fields of `Services`; elsewhere they
are arguments that hold the value the service returned.

## Model

| member | source | states |
|---|---|---|
| Strings.ReplaceIdNone | Source/CParse/templ.c:648 | Identifier replacement reports no substitution exactly when the identifier does not occur, and then leaves the text unchanged. |
| Strings.ReplaceIdFromSelf | Source/CParse/templ.c:531 | Replacing an identifier by itself changes nothing. |
| Strings.ReplaceIdFromLength | Source/CParse/templ.c:648 | The length of the result is the original length plus, for each substitution, the difference in length. |
| Strings.ReplaceIdEmptyShorter | Source/CParse/templ.c:665 | Removing an identifier never lengthens the text, and shortens it by the identifier's length per removal. |
| Strings.ReplaceIdFromSkip | Source/CParse/templ.c:648 | A stretch of text without the identifier is copied through unchanged. |
| Strings.ReplaceIdAtEnd | Source/CParse/templ.c:86 | An identifier found only at the end of the text is replaced once, and what comes before it is kept. |
| Strings.ReplaceIdAbsent | Source/CParse/templ.c:648 | Text that does not contain the identifier's first character is returned unchanged, with no substitution. |
| Strings.ReplaceIdSingle | Source/CParse/templ.c:228 | One whole-word occurrence in the middle is replaced, and both sides are kept. |
| Strings.IndexOfFrom | Source/CParse/templ.c:409 | The search result is the first occurrence at or after the start, or none when there is no occurrence. |
| Strings.ReplaceAllFromAbsent | Source/CParse/templ.c:251 | Replace-all on text without the pattern returns that text. |
| Strings.ReplaceAllAtEnd | Source/CParse/templ.c:281 | Replace-all with the only occurrence at the end replaces just that occurrence. |
| Strings.NatToString | Source/CParse/templ.c:856 | Decimal rendering of a count is non-empty and all digits. |
| Types.SplitConcat | Source/CParse/templ.c:330-346 | Splitting a type into operators and base loses nothing: the operators followed by the base give the type back. |
| Types.DropOpsSplit | Source/CParse/templ.c:334-346 | Dropping the first k operators leaves the remaining operators and the same base. |
| Types.DropOpsConcat | Source/CParse/templ.c:334-346 | The first k operators followed by the rest of the type give the type back. |
| Types.DelVariadic | Source/CParse/templ.c:85 | Removing the variadic marker `v.` leaves the type that follows it. |
| Parms.NumRequired | Source/CParse/templ.c:1071 | The number of required parameters is the length of the prefix without default values. |
| Parms.ValueOrType | Source/CParse/templ.c:509-514 | The substituted text is absent exactly when the parameter has neither a value nor a type. |
| Matching.DoesParmMatch | Source/CParse/templ.c:640-686 | An exact match holds exactly when the number of placeholder substitutions is not one and the substituted pattern equals the type, so a pattern with two placeholders can still match exactly. A deduced match holds exactly when one placeholder was substituted and the type starts with the pattern's operators. The priority is 99999 for exact matches, the operators' length for deduced ones, and -1 otherwise. |
| Matching.MatchIffPriority | Source/CParse/templ.c:650-678 | A parameter matches at least as a deduced match exactly when its priority is not negative. |
| Matching.PartialPriorityBound | Source/CParse/templ.c:665-669 | A deduced match's priority lies between 0 and the type's length, so it stays below an exact match. |
| Matching.ExplicitPattern | Source/CParse/templ.c:648-678 | A pattern without a placeholder matches exactly when it equals the type, and otherwise does not match at all. |
| Matching.TrailingPlaceholder | Source/CParse/templ.c:651-672 | A pattern made of operators and a trailing placeholder matches the types starting with those operators, with their length as priority. |
| Matching.DocExampleRef | Source/CParse/templ.c:655-663 | `r.q(const).p.int` against `r.$1` is a deduced match with priority 2. |
| Matching.DocExampleConstRef | Source/CParse/templ.c:655-663 | `r.q(const).p.int` against `r.q(const).$1` is a deduced match with priority 11. |
| Matching.DocExampleConstPtrRef | Source/CParse/templ.c:655-663 | `r.q(const).p.int` against `r.q(const).p.$1` is a deduced match with priority 13. |
| Matching.PartialArg | Source/CParse/templ.c:401-418 | The deduced argument is never longer than the argument, and is the argument itself when the pattern has no `$`. |
| Matching.PartialArgDeduces | Source/CParse/templ.c:401-418 | An argument starting with the pattern's operators deduces to what follows them. |
| Matching.MatchThenDeduce | Source/CParse/templ.c:401-418 | Matching and deduction agree: when the pattern matches, the operators followed by the deduced argument give back the argument. |
| Ranking.Candidates | Source/CParse/templ.c:843-876 | The candidates are exactly the eligible partial specializations, in declaration order. |
| Ranking.Matrix | Source/CParse/templ.c:843-876 | There is one row per candidate and one column per argument, and every entry is non-negative. |
| Ranking.ColMax | Source/CParse/templ.c:928-940 | The column maximum, starting from -1, bounds every entry and is reached by one of them. |
| Ranking.Survivors | Source/CParse/templ.c:957-974 | The surviving rows are exactly the rows that reach every column's maximum, in order. |
| Ranking.FinalistsEligible | Source/CParse/templ.c:829-985 | Every finalist is eligible, and there are no finalists exactly when no partial specialization is eligible. |
| Ranking.SurvivorIffUndominated | Source/CParse/templ.c:926-974 | A candidate survives exactly when no candidate has a higher priority in any column. |
| Ranking.LoserDropped | Source/CParse/templ.c:975-979 | Among several candidates, one that does not survive is dropped as soon as another survives. |
| Ranking.NoSurvivorKeepsAll | Source/CParse/templ.c:980-983 | When nobody survives, every candidate stays. |
| Ranking.SurvivorsNone | Source/CParse/templ.c:957-974 | With no surviving row, the list of survivors is empty. |
| Ranking.TournamentNonEmpty | Source/CParse/templ.c:975-983 | The tournament never empties a non-empty candidate list. |
| Ranking.ExactOutranksDeduced | Source/CParse/templ.c:896-903 | A candidate that only deduces an argument cannot survive against one that matches it exactly. |
| Ranking.AmbiguousExample | Source/CParse/templ.c:904-907 | For `X<int *, double *>` against `X<T1, double *>` and `X<int *, T2>`, nobody survives and both stay. |
| Ranking.SpecializationOrderExample | Source/CParse/templ.c:898-903 | For `const int *`, the exact specialization beats `const T *`, which beats `T *`, which beats `T`. |
| Ranking.FlagCountFull | Source/CParse/templ.c:959-970 | The sum of a row's flags equals the row length exactly when every flag is set. |
| Ranking.ScoreRow | Source/CParse/templ.c:853-875 | All parameters match exactly when scoring completes the row. The row then holds the candidate's priorities, and other rows are unchanged. |
| Ranking.AddCandidate | Source/CParse/templ.c:843-876 | One partial specialization is scored and listed exactly when it is eligible. |
| Ranking.FillMatrix | Source/CParse/templ.c:835-878 | The listed candidates are `Candidates`, and their rows hold `Matrix`. |
| Ranking.FlagColumns | Source/CParse/templ.c:926-948 | Each entry is replaced by 1 when it reaches its column's maximum, and by 0 otherwise. |
| Ranking.RowFlagSum | Source/CParse/templ.c:959-962 | The count is the number of flags set in the row. |
| Ranking.CollectSurvivors | Source/CParse/templ.c:957-974 | The chosen candidates are those of the surviving rows, in order. |
| Ranking.RankPartials | Source/CParse/templ.c:829-985 | The result is `Finalists`. |
| Locate.Node.constructor | Source/CParse/templ.c:1076 | A template node starts with its `instantiate` flag cleared. |
| Locate.ExplicitDecision | Source/CParse/templ.c:756-815 | Without an explicit specialization, the search goes on. A node found that is a template node is accepted; any other node is refused with the not-a-template error naming its node type. An instantiation is accepted only under a new name when there is no named previous instantiation. An unnamed duplicate is refused silently. |
| Locate.DuplicateRefused | Source/CParse/templ.c:779-806 | A second named instantiation reports the duplicate and the previous instantiation. An unnamed one is refused silently. |
| Locate.EmptyInstantiationOverridden | Source/CParse/templ.c:779-810 | An earlier instantiation is overridden exactly when it was an empty `%template()` with no named sibling and the new one has a name. |
| Locate.ReportAmbiguity | Source/CParse/templ.c:990-1002 | The warnings are `AmbiguityLog`. |
| Locate.TemplateLocate | Source/CParse/templ.c:694-1041 | The located node and the diagnostics are `Locate`. |
| Locate.ExplicitSpecializationWins | Source/CParse/templ.c:767-775 | An explicit specialization is used over the primary template, with no diagnostics. |
| Locate.LocatedIsTemplate | Source/CParse/templ.c:1019-1027 | A located node is a template node, or the template of an earlier instantiation. |
| Locate.PrimaryFallback | Source/CParse/templ.c:1005-1010 | With no eligible partial specialization, the primary template is used. |
| Locate.AmbiguityWarnings | Source/CParse/templ.c:987-1002 | Several finalists give the ambiguity warning and the one used, then one "ignored" warning per other finalist, naming the node its registered name leads to. |
| Locate.AmbiguityLogShape | Source/CParse/templ.c:990-1002 | The ambiguity log has one entry per finalist plus the heading. |
| Locate.ClassArity | Source/CParse/templ.c:1064-1073 | A class instantiation is reported exactly when it has too many arguments (without a variadic parameter) or fewer than the required ones (the variadic parameter is optional). |
| Locate.ArityRange | Source/CParse/templ.c:1068-1073 | Without a variadic parameter, the count is accepted exactly when it lies between the required count and the parameter count. |
| Locate.MarkPass | Source/CParse/templ.c:1095-1134 | Every matching node in the chain is marked for instantiation. The first match is returned, and none is returned exactly when nothing matches. |
| Locate.SelectFunctionTemplates | Source/CParse/templ.c:1079-1139 | The nodes marked are exactly the selected ones. The first selected node is the match, and an undefined-template error is reported exactly when none is selected. |
| Locate.NonVariadicPreferred | Source/CParse/templ.c:1114-1116 | A variadic function template is not selected while a non-variadic one matches. |
| Locate.TemplateLocateAndMark | Source/CParse/templ.c:1053-1143 | A class template that is found is marked and checked for arity, and no other node is marked. Otherwise the function templates are selected: the chain members marked are exactly the selected ones, the match is the first selected one, an undefined-template error is reported exactly when none is selected, and nodes outside the chain are not marked. Without a template nothing is marked. |
| Defaults.TextWithText | Source/CParse/templ.c:1199-1208 | A parameter's text (its value, else its type) and setting it are inverse: setting a parameter's own text changes nothing, and a text set reads back. |
| Defaults.WithText | Source/CParse/templ.c:1208 | Setting the text changes only the value (or the type), and the text then reads back. |
| Defaults.MergeParameters | Source/CParse/templ.c:1160-1171 | Each argument takes the parameter's name and, when it has none, its type. Its value and default flag are kept. Extra arguments are unchanged. The variadic flag holds exactly when the template has a variadic parameter. |
| Defaults.MarkDefaults | Source/CParse/templ.c:1179-1185 | Every parameter is flagged as a default and nothing else changes. |
| Defaults.ExpandAt | Source/CParse/templ.c:1197-1212 | Expanding one default changes only that parameter. |
| Defaults.Substitute | Source/CParse/templ.c:1202-1210 | The loop's result is `SubstFrom`. |
| Defaults.ExpandDefaults | Source/CParse/templ.c:1195-1213 | The result is `ExpandedDefaults`. |
| Defaults.ExpandedShape | Source/CParse/templ.c:1195-1213 | Expanding defaults keeps the length, the names, the default flags, and which parameters have a value or a type. |
| Defaults.ExpandFromKeeps | Source/CParse/templ.c:1197-1212 | Parameters before the current one are not changed again. |
| Defaults.ExpandedEntry | Source/CParse/templ.c:1197-1212 | Each parameter is expanded against the parameters already expanded before it and the original ones after it. |
| Defaults.ExpandUnnamed | Source/CParse/templ.c:1202-1210 | Without parameter names, nothing is substituted. |
| Defaults.SubstUnnamed | Source/CParse/templ.c:1202-1210 | Without parameter names, a text is left as it is. |
| Defaults.DocExampleLess | Source/CParse/templ.c:1190-1192 | `int K, int T, class C = Less<(K)>` becomes `..., class C = Less<(int)>`. |
| Defaults.ParmsExpand | Source/CParse/templ.c:1225-1251 | For a non-variadic class template given too few arguments, the result is the merged arguments followed by the remaining parameters flagged as defaults, with their defaults expanded. Names come from the template. Otherwise the given values and types are kept, and a missing type is taken from the template. |
| Defaults.FilledShape | Source/CParse/templ.c:1234-1241 | A class template given too few arguments gets one parameter per template parameter. The leading ones are named after the template's parameters and keep the arguments' default flags. The rest are flagged as defaults and have a value or type exactly when the template's parameter does. |
| Variadic.ElementType | Source/CParse/templ.c:84-87 | Without a pack name, an element's type is the variadic type without `v.`. |
| Variadic.ExpandVariadicParms | Source/CParse/templ.c:74-94 | The result is `Expanded`. Without a pack or a variadic last parameter, the list is unchanged. Otherwise that parameter is replaced by one copy of each pack element, whose type is the element type. |
| Variadic.ElementOfTrailingPack | Source/CParse/templ.c:84-87 | For operators followed by the pack name, each element gets the same operators followed by its own type. |
| Variadic.DocExampleReferences | Source/CParse/templ.c:60-69 | `v.r.T` with the pack A, B, C gives `r.A`, `r.B`, `r.C`. |
| Tree.GetSet | Source/CParse/templ.c:536-575 | Rewriting one string in place changes that string and no other. |
| Tree.WellFormedShape | Source/CParse/templ.c:118-311 | A rewrite that keeps the tree's shape keeps it well formed. |
| Tree.SubtreeOfChild | Source/CParse/templ.c:305-309 | The subtree of a child lies inside the parent's subtree and does not hold the parent. |
| Tree.SubtreesDisjoint | Source/CParse/templ.c:305-309 | The subtrees of two distinct children are disjoint. |
| Visit.TemplatePrefix | Source/CParse/templ.c:168 | The template prefix is the text before the first `<(`, or the whole text when there is none. |
| Visit.AddParms | Source/CParse/templ.c:39-55 | Queues, for type substitution, each parameter's type (and, in a pattern, its name) and value. Only values go on the second list given, which every visit makes the code list. Neither list names a slot twice. |
| Visit.ExpandParms | Source/CParse/templ.c:103-108 | The named list becomes `Expanded` and no other part of the node changes. Its type and value strings are queued exactly as `add_parms` queues them on the expanded list; no other slot is added and the identifier worklist is untouched. Work without repeats stays without repeats. |
| Visit.QueueParms | Source/CParse/templ.c:106-107 | Adds the named list's parameter strings to the worklists and nothing else. If the work had no repeats and no slot of that list, it still has no repeats. |
| Visit.ExpandParmLists | Source/CParse/templ.c:175-176 | Every named list becomes `Expanded` and nothing else in the node changes. The parameter slots of the node that are queued are exactly those of the named lists that `add_parms` queues on the expanded lists; other slots stay as they were. Work without repeats stays without repeats. |
| Visit.ExpandedLists | Source/CParse/templ.c:74-94 | Expanding a set of lists keeps the other lists and adds none. |
| Visit.ListsOf | Source/CParse/templ.c:175-176 | The lists a visit expands are distinct: parameters and exceptions for declarations and constructors, and also keyword arguments and the pattern for any other node type. |
| Visit.AttrWork | Source/CParse/templ.c:144-309 | The attributes each node type queues are slots of the node that hold a string. |
| Visit.AttrWorkDistinct | Source/CParse/templ.c:144-309 | No node type queues an attribute twice on the same list. |
| Visit.CdeclDistinct | Source/CParse/templ.c:144-177 | A simple declaration queues each of its attributes at most once on each list, including a friend's name and a conversion operator's names. |
| Visit.BaseSlotsDistinct | Source/CParse/templ.c:178-212 | The public, protected and private base entries of a class are different slots. |
| Visit.QueuedFromParts | Source/CParse/templ.c:144-309 | A visit that queues its attributes and then expands its parameter lists queues exactly the slots `Queued` describes. |
| Visit.DtorQueued | Source/CParse/templ.c:262-285 | A foreign destructor queues nothing. The template's own destructor queues its name when the name carries template arguments, and its code when it has one. It queues no parameter. |
| Visit.ClassQueued | Source/CParse/templ.c:178-212 | A class queues exactly its expanded base entries, as types. |
| Visit.VisitCdecl | Source/CParse/templ.c:144-177 | Queues the value, the type and the declarator, and the name of a friend. The code and a conversion operator's names are queued for code substitution. A friend's symbol name loses its template arguments. The parameter and exception lists become `Expanded`, and their slots are queued as `add_parms` queues them. Every slot of the node queued is one of these, and none is queued twice on a list. |
| Visit.CdeclPatch | Source/CParse/templ.c:156 | A declaration's value is queued for identifier substitution exactly when it has one. |
| Visit.CdeclTypes | Source/CParse/templ.c:154-172 | The type, the declarator and a friend's name are queued for type substitution exactly when present. |
| Visit.CdeclCode | Source/CParse/templ.c:157-164 | The code and a conversion operator's name, and also its symbol name unless it is a friend, are queued for code substitution. |
| Visit.BaseElements | Source/CParse/templ.c:189-205 | A variadic base expands to one entry per pack element, or to a single entry when there is no pack. |
| Visit.ExpandBasePack | Source/CParse/templ.c:189-205 | The result is `BaseElements`. |
| Visit.ExpandBases | Source/CParse/templ.c:186-210 | The result is `ExpandedBases`, and every entry is queued. |
| Visit.ExpandBaseList | Source/CParse/templ.c:183-211 | Only the named base list is expanded. |
| Visit.ExpandedBaseMap | Source/CParse/templ.c:181-212 | Every base list is expanded and no list is added. |
| Visit.VisitClass | Source/CParse/templ.c:178-212 | The class gets its expanded base lists, and exactly its base entries are queued, public then protected then private, each once. Nothing else of the node is queued. |
| Visit.PatchBaseLists | Source/CParse/templ.c:181-212 | The three lists are expanded in turn and their slots queued. |
| Visit.PatchBaseList | Source/CParse/templ.c:183-211 | One base list is expanded and its entries are queued. |
| Visit.ConstructorNames | Source/CParse/templ.c:222-261 | A constructor keeps a symbol name exactly when it had one. |
| Visit.RenameConstructor | Source/CParse/templ.c:223-257 | A constructor of a nested template is left alone. Otherwise its name and symbol name become `ConstructorNames`, and the name is queued when it carries template arguments. |
| Visit.VisitConstructor | Source/CParse/templ.c:222-261 | Renames the constructor and queues its code and declarator. No other attribute changes. The parameter and exception lists become `Expanded` and their slots are queued as `add_parms` queues them. Every slot of the node queued is one of these, and none is queued twice on a list. |
| Visit.ConstructorOfTemplate | Source/CParse/templ.c:223-257 | The constructor `X` of template `X` is renamed `X<args>`, its symbol name becomes the instantiation's name, and nothing is queued. |
| Visit.ConstructorWithArguments | Source/CParse/templ.c:223-257 | A constructor written `X<T>` keeps its name for identifier substitution and takes the instantiation's name as symbol name. |
| Visit.DestructorNames | Source/CParse/templ.c:262-285 | A destructor keeps a name and a symbol name exactly when it had them. |
| Visit.DestructorOfTemplate | Source/CParse/templ.c:262-285 | The destructor `~X` becomes `~X<args>`, with `~` plus the instantiation's name as symbol name. |
| Visit.VisitDestructor | Source/CParse/templ.c:262-285 | A destructor that is not the template's own is left alone and queues nothing. Otherwise it is renamed, its name is queued when it has template arguments, and its code when it has one; no slot is queued twice. |
| Visit.VisitUsing | Source/CParse/templ.c:286-294 | A using declaration's name is queued for identifier substitution exactly when it has template arguments, and nothing else is queued. |
| Visit.VisitOther | Source/CParse/templ.c:295-309 | Any other node has its code, type and declarator queued, exactly those it has. Its parameter, keyword, pattern and exception lists become `Expanded` and their slots are queued as `add_parms` queues them (pattern names too), none twice on a list. Nothing else of the node changes. |
| Visit.VisitNode | Source/CParse/templ.c:124-309 | The walk goes below exactly the node types that have children to visit. The slots of the node on each worklist are exactly those `Queued` gives for its node type, each listed once. The parameter lists it expands become `Expanded`, a class's base lists are expanded, and a foreign destructor is left alone. |
| Traverse.DescendsSubtree | Source/CParse/templ.c:305-309 | The walk from a node stays inside its subtree. |
| Traverse.DescendsChild | Source/CParse/templ.c:305-309 | What the walk from a child reaches, the walk from its parent reaches. |
| Traverse.DescendsViaChild | Source/CParse/templ.c:305-309 | Every other node reached is reached through one of the children. |
| Traverse.DescendsLeaf | Source/CParse/templ.c:144-177 | The walk does not go below a node whose children it does not visit. |
| Traverse.ReachedShape | Source/CParse/templ.c:118-311 | Which nodes the walk visits depends only on the tree's shape, not on the strings it rewrites. |
| Traverse.ChildFacts | Source/CParse/templ.c:305-309 | A node reached from one child is reached from no other child. |
| Traverse.ChildDistinct | Source/CParse/templ.c:214-220 | A child's walk queues no slot that the walks of the earlier children queued. |
| Traverse.WalkDistinct | Source/CParse/templ.c:118-311 | A node's own slots and those queued below it are different, so the joined worklists have no repeats. |
| Traverse.Walk | Source/CParse/templ.c:118-311 | Only visited nodes change, and the tree's shape is kept. The outermost template node becomes what it templates and nested ones stay template nodes. Every queued slot is a visited node's rewritable string. Each worklist holds exactly the slots that the visits of the nodes reached put on it: attributes, parameter fields and base entries alike. No worklist lists a slot twice. |
| Traverse.WalkChildren | Source/CParse/templ.c:214-220 | The children's walks change only nodes below the node. Each worklist holds exactly the slots that the visits of the nodes reached below the node put on it, each once. |
| Traverse.ErrorQueued | Source/CParse/templ.c:124-128 | The walk from a node in error queues nothing. |
| Traverse.LeafQueued | Source/CParse/templ.c:144-177 | Nothing is queued below a node whose children the walk does not visit. |
| Traverse.DueShape | Source/CParse/templ.c:118-311 | Whether a slot is due depends only on the tree's shape and on the slot's own node. |
| Traverse.WalkList | Source/CParse/templ.c:124-311 | A worklist of the walk from a node is the node's own entries followed by those of the walks below it, and holds exactly the slots due. |
| Traverse.ChildList | Source/CParse/templ.c:305-309 | After each child's walk, a worklist holds exactly the slots due in the subtrees of the children walked so far. |
| Normalizer.KeepFrom | Source/CParse/templ.c:334-346 | Everything from the returned position on stays in the type, and the operator before it is the last one moved. |
| Normalizer.Moved | Source/CParse/templ.c:330-346 | The moved operators are a prefix of the type. |
| Normalizer.FixFunctionDecl | Source/CParse/templ.c:324-359 | The new declarator and type are `FixDecl`. |
| Normalizer.FixDeclPreservesText | Source/CParse/templ.c:348-356 | The declarator followed by the type reads the same before and after. The declarator only grows, by a prefix of the type. |
| Normalizer.FixDeclType | Source/CParse/templ.c:334-352 | The type keeps its base and only qualifier and array operators that were at its end. |
| Normalizer.FixDeclIdempotent | Source/CParse/templ.c:324-359 | Fixing a fixed declaration changes nothing. |
| Normalizer.FixDeclNoMove | Source/CParse/templ.c:334-350 | A type made only of qualifiers and arrays is left in place. |
| NormalizerExamples.FixDeclDocExample1 | Source/CParse/templ.c:319 | `f().` with `p.q(const).char` becomes `f().p.` with `q(const).char`. |
| NormalizerExamples.FixDeclDocExample2 | Source/CParse/templ.c:320 | `f().p.` with `p.SomeClass` becomes `f().p.p.` with `SomeClass`. |
| NormalizerExamples.FixDeclDocExample3 | Source/CParse/templ.c:321 | `f().` with `r.q(const).p.int` becomes `f().r.q(const).p.` with `int`. |
| Postprocess.PostRec | Source/CParse/templ.c:368-395 | The walk changes only the declarator and type of a node, and never its place, kind or other attributes. |
| Postprocess.PostTreeChanges | Source/CParse/templ.c:368-395 | Only function declarations with a type that the walk reaches, and not in error, are changed, and only in their attributes. |
| Postprocess.PostRecText | Source/CParse/templ.c:379-385 | A fixed declaration reads the same text, declarator then type. |
| Postprocess.PostRecIdempotent | Source/CParse/templ.c:379-385 | Post-processing a node twice is the same as once. |
| Postprocess.PostTreeIdempotent | Source/CParse/templ.c:368-395 | Post-processing a tree twice is the same as once. |
| Postprocess.PostLeaf | Source/CParse/templ.c:373-386 | Below an error or a simple declaration, the walk changes at most the node itself. |
| Postprocess.Postprocess | Source/CParse/templ.c:368-395 | The new tree is `PostTree` of the old one. |
| Postprocess.PostChildren | Source/CParse/templ.c:387-394 | The children's walks together post-process the node's subtree. |
| Patch.PartialArgs | Source/CParse/templ.c:443-463 | The arguments seen through a partial specialization keep their names, values and flags, and have a type exactly when they had one, never longer. |
| Patch.PartialArgsPointer | Source/CParse/templ.c:443-463 | Through the specialization `X<T *>`, the argument `int *` becomes `int`. |
| Patch.ApplyPartialArgs | Source/CParse/templ.c:443-463 | The loop's result is `PartialArgs`. |
| Patch.EditTextReads | Source/CParse/templ.c:541-575 | A rewrite depends only on the slots it reads: the instantiated name and symbol name. |
| Patch.ApplyEdit | Source/CParse/templ.c:536-575 | Rewriting a worklist keeps the tree's shape and changes only the listed strings. |
| Patch.ApplyEditGet | Source/CParse/templ.c:536-575 | A string queued n times is rewritten n times, as the source does for aliased entries. |
| Patch.RewriteAll | Source/CParse/templ.c:536-575 | The loop over a worklist yields `ApplyEdit`. |
| Patch.DefaultsPatched | Source/CParse/templ.c:525-535 | Only later parameters' default values change, and the names and flags are kept. |
| Patch.DefaultsPatchedValue | Source/CParse/templ.c:525-535 | A later default value changes only when it mentions the parameter's name. |
| Patch.PatchDefaults | Source/CParse/templ.c:525-535 | The loop's result is `DefaultsPatched`. |
| Patch.PatchStep | Source/CParse/templ.c:503-584 | One parameter's substitution keeps the shape and the queued slots, changes only queued strings, and leaves the formals alone while the actual arguments last. |
| Patch.PatchFrom | Source/CParse/templ.c:500-585 | The parameter loop keeps the shape and changes only queued strings. |
| Patch.PatchFromKeepsFormals | Source/CParse/templ.c:581-584 | When there are at least as many arguments as parameters, the template's parameter list is not changed. |
| Tree.DistinctOnce | Source/CParse/templ.c:536-540 | A slot on a worklist without repeats occurs exactly once, which is what `Patch.PatchOneParameter` needs of the identifier worklist `Patch.Expand` builds. |
| Tree.DistinctJoin | Source/CParse/templ.c:39-55 | Two lists without repeats and with no slot in common join into a list without repeats. |
| Patch.PatchOneParameter | Source/CParse/templ.c:536-540 | With one parameter, a value queued once reads as the parameter's name replaced by the resolved argument. |
| Patch.PatchParm | Source/CParse/templ.c:503-584 | One turn of the parameter loop is `PatchStep`. |
| Patch.PatchParms | Source/CParse/templ.c:500-585 | The parameter loop is `PatchFrom`. |
| Patch.Named | Source/CParse/templ.c:485-492 | The root's name gets the template arguments appended, and nothing else changes. |
| Patch.Substitute | Source/CParse/templ.c:485-598 | Naming, then the parameter loop (or the bare type substitution when there are no arguments or parameters), then post-processing. |
| Patch.WorkInRewritable | Source/CParse/templ.c:483 | Every slot the walk queues can be rewritten afterwards. |
| Patch.Expand | Source/CParse/templ.c:424-621 | The walk's effects, and worklists holding exactly the slots its visits queue, none twice, so each queued string is rewritten once per parameter. Then naming with the arguments (through the partial specialization when there is one), the parameter loop, and post-processing. |

## Left out

- Symbol-table and type-system services are parameters, not modelled: typedef reduction and qualification, `SwigType_str`, `SwigType_typename_replace`, `SwigType_variadic_replace`, `Swig_symbol_clookup`, `SwigType_add_template` and `Swig_scopename_last`.
- The lookups in `template_locate` are inputs: the primary template, the explicit specialization or instantiation found, and the partial specialization looked up by name. The default arguments and the qualification of each argument (734-749) are also inputs: the arguments arrive as their type (or value) text.
- An argument with neither a type nor a value is not modelled. The source skips it when scoring a partial specialization (858-866), and that matrix entry is then never written.
- Qualification of the base lists after expansion (600-612) calls symbol-table services only. It is not modelled.
- Memory management (`Copy`, `Delete`, `Free`), debug output (`template_debug`) and file and line numbers of diagnostics are left out. Diagnostics are events with their arguments, not formatted text.
- The source's `assert` that a partial specialization has as many arguments as the instantiation is a precondition of `Patch.Expand`.
- `Patch.IName` reads an absent name as the empty string. The source would pass a null string on.
- Visit.Ready: a constructor without a name, and a variadic base that is not last in its list, are preconditions. The source dereferences the name and asserts the base's position.
- Traverse.Walk: the walk states the frame, the kinds and exactly which slots each worklist holds. The strings a visit writes into a node below the starting node (renamed constructors and destructors, expanded lists) are stated per node type by the `Visit` members, not by the walk's contract.
- Locate.AmbiguityWarnings: when the lookup of an ignored partial specialization's registered name fails, `IgnoredName` reports the registered name. The source asserts that the lookup succeeds (templ.c:997-998).
- Locate.IgnoredName: the failed lookup has a fallback name, where the source aborts on its assertion (templ.c:998).
- Defaults.Text: a parameter with neither a value nor a type reads as "". The source would pass a null string on to `Replaceid` (templ.c:1203-1208).
- Variadic.ElementType: a pack element without a type reads as "", and without a pack name only the `v.` is removed. The source would pass null strings on to `Replaceid` (templ.c:80, 86).
- Patch.PatchStep: a type queued while still variadic is rewritten by `variadicReplace` and the loop goes on. The source asserts that no queued type is variadic (templ.c:545), so it aborts instead. This case is reachable: a class's variadic base is kept as it is when the template has no variadic parameter.
- Patch.Substitute: without template parameters, a variadic type on the type worklist is rewritten and the loop goes on. The source aborts on the same assertion (templ.c:592).
- Patch.Expand: the rewritten strings are stated through `ApplyEdit` and `PatchFrom`, with the services as opaque functions. No closed form of the final text is given.
- Parameter and node attributes other than those the engine reads or writes by name are an uninterpreted `Other` attribute.
- Template template parameters and non-type template parameters in partial specializations are matched as plain text, as the source does.

=== FILE: defaults.dfy ===
// Filling in a template instantiation's parameter list
// (Swig_cparse_template_parms_expand with merge_parameters, mark_defaults and
// expand_defaults).  The actual arguments get the formal parameters' names
// (and types where they have none); a non-variadic class template also gets
// the formal parameters it was not given, marked as defaults, after which
// every parameter's text has the parameter names replaced by their values,
// e.g. `int K, int T, class C = Less<(K)>` becomes `..., C = Less<(int)>`.
//
// The source edits a fresh copy of the lists in place; here the methods
// return the edited list.

module Defaults {
  import opened Strings
  import opened Parms

  /** The text a parameter contributes as a replacement: its value, else its
      type, and nothing when it has neither. */
  function Text(p: Parm): (t: string)
    ensures ValueOrType(p).Some? ==> t == ValueOrType(p).value
    ensures ValueOrType(p).None? ==> t == ""
  {
    if p.value.Some? then p.value.value else if p.ty.Some? then p.ty.value else ""
  }

  /** The parameter with its value (or its type, when it has no value) set to t. */
  function WithText(p: Parm, t: string): (q: Parm)
    requires ValueOrType(p).Some?
    ensures q.name == p.name && q.isDefault == p.isDefault
    ensures q.value.Some? == p.value.Some? && q.ty.Some? == p.ty.Some?
    ensures ValueOrType(q) == Some(t) && Text(q) == t
  {
    if p.value.Some? then p.(value := Some(t)) else p.(ty := Some(t))
  }

  /** Text and WithText are partners: setting a parameter's own text
      changes nothing, and a text that is set reads back. */
  lemma TextWithText(p: Parm, t: string)
    requires ValueOrType(p).Some?
    ensures WithText(p, Text(p)) == p
    ensures Text(WithText(p, t)) == t
  {
  }

  // ---------------------------------------------------------------------
  // merge_parameters and mark_defaults

  /** merge_parameters: position by position, the actual parameter takes the
      formal's name, and its type when it has none.  Also tells whether the
      formal list is variadic. */
  method MergeParameters(actuals: seq<Parm>, formals: seq<Parm>) returns (merged: seq<Parm>, variadic: bool)
    ensures |merged| == |actuals|
    ensures forall i :: 0 <= i < |actuals| && i < |formals| ==>
      merged[i].name == formals[i].name
      && merged[i].ty == (if actuals[i].ty.Some? then actuals[i].ty else formals[i].ty)
      && merged[i].value == actuals[i].value && merged[i].isDefault == actuals[i].isDefault
    ensures forall i :: |formals| <= i < |actuals| ==> merged[i] == actuals[i]
    ensures variadic <==> VariadicParm(formals).Some?
  {
    merged := actuals;
    var i := 0;
    while i < |merged| && i < |formals|
      invariant 0 <= i <= |actuals| && i <= |formals| && |merged| == |actuals|
      invariant forall k :: 0 <= k < i ==>
        merged[k].name == formals[k].name
        && merged[k].ty == (if actuals[k].ty.Some? then actuals[k].ty else formals[k].ty)
        && merged[k].value == actuals[k].value && merged[k].isDefault == actuals[k].isDefault
      invariant forall k :: i <= k < |actuals| ==> merged[k] == actuals[k]
    {
      var p := merged[i].(name := formals[i].name);
      if p.ty.None? {
        p := p.(ty := formals[i].ty);
      }
      merged := merged[i := p];
      i := i + 1;
    }
    variadic := VariadicParm(formals).Some?;
  }

  /** mark_defaults: flags every parameter as filled in from a default. */
  method MarkDefaults(ds: seq<Parm>) returns (marked: seq<Parm>)
    ensures |marked| == |ds|
    ensures forall i :: 0 <= i < |ds| ==> marked[i] == ds[i].(isDefault := true)
  {
    marked := ds;
    var i := 0;
    while i < |marked|
      invariant 0 <= i <= |ds| && |marked| == |ds|
      invariant forall k :: 0 <= k < i ==> marked[k] == ds[k].(isDefault := true)
      invariant forall k :: i <= k < |ds| ==> marked[k] == ds[k]
    {
      marked := marked[i := marked[i].(isDefault := true)];
      i := i + 1;
    }
  }

  // ---------------------------------------------------------------------
  // expand_defaults

  /** The replacements of one inner pass, from position j on: tv, the text
      of the parameter at position i, has each named parameter's name
      replaced by that parameter's text.  When the named parameter is the
      one being edited, its text is tv as it stands at that point. */
  function SubstFrom(tv: string, ps: seq<Parm>, i: nat, j: nat): string
    requires j <= |ps|
    decreases |ps| - j
  {
    if j == |ps| then tv
    else
      var p := ps[j];
      var tv' := if p.name.None? then tv else ReplaceId(tv, p.name.value, if j == i then tv else Text(p)).0;
      SubstFrom(tv', ps, i, j + 1)
  }

  /** One outer pass: the parameter at position i gets its text expanded;
      one with neither value nor type is left alone. */
  function ExpandAt(ps: seq<Parm>, i: nat): (r: seq<Parm>)
    requires i < |ps|
    ensures |r| == |ps| && r[..i] == ps[..i] && r[i + 1..] == ps[i + 1..]
  {
    if ValueOrType(ps[i]).None? then ps
    else ps[i := WithText(ps[i], SubstFrom(Text(ps[i]), ps, i, 0))]
  }

  /** The outer passes from position i on. */
  function ExpandFrom(ps: seq<Parm>, i: nat): (r: seq<Parm>)
    requires i <= |ps|
    ensures |r| == |ps|
    decreases |ps| - i
  {
    if i == |ps| then ps else ExpandFrom(ExpandAt(ps, i), i + 1)
  }

  /** The list expand_defaults leaves: the parameters are expanded in order,
      each one seeing the already expanded text of those before it. */
  function ExpandedDefaults(ps: seq<Parm>): seq<Parm> {
    ExpandFrom(ps, 0)
  }

  /** The inner loop of expand_defaults: every named parameter's name in tv
      is replaced by that parameter's text. */
  method Substitute(tv: string, ps: seq<Parm>, i: nat) returns (out: string)
    ensures out == SubstFrom(tv, ps, i, 0)
  {
    out := tv;
    var j := 0;
    while j < |ps|
      invariant 0 <= j <= |ps|
      invariant SubstFrom(out, ps, i, j) == SubstFrom(tv, ps, i, 0)
    {
      var p := ps[j];
      if p.name.Some? {
        var rep := if j == i then out else Text(p);
        out := ReplaceId(out, p.name.value, rep).0;
      }
      j := j + 1;
    }
  }

  /** expand_defaults, with its two nested loops. */
  method ExpandDefaults(ps: seq<Parm>) returns (r: seq<Parm>)
    ensures r == ExpandedDefaults(ps)
  {
    r := ps;
    var i := 0;
    while i < |r|
      invariant 0 <= i <= |r| && |r| == |ps|
      invariant ExpandFrom(r, i) == ExpandedDefaults(ps)
    {
      if ValueOrType(r[i]).Some? {
        var tv := Substitute(Text(r[i]), r, i);
        r := r[i := WithText(r[i], tv)];
      }
      i := i + 1;
    }
  }

  /** Only the parameter at position i changes in its pass, and only in its
      text. */
  lemma {:induction false} ExpandFromShape(ps: seq<Parm>, i: nat)
    requires i <= |ps|
    ensures var r := ExpandFrom(ps, i);
      |r| == |ps| && r[..i] == ps[..i]
      && forall k :: 0 <= k < |ps| ==>
        r[k].name == ps[k].name && r[k].isDefault == ps[k].isDefault
        && r[k].value.Some? == ps[k].value.Some? && r[k].ty.Some? == ps[k].ty.Some?
    decreases |ps| - i
  {
    if i < |ps| {
      var q := ExpandAt(ps, i);
      ExpandFromShape(q, i + 1);
      assert q[..i] == ps[..i];
      assert ExpandFrom(ps, i)[..i] == q[..i + 1][..i];
    }
  }

  /** Expansion keeps the list's length, the names, the default marks and
      whether each parameter has a value and a type: only the texts change. */
  lemma ExpandedShape(ps: seq<Parm>)
    ensures var r := ExpandedDefaults(ps);
      |r| == |ps|
      && forall k :: 0 <= k < |ps| ==>
        r[k].name == ps[k].name && r[k].isDefault == ps[k].isDefault
        && r[k].value.Some? == ps[k].value.Some? && r[k].ty.Some? == ps[k].ty.Some?
  {
    ExpandFromShape(ps, 0);
  }

  /** The passes after position i leave position i as it is. */
  lemma {:induction false} ExpandFromKeeps(ps: seq<Parm>, i: nat, k: nat)
    requires k < i <= |ps|
    ensures ExpandFrom(ps, i)[k] == ps[k]
    decreases |ps| - i
  {
    if i < |ps| {
      var q := ExpandAt(ps, i);
      assert q[..i] == ps[..i];
      assert q[k] == q[..i][k];
      ExpandFromKeeps(q, i + 1, k);
    }
  }

  /** The passes before position i leave positions i and after as they were. */
  lemma {:induction false} ExpandPrefix(ps: seq<Parm>, i: nat)
    requires i <= |ps|
    ensures |ExpandFrom(ps, 0)| == |ps|
    ensures ExpandFrom(ps, 0) == ExpandFrom(ExpandedUpTo(ps, i), i)
    ensures ExpandedUpTo(ps, i)[i..] == ps[i..] && |ExpandedUpTo(ps, i)| == |ps|
    decreases i
  {
    ExpandFromShape(ps, 0);
    if i > 0 {
      ExpandPrefix(ps, i - 1);
      var q := ExpandedUpTo(ps, i - 1);
      assert q[i - 1..] == ps[i - 1..];
      var q' := ExpandAt(q, i - 1);
      assert q'[i..] == q[i..];
      assert q[i..] == q[i - 1..][1..];
    }
  }

  /** The list after the first i outer passes. */
  function ExpandedUpTo(ps: seq<Parm>, i: nat): (r: seq<Parm>)
    requires i <= |ps|
    ensures |r| == |ps|
    decreases i
  {
    if i == 0 then ps else ExpandAt(ExpandedUpTo(ps, i - 1), i - 1)
  }

  /** Each parameter is expanded against the already expanded parameters
      before it and the untouched ones after it (its own name standing for
      its own text as it is being rewritten). */
  lemma ExpandedEntry(ps: seq<Parm>, i: nat)
    requires i < |ps|
    ensures var r := ExpandedDefaults(ps);
      r[i] == ExpandAt(r[..i] + ps[i..], i)[i]
  {
    var q := ExpandedUpTo(ps, i);
    ExpandPrefix(ps, i);
    ExpandPrefix(ps, i + 1);
    var r := ExpandedDefaults(ps);
    var q1 := ExpandedUpTo(ps, i + 1);
    assert q1 == ExpandAt(q, i);
    ExpandFromKeeps(q1, i + 1, i);
    assert r[i] == q1[i];
    forall k | 0 <= k < i
      ensures r[k] == q[k]
    {
      ExpandFromKeeps(q1, i + 1, k);
      assert q1[..i] == q[..i];
      assert q1[k] == q1[..i][k];
      assert q[k] == q[..i][k];
    }
    assert q == r[..i] + ps[i..];
  }

  /** With no parameter named, expansion changes nothing. */
  lemma {:induction false} ExpandUnnamed(ps: seq<Parm>, i: nat)
    requires i <= |ps|
    requires forall k :: 0 <= k < |ps| ==> ps[k].name.None?
    ensures ExpandFrom(ps, i) == ps
    decreases |ps| - i
  {
    if i < |ps| {
      if ValueOrType(ps[i]).Some? {
        SubstUnnamed(Text(ps[i]), ps, i, 0);
        assert ps[i] == WithText(ps[i], Text(ps[i]));
        assert ps[i := ps[i]] == ps;
      }
      assert ExpandAt(ps, i) == ps;
      ExpandUnnamed(ps, i + 1);
    }
  }

  lemma {:induction false} SubstUnnamed(tv: string, ps: seq<Parm>, i: nat, j: nat)
    requires j <= |ps|
    requires forall k :: 0 <= k < |ps| ==> ps[k].name.None?
    ensures SubstFrom(tv, ps, i, j) == tv
    decreases |ps| - j
  {
    if j < |ps| {
      SubstUnnamed(tv, ps, i, j + 1);
    }
  }

  /** The list of the source's example: for X<int, int> of
      `template<class K, class T, class C = Less<K>>`, after merging and
      appending the default. */
  function LessExample(cValue: string): seq<Parm> {
    [Parm(Some("K"), Some("int"), None, false),
     Parm(Some("T"), Some("int"), None, false),
     Parm(Some("C"), Some("class"), Some(cValue), true)]
  }

  /** The default of C becomes Less<int>; the other parameters are unchanged. */
  lemma DocExampleLess()
    ensures ExpandedDefaults(LessExample("Less<(K)>")) == LessExample("Less<(int)>")
  {
    var ps := LessExample("Less<(K)>");
    IntUnchanged(ps, 0);
    IntUnchanged(ps, 1);
    assert ExpandAt(ps, 0) == ps;
    assert ExpandAt(ps, 1) == ps;
    LessSubst(ps);
    assert ExpandAt(ps, 2) == LessExample("Less<(int)>");
  }

  lemma IntUnchanged(ps: seq<Parm>, i: nat)
    requires ps == LessExample("Less<(K)>")
    ensures SubstFrom("int", ps, i, 0) == "int"
  {
    ReplaceIdAbsent("int", "K", if i == 0 then "int" else "int");
    ReplaceIdAbsent("int", "T", "int");
    ReplaceIdAbsent("int", "C", "Less<(K)>");
    assert SubstFrom("int", ps, i, 3) == "int";
    assert SubstFrom("int", ps, i, 2) == "int";
    assert SubstFrom("int", ps, i, 1) == "int";
  }

  lemma LessKReplaced()
    ensures ReplaceId("Less<(K)>", "K", "int") == ("Less<(int)>", 1)
  {
    var s := "Less<(K)>";
    assert "Less<(" + "K" + ")>" == s;
    assert s[6..7] == "K" && !IsIdChar(s[5]) && !IsIdChar(s[7]);
    forall j | 0 <= j < |s| && j != 6
      ensures !IdAt(s, j, "K")
    {
      FirstCharDiffers(s, j, "K");
    }
    ReplaceIdSingle("Less<(", "K", ")>", "int");
    assert "Less<(" + "int" + ")>" == "Less<(int)>";
  }

  lemma LessSubst(ps: seq<Parm>)
    requires ps == LessExample("Less<(K)>")
    ensures SubstFrom("Less<(K)>", ps, 2, 0) == "Less<(int)>"
  {
    LessKReplaced();
    LessTail(ps);
    assert Text(ps[0]) == "int";
    assert SubstFrom("Less<(K)>", ps, 2, 0) == SubstFrom("Less<(int)>", ps, 2, 1);
  }

  lemma LessTail(ps: seq<Parm>)
    requires ps == LessExample("Less<(K)>")
    ensures SubstFrom("Less<(int)>", ps, 2, 1) == "Less<(int)>"
  {
    ReplaceIdAbsent("Less<(int)>", "T", "int");
    ReplaceIdAbsent("Less<(int)>", "C", "Less<(int)>");
    assert SubstFrom("Less<(int)>", ps, 2, 3) == "Less<(int)>";
    assert SubstFrom("Less<(int)>", ps, 2, 2) == "Less<(int)>";
  }

  // ---------------------------------------------------------------------
  // Swig_cparse_template_parms_expand

  /** The actual parameters with the names, and the missing types, of the
      formal ones (what merge_parameters leaves). */
  function Merged(actuals: seq<Parm>, formals: seq<Parm>): seq<Parm> {
    seq(|actuals|, i requires 0 <= i < |actuals| =>
      if i < |formals| then
        actuals[i].(name := formals[i].name, ty := if actuals[i].ty.Some? then actuals[i].ty else formals[i].ty)
      else actuals[i])
  }

  /** The parameters flagged as defaults (what mark_defaults leaves). */
  function Marked(ds: seq<Parm>): seq<Parm> {
    seq(|ds|, i requires 0 <= i < |ds| => ds[i].(isDefault := true))
  }

  /** Swig_cparse_template_parms_expand: the actual parameters merged with
      the formal ones; for a non-variadic class template given fewer
      arguments than it has parameters, followed by the remaining formal
      parameters marked as defaults, and then expanded. */
  method ParmsExpand(actuals: seq<Parm>, isClass: bool, formals: seq<Parm>) returns (r: seq<Parm>)
    ensures var filled := isClass && VariadicParm(formals).None? && |actuals| < |formals|;
      |r| == (if filled then |formals| else |actuals|)
      && (filled ==> r == ExpandedDefaults(Merged(actuals, formals) + Marked(formals[|actuals|..])))
    ensures forall i :: 0 <= i < |actuals| && i < |formals| ==> r[i].name == formals[i].name
    ensures forall i :: 0 <= i < |actuals| ==> r[i].isDefault == actuals[i].isDefault
    ensures forall i :: |actuals| <= i < |r| ==>
      r[i].isDefault && r[i].name == formals[i].name
      && r[i].value.Some? == formals[i].value.Some? && r[i].ty.Some? == formals[i].ty.Some?
    ensures !isClass || VariadicParm(formals).Some? || |actuals| >= |formals| ==>
      forall i :: 0 <= i < |actuals| ==>
        r[i].value == actuals[i].value
        && r[i].ty == (if actuals[i].ty.Some? || i >= |formals| then actuals[i].ty else formals[i].ty)
  {
    var variadic;
    r, variadic := MergeParameters(actuals, formals);
    if isClass && !variadic && |actuals| < |formals| {
      var defaults := MarkDefaults(formals[|actuals|..]);
      MergedIs(actuals, formals, r);
      MarkedIs(formals[|actuals|..], defaults);
      r := ExpandDefaults(r + defaults);
      FilledShape(actuals, formals);
    }
  }

  lemma MergedIs(actuals: seq<Parm>, formals: seq<Parm>, merged: seq<Parm>)
    requires |merged| == |actuals|
    requires forall i :: 0 <= i < |actuals| && i < |formals| ==>
      merged[i].name == formals[i].name
      && merged[i].ty == (if actuals[i].ty.Some? then actuals[i].ty else formals[i].ty)
      && merged[i].value == actuals[i].value && merged[i].isDefault == actuals[i].isDefault
    requires forall i :: |formals| <= i < |actuals| ==> merged[i] == actuals[i]
    ensures merged == Merged(actuals, formals)
  {
  }

  lemma MarkedIs(ds: seq<Parm>, marked: seq<Parm>)
    requires |marked| == |ds|
    requires forall i :: 0 <= i < |ds| ==> marked[i] == ds[i].(isDefault := true)
    ensures marked == Marked(ds)
  {
  }

  /** The expanded parameter list of a class template given too few
      arguments has one entry per formal parameter; the leading ones are
      named after the formals and keep the arguments' default flags, the
      rest are flagged as defaults. */
  lemma FilledShape(actuals: seq<Parm>, formals: seq<Parm>)
    requires |actuals| < |formals|
    ensures var r := ExpandedDefaults(Merged(actuals, formals) + Marked(formals[|actuals|..]));
      |r| == |formals|
      && (forall i :: 0 <= i < |actuals| ==> r[i].name == formals[i].name && r[i].isDefault == actuals[i].isDefault)
      && forall i :: |actuals| <= i < |r| ==>
        r[i].isDefault && r[i].name == formals[i].name
        && r[i].value.Some? == formals[i].value.Some? && r[i].ty.Some? == formals[i].ty.Some?
  {
    var joined := Merged(actuals, formals) + Marked(formals[|actuals|..]);
    ExpandedShape(joined);
    forall i | |actuals| <= i < |formals|
      ensures joined[i] == formals[i].(isDefault := true)
    {
      assert joined[i] == Marked(formals[|actuals|..])[i - |actuals|];
    }
  }
}

=== FILE: locate.dfy ===
// Choosing the template to instantiate (template_locate and
// Swig_cparse_template_locate).  For a class template: an explicit
// specialization registered under the full name wins; a previous
// instantiation under that name is a duplicate, or is overridden when it
// was an empty one; otherwise the best-ranked partial specialization, and
// failing that the primary template.  For a function template: every
// overload whose parameter count fits is marked for instantiation.
//
// Symbol-table lookups are inputs: the primary template found under the
// name, the node found under the full name (after typedef reduction), the
// node registered under each partial specialization's name, and the chain
// of overloads.  The argument types given to the ranking are the
// instantiation's arguments with defaults added, qualified and
// typedef-reduced, which are symbol-table results too.

module Locate {
  import opened Strings
  import opened Parms
  import opened Ranking

  /** A template (or other) declaration in the symbol table; only whether
      it is marked for instantiation changes. */
  class Node {
    const nodeType: string
    const name: string
    /** "class" for a class template; "" when the attribute is absent. */
    const templatetype: string
    /** Absent on an explicit (full) specialization. */
    const templateparms: Option<seq<Parm>>
    const partials: seq<PartialSpec>
    var instantiate: bool

    constructor (nodeType: string, name: string, templatetype: string,
                 templateparms: Option<seq<Parm>>, partials: seq<PartialSpec>)
      ensures this.nodeType == nodeType && this.name == name && this.templatetype == templatetype
      ensures this.templateparms == templateparms && this.partials == partials
      ensures !instantiate
    {
      this.nodeType := nodeType;
      this.name := name;
      this.templatetype := templatetype;
      this.templateparms := templateparms;
      this.partials := partials;
      instantiate := false;
    }
  }

  /** The name and symbol name of an earlier instantiation. */
  datatype Instantiation = Instantiation(name: string, symname: string)

  /** What the lookup under the full name found: a node that is not an
      instantiation, or an instantiation of `template`.  A hidden
      instantiation is an empty %template() one; its named sibling, if
      any, is `next`. */
  datatype Found =
    | FoundNode(node: Node)
    | FoundInstance(template: Node, hidden: bool, self: Instantiation, next: Option<Instantiation>)

  /** The diagnostics the template engine reports. */
  datatype Event =
    | TemplateUndefined(name: string)
    | NotATemplate(name: string, nodeType: string)
    | DuplicateInstantiation(tname: string, symname: string)
    | PreviousInstantiation(name: string, symname: string)
    | Ambiguous(tname: string)
    | AmbiguousUsed(name: string)
    | AmbiguousIgnored(name: string)
    | TooManyParms(maximum: nat)
    | NotEnoughParms(required: int)

  datatype Decision = Continue | Accept(node: Node) | Reject(log: seq<Event>)

  /** The earlier instantiation that has a name, if any. */
  function PreviousNamed(hidden: bool, self: Instantiation, next: Option<Instantiation>): Option<Instantiation> {
    if hidden then next else Some(self)
  }

  /** The explicit-specialization step of template_locate, on the result of
      the lookup under the full name.  `written` is the name with the
      arguments as written, used in the duplicate warning. */
  function ExplicitDecision(name: string, written: string, found: Option<Found>, symname: Option<string>): (d: Decision)
    ensures d.Continue? <==> found.None?
    ensures d.Accept? ==>
      (found.value.FoundNode? && d.node == found.value.node && d.node.nodeType == "template")
      || (found.value.FoundInstance? && d.node == found.value.template && symname.Some?
          && PreviousNamed(found.value.hidden, found.value.self, found.value.next).None?)
    ensures d.Reject? ==> |d.log| <= 2
    ensures d == Reject([]) <==> found.Some? && found.value.FoundInstance? && symname.None?
    ensures found.Some? && found.value.FoundNode? ==>
      d == if found.value.node.nodeType == "template" then Accept(found.value.node)
           else Reject([NotATemplate(name, found.value.node.nodeType)])
  {
    match found
    case None => Continue
    case Some(FoundNode(n)) =>
      if n.nodeType == "template" then Accept(n) else Reject([NotATemplate(name, n.nodeType)])
    case Some(FoundInstance(tn, hidden, self, next)) =>
      if symname.None? then Reject([])
      else match PreviousNamed(hidden, self, next)
        case Some(prev) => Reject([DuplicateInstantiation(written, symname.value), PreviousInstantiation(prev.name, prev.symname)])
        case None => Accept(tn)
  }

  /** A named instantiation that repeats an earlier named one is refused with
      exactly one warning pair; an empty instantiation is refused silently. */
  lemma DuplicateRefused(name: string, written: string, f: Found, symname: Option<string>)
    requires f.FoundInstance? && PreviousNamed(f.hidden, f.self, f.next).Some?
    ensures symname.None? ==> ExplicitDecision(name, written, Some(f), symname) == Reject([])
    ensures symname.Some? ==>
      ExplicitDecision(name, written, Some(f), symname) ==
        Reject([DuplicateInstantiation(written, symname.value),
                PreviousInstantiation(PreviousNamed(f.hidden, f.self, f.next).value.name,
                                      PreviousNamed(f.hidden, f.self, f.next).value.symname)])
  {
  }

  /** Only an empty earlier instantiation can be overridden, and then by a
      named one, which reuses the earlier one's template. */
  lemma EmptyInstantiationOverridden(name: string, written: string, f: Found, symname: Option<string>)
    requires f.FoundInstance?
    ensures ExplicitDecision(name, written, Some(f), symname).Accept? <==> symname.Some? && f.hidden && f.next.None?
  {
  }

  /** The ambiguity warnings: the instantiation is ambiguous, the one used
      (when the lookup of its name found it), and each one ignored. */
  function AmbiguityLog(tname: string, used: Option<Node>, ps: seq<PartialSpec>, fin: seq<nat>,
                        lookupPartial: string -> Option<Node>): (log: seq<Event>)
    requires forall k :: 0 <= k < |fin| ==> fin[k] < |ps|
  {
    if |fin| <= 1 then []
    else
      (if used.Some? then [Ambiguous(tname), AmbiguousUsed(used.value.name)] else [])
      + seq(|fin| - 1, k requires 0 <= k < |fin| - 1 => AmbiguousIgnored(IgnoredName(ps[fin[k + 1]].templcsymname, lookupPartial)))
  }

  /** The name an ignored partial specialization is reported under: the
      name of the node its registered name leads to.  The source asserts
      that there is one; without it the registered name is reported. */
  function IgnoredName(templcsymname: string, lookupPartial: string -> Option<Node>): string {
    if lookupPartial(templcsymname).Some? then lookupPartial(templcsymname).value.name else templcsymname
  }

  /** template_locate.  `tname` is the name with the expanded arguments,
      `written` the name with the arguments as written. */
  function Locate(name: string, tname: string, written: string, symname: Option<string>,
                  primary: Option<Node>, found: Option<Found>, args: seq<string>,
                  lookupPartial: string -> Option<Node>): (Option<Node>, seq<Event>)
  {
    if primary.None? then (None, [TemplateUndefined(name)])
    else match ExplicitDecision(name, written, found, symname)
      case Accept(x) => (Some(x), [])
      case Reject(log) => (None, log)
      case Continue => Ranked(name, tname, primary.value, args, lookupPartial)
  }

  /** The last step of template_locate: the best-ranked partial
      specialization, when its name leads to a node, or else the primary
      template, with the ambiguity warnings. */
  function Ranked(name: string, tname: string, primary: Node, args: seq<string>,
                  lookupPartial: string -> Option<Node>): (Option<Node>, seq<Event>)
  {
    var ps := primary.partials;
    var fin := Finalists(args, ps);
    var used := if |fin| > 0 then lookupPartial(ps[fin[0]].templcsymname) else None;
    var n := if used.Some? then used.value else primary;
    var log := AmbiguityLog(tname, used, ps, fin, lookupPartial);
    if n.nodeType == "template" then (Some(n), log) else (None, log + [NotATemplate(name, n.nodeType)])
  }

  /** The warnings of an ambiguous choice, written out one by one. */
  method ReportAmbiguity(tname: string, used: Option<Node>, ps: seq<PartialSpec>, fin: seq<nat>,
                         lookupPartial: string -> Option<Node>) returns (log: seq<Event>)
    requires forall k :: 0 <= k < |fin| ==> fin[k] < |ps|
    ensures log == AmbiguityLog(tname, used, ps, fin, lookupPartial)
  {
    log := [];
    if |fin| > 1 {
      if used.Some? {
        log := [Ambiguous(tname), AmbiguousUsed(used.value.name)];
      }
      ghost var head := log;
      var i := 1;
      while i < |fin|
        invariant 1 <= i <= |fin|
        invariant log == head + seq(i - 1, k requires 0 <= k < i - 1 => AmbiguousIgnored(IgnoredName(ps[fin[k + 1]].templcsymname, lookupPartial)))
      {
        var ignored := lookupPartial(ps[fin[i]].templcsymname);
        var ignoredName := if ignored.Some? then ignored.value.name else ps[fin[i]].templcsymname;
        log := log + [AmbiguousIgnored(ignoredName)];
        i := i + 1;
      }
    }
  }

  /** template_locate as the source runs it: the explicit step, then the
      ranking of the partial specializations, then the warnings. */
  method TemplateLocate(name: string, tname: string, written: string, symname: Option<string>,
                        primary: Option<Node>, found: Option<Found>, args: seq<string>,
                        lookupPartial: string -> Option<Node>)
    returns (n: Option<Node>, log: seq<Event>)
    ensures (n, log) == Locate(name, tname, written, symname, primary, found, args, lookupPartial)
  {
    if primary.None? {
      return None, [TemplateUndefined(name)];
    }
    var d := ExplicitDecision(name, written, found, symname);
    if d.Accept? {
      return Some(d.node), [];
    } else if d.Reject? {
      return None, d.log;
    }
    var ps := primary.value.partials;
    var fin := RankPartials(args, ps);
    n := None;
    if |fin| > 0 {
      n := lookupPartial(ps[fin[0]].templcsymname);
    }
    log := ReportAmbiguity(tname, n, ps, fin, lookupPartial);
    if n.None? {
      n := primary;
    }
    if n.value.nodeType != "template" {
      log := log + [NotATemplate(name, n.value.nodeType)];
      n := None;
    }
  }

  /** An explicit specialization found under the full name is used as is,
      whatever partial specializations exist. */
  lemma ExplicitSpecializationWins(name: string, tname: string, written: string, symname: Option<string>,
                                   primary: Node, x: Node, args: seq<string>, lookupPartial: string -> Option<Node>)
    requires x.nodeType == "template"
    ensures Locate(name, tname, written, symname, Some(primary), Some(FoundNode(x)), args, lookupPartial) == (Some(x), [])
  {
  }

  /** Whatever is returned is a template: the located node, or the template
      an empty earlier instantiation was made from. */
  lemma LocatedIsTemplate(name: string, tname: string, written: string, symname: Option<string>,
                          primary: Option<Node>, found: Option<Found>, args: seq<string>,
                          lookupPartial: string -> Option<Node>)
    ensures var (n, _) := Locate(name, tname, written, symname, primary, found, args, lookupPartial);
      n.Some? ==> n.value.nodeType == "template" || (found.Some? && found.value.FoundInstance? && n.value == found.value.template)
  {
  }

  /** With no explicit specialization and no matching partial one, the
      primary template is used, without warnings. */
  lemma PrimaryFallback(name: string, tname: string, written: string, symname: Option<string>,
                        primary: Node, args: seq<string>, lookupPartial: string -> Option<Node>)
    requires primary.nodeType == "template"
    requires forall p :: p in primary.partials ==> !Eligible(args, p)
    ensures Locate(name, tname, written, symname, Some(primary), None, args, lookupPartial) == (Some(primary), [])
  {
    var ps := primary.partials;
    assert forall i :: 0 <= i < |ps| ==> ps[i] in ps;
    FinalistsEligible(args, ps);
  }

  /** Between several remaining partial specializations the first is used,
      with one "used" warning and one "ignored" warning for each other. */
  lemma AmbiguityWarnings(name: string, tname: string, written: string, symname: Option<string>,
                          primary: Node, args: seq<string>, lookupPartial: string -> Option<Node>)
    requires |Finalists(args, primary.partials)| > 1
    requires lookupPartial(primary.partials[Finalists(args, primary.partials)[0]].templcsymname).Some?
    ensures var (_, log) := Locate(name, tname, written, symname, Some(primary), None, args, lookupPartial);
      var fin := Finalists(args, primary.partials);
      var used := lookupPartial(primary.partials[fin[0]].templcsymname).value;
      |log| >= |fin| + 1
      && log[..2] == [Ambiguous(tname), AmbiguousUsed(used.name)]
      && forall k :: 1 <= k < |fin| ==> log[k + 1] == AmbiguousIgnored(IgnoredName(primary.partials[fin[k]].templcsymname, lookupPartial))
  {
    var ps := primary.partials;
    var fin := Finalists(args, ps);
    var used := lookupPartial(ps[fin[0]].templcsymname);
    var log0 := AmbiguityLog(tname, used, ps, fin, lookupPartial);
    assert ExplicitDecision(name, written, None, symname) == Continue;
    var log := Locate(name, tname, written, symname, Some(primary), None, args, lookupPartial).1;
    assert log == Ranked(name, tname, primary, args, lookupPartial).1;
    assert log == log0 || log == log0 + [NotATemplate(name, used.value.nodeType)];
    AmbiguityLogShape(tname, used.value, ps, fin, lookupPartial);
    forall k | 0 <= k < |log0|
      ensures log[k] == log0[k]
    {
    }
    assert log[..2] == log0[..2];
  }

  lemma AmbiguityLogShape(tname: string, used: Node, ps: seq<PartialSpec>, fin: seq<nat>, lookupPartial: string -> Option<Node>)
    requires |fin| > 1 && forall k :: 0 <= k < |fin| ==> fin[k] < |ps|
    ensures var log := AmbiguityLog(tname, Some(used), ps, fin, lookupPartial);
      |log| == |fin| + 1 && log[..2] == [Ambiguous(tname), AmbiguousUsed(used.name)]
      && forall k :: 1 <= k < |fin| ==> log[k + 1] == AmbiguousIgnored(IgnoredName(ps[fin[k]].templcsymname, lookupPartial))
  {
    var head := [Ambiguous(tname), AmbiguousUsed(used.name)];
    var tail := seq(|fin| - 1, k requires 0 <= k < |fin| - 1 => AmbiguousIgnored(IgnoredName(ps[fin[k + 1]].templcsymname, lookupPartial)));
    assert AmbiguityLog(tname, Some(used), ps, fin, lookupPartial) == head + tail;
    forall k | 1 <= k < |fin|
      ensures (head + tail)[k + 1] == AmbiguousIgnored(IgnoredName(ps[fin[k]].templcsymname, lookupPartial))
    {
      assert (head + tail)[k + 1] == tail[k - 1];
    }
  }

  // ---------------------------------------------------------------------
  // Swig_cparse_template_locate

  /** The template parameters of a node, an absent list being empty. */
  function FormalsOf(n: Node): seq<Parm> {
    if n.templateparms.Some? then n.templateparms.value else []
  }

  /** The arity check of a class template against the number of arguments:
      none for an explicit specialization; a variadic template accepts any
      number of extra arguments and may leave its pack empty. */
  function ClassArity(formals: Option<seq<Parm>>, count: nat): (log: seq<Event>)
    ensures |log| <= 1
    ensures formals.None? ==> log == []
    ensures formals.Some? && VariadicParm(formals.value).None? && count > |formals.value| ==>
      log == [TooManyParms(|formals.value|)]
    ensures log == [] <==>
      (formals.None?
       || ((VariadicParm(formals.value).Some? || count <= |formals.value|)
           && count >= NumRequired(formals.value) - (if VariadicParm(formals.value).Some? then 1 else 0)))
  {
    if formals.None? then []
    else
      var tparms := formals.value;
      var variadic := VariadicParm(tparms).Some?;
      var required := NumRequired(tparms) - (if variadic then 1 else 0);
      if !variadic && count > |tparms| then [TooManyParms(|tparms|)]
      else if count < required then [NotEnoughParms(required)]
      else []
  }

  /** Any count from the number of required parameters up to the number of
      parameters is accepted by a non-variadic class template. */
  lemma ArityRange(formals: seq<Parm>, count: nat)
    requires VariadicParm(formals).None?
    ensures ClassArity(Some(formals), count) == [] <==> NumRequired(formals) <= count <= |formals|
  {
  }

  /** First pass: a non-variadic function template with exactly as many
      template parameters as arguments. */
  predicate FirstPassMatch(n: Node, count: nat) {
    n.nodeType == "template" && VariadicParm(FormalsOf(n)).None? && count == |FormalsOf(n)|
  }

  /** Second pass: a variadic function template whose fixed parameters are
      all given. */
  predicate SecondPassMatch(n: Node, count: nat) {
    n.nodeType == "template" && VariadicParm(FormalsOf(n)).Some? && count >= |FormalsOf(n)| - 1
  }

  /** The overloads marked for instantiation: the first-pass matches, or,
      only when there are none, the second-pass matches. */
  predicate Selected(chain: seq<Node>, count: nat, n: Node) {
    FirstPassMatch(n, count)
    || ((forall m :: m in chain ==> !FirstPassMatch(m, count)) && SecondPassMatch(n, count))
  }

  /** One pass over the overload chain: marks every node satisfying the
      pass's test and returns the first. */
  method MarkPass(chain: seq<Node>, count: nat, second: bool) returns (first: Option<Node>)
    modifies set n | n in chain
    ensures forall n :: n in chain ==>
      n.instantiate == (old(n.instantiate) || (if second then SecondPassMatch(n, count) else FirstPassMatch(n, count)))
    ensures first.None? <==> forall n :: n in chain ==> !(if second then SecondPassMatch(n, count) else FirstPassMatch(n, count))
    ensures first.Some? ==>
      exists i :: 0 <= i < |chain| && chain[i] == first.value
        && (if second then SecondPassMatch(chain[i], count) else FirstPassMatch(chain[i], count))
        && forall j :: 0 <= j < i ==> !(if second then SecondPassMatch(chain[j], count) else FirstPassMatch(chain[j], count))
  {
    first := None;
    var i := 0;
    while i < |chain|
      invariant 0 <= i <= |chain|
      invariant forall n :: n in chain && n !in chain[..i] ==> n.instantiate == old(n.instantiate)
      invariant forall n :: n in chain[..i] ==>
        n.instantiate == (old(n.instantiate) || (if second then SecondPassMatch(n, count) else FirstPassMatch(n, count)))
      invariant first.None? <==> forall j :: 0 <= j < i ==> !(if second then SecondPassMatch(chain[j], count) else FirstPassMatch(chain[j], count))
      invariant first.Some? ==>
        exists k :: 0 <= k < i && chain[k] == first.value
          && (if second then SecondPassMatch(chain[k], count) else FirstPassMatch(chain[k], count))
          && forall j :: 0 <= j < k ==> !(if second then SecondPassMatch(chain[j], count) else FirstPassMatch(chain[j], count))
    {
      var n := chain[i];
      var ok := if second then SecondPassMatch(n, count) else FirstPassMatch(n, count);
      if ok {
        n.instantiate := true;
        if first.None? {
          first := Some(n);
        }
      }
      assert chain[..i + 1] == chain[..i] + [n];
      i := i + 1;
    }
    assert chain[..i] == chain;
    if first.None? {
      forall n | n in chain
        ensures !(if second then SecondPassMatch(n, count) else FirstPassMatch(n, count))
      {
        var j :| 0 <= j < |chain| && chain[j] == n;
      }
    }
  }

  /** The function-template branch of Swig_cparse_template_locate. */
  method SelectFunctionTemplates(name: string, chain: seq<Node>, count: nat) returns (match_: Option<Node>, log: seq<Event>)
    modifies set n | n in chain
    ensures forall n :: n in chain ==> n.instantiate == (old(n.instantiate) || Selected(chain, count, n))
    ensures match_.None? <==> forall n :: n in chain ==> !Selected(chain, count, n)
    ensures match_.Some? ==> FirstSelected(chain, count, match_.value)
    ensures log == if match_.None? then [TemplateUndefined(name)] else []
  {
    match_ := MarkPass(chain, count, false);
    if match_.None? {
      match_ := MarkPass(chain, count, true);
      if match_.Some? {
        var i :| 0 <= i < |chain| && chain[i] == match_.value && SecondPassMatch(chain[i], count)
          && forall j :: 0 <= j < i ==> !SecondPassMatch(chain[j], count);
        assert Selected(chain, count, chain[i]);
      }
    } else {
      var i :| 0 <= i < |chain| && chain[i] == match_.value && FirstPassMatch(chain[i], count)
        && forall j :: 0 <= j < i ==> !FirstPassMatch(chain[j], count);
      assert Selected(chain, count, chain[i]);
      assert forall j :: 0 <= j < i ==> !Selected(chain, count, chain[j]);
    }
    log := if match_.None? then [TemplateUndefined(name)] else [];
  }

  /** n is the first node of the chain that is selected. */
  predicate FirstSelected(chain: seq<Node>, count: nat, n: Node) {
    exists i :: 0 <= i < |chain| && chain[i] == n && Selected(chain, count, n)
      && forall j :: 0 <= j < i ==> !Selected(chain, count, chain[j])
  }

  /** Variadic overloads are only considered when no non-variadic one fits. */
  lemma NonVariadicPreferred(chain: seq<Node>, count: nat, n: Node)
    requires exists m :: m in chain && FirstPassMatch(m, count)
    requires VariadicParm(FormalsOf(n)).Some?
    ensures !Selected(chain, count, n)
  {
  }

  /** Swig_cparse_template_locate: locates the template and marks what is to
      be instantiated; `nodes` are the declarations the lookups can return. */
  method TemplateLocateAndMark(name: string, tname: string, written: string, symname: Option<string>,
                               primary: Option<Node>, found: Option<Found>, args: seq<string>,
                               lookupPartial: string -> Option<Node>, count: nat, chain: seq<Node>,
                               nodes: set<Node>)
    returns (match_: Option<Node>, log: seq<Event>)
    requires primary.Some? ==> primary.value in nodes
    requires found.Some? && found.value.FoundNode? ==> found.value.node in nodes
    requires found.Some? && found.value.FoundInstance? ==> found.value.template in nodes
    requires forall s :: lookupPartial(s).Some? ==> lookupPartial(s).value in nodes
    requires forall n :: n in chain ==> n in nodes
    modifies nodes
    ensures var (n, log0) := Locate(name, tname, written, symname, primary, found, args, lookupPartial);
      n.None? ==> match_.None? && log == log0 && forall m :: m in nodes ==> m.instantiate == old(m.instantiate)
    ensures var (n, log0) := Locate(name, tname, written, symname, primary, found, args, lookupPartial);
      n.Some? && n.value.templatetype == "class" ==>
        match_ == n && n.value.instantiate && log == log0 + ClassArity(n.value.templateparms, count)
        && forall m :: m in nodes && m != n.value ==> m.instantiate == old(m.instantiate)
    ensures var (n, log0) := Locate(name, tname, written, symname, primary, found, args, lookupPartial);
      n.Some? && n.value.templatetype != "class" ==>
        (match_.None? <==> forall m :: m in chain ==> !Selected(chain, count, m))
        && (match_.Some? ==> FirstSelected(chain, count, match_.value))
        && log == log0 + (if match_.None? then [TemplateUndefined(name)] else [])
        && (forall m :: m in chain ==> m.instantiate == (old(m.instantiate) || Selected(chain, count, m)))
        && forall m :: m in nodes && m !in chain ==> m.instantiate == old(m.instantiate)
  {
    var n;
    n, log := TemplateLocate(name, tname, written, symname, primary, found, args, lookupPartial);
    match_ := None;
    if n.Some? {
      var t := n.value;
      if t.templatetype == "class" {
        log := log + ClassArity(t.templateparms, count);
        t.instantiate := true;
        match_ := n;
      } else {
        var flog;
        match_, flog := SelectFunctionTemplates(name, chain, count);
        log := log + flog;
      }
    }
  }
}

=== FILE: matching.dfy ===
// Matching one template argument against one parameter of a partial
// specialization (does_parm_match), and recovering the deduced argument
// (partial_arg).  A partial specialization's parameter is a type pattern in
// which the i-th deduced template parameter is written as the placeholder
// "$i", e.g. "r.q(const).$1" for `T const &`.

module Matching {
  import opened Strings
  import opened Types

  /** EMatch, with the codes the source compares against. */
  datatype EMatch = ExactNoMatch | PartiallySpecializedNoMatch | PartiallySpecializedMatch | ExactMatch

  function Code(m: EMatch): int {
    match m
    case ExactNoMatch => -2
    case PartiallySpecializedNoMatch => -1
    case PartiallySpecializedMatch => 1
    case ExactMatch => 2
  }

  /** Larger than the length of any type, so an exact match outranks every
      deduced one. */
  const ExactMatchPriority: int := 99999

  /** The placeholder of the i-th parameter of a partial specialization. */
  function Placeholder(i: nat): (ph: string)
    ensures |ph| >= 2 && ph[0] == '$'
  {
    "$" + NatToString(i)
  }

  /** The pattern with its placeholder removed, e.g. "p." for "p.$1". */
  function Stripped(pattern: string, ph: string): string {
    ReplaceId(pattern, ph, "").0
  }

  /** does_parm_match.  `ty` is the argument type after typedef reduction in
      the template's scope (the reduction is a symbol-table query and is an
      input here); the result is the match kind and the specialization
      priority, higher is better. */
  function DoesParmMatch(ty: string, pattern: string, ph: string): (r: (EMatch, int))
    ensures r.0 == ExactMatch <==>
      ReplaceId(pattern, ph, Base(ty)).1 != 1 && ReplaceId(pattern, ph, Base(ty)).0 == ty
    ensures r.0 == PartiallySpecializedMatch <==>
      ReplaceId(pattern, ph, Base(ty)).1 == 1 && IsPrefix(Stripped(pattern, ph), ty)
    ensures r.0 == ExactMatch ==> r.1 == ExactMatchPriority
    ensures r.0 == PartiallySpecializedMatch ==> r.1 == |Stripped(pattern, ph)|
    ensures Code(r.0) < Code(PartiallySpecializedMatch) ==> r.1 == -1
  {
    var (t, substitutions) := ReplaceId(pattern, ph, Base(ty));
    if substitutions == 1 then
      var tt := Stripped(pattern, ph);
      if IsPrefix(tt, ty) then (PartiallySpecializedMatch, |tt|)
      else (PartiallySpecializedNoMatch, -1)
    else if t == ty then (ExactMatch, ExactMatchPriority)
    else (ExactNoMatch, -1)
  }

  /** A position scores at least a deduced match exactly when its priority is
      not negative: the matrix of priorities alone decides candidacy. */
  lemma MatchIffPriority(ty: string, pattern: string, ph: string)
    ensures Code(DoesParmMatch(ty, pattern, ph).0) >= Code(PartiallySpecializedMatch)
        <==> DoesParmMatch(ty, pattern, ph).1 >= 0
  {
  }

  /** A deduced match is never longer than the argument, so for any type
      shorter than 99999 characters an exact match ranks strictly higher. */
  lemma PartialPriorityBound(ty: string, pattern: string, ph: string)
    requires DoesParmMatch(ty, pattern, ph).0 == PartiallySpecializedMatch
    ensures 0 <= DoesParmMatch(ty, pattern, ph).1 <= |ty|
    ensures |ty| < ExactMatchPriority ==> DoesParmMatch(ty, pattern, ph).1 < ExactMatchPriority
  {
  }

  /** An explicit pattern (no placeholder) matches exactly when it is the
      argument type itself, and otherwise does not match at all. */
  lemma ExplicitPattern(ty: string, pattern: string, ph: string)
    requires !HasIdFrom(pattern, ph, 0)
    ensures DoesParmMatch(ty, pattern, ph) ==
      if pattern == ty then (ExactMatch, ExactMatchPriority) else (ExactNoMatch, -1)
  {
    ReplaceIdNone(pattern, ph, Base(ty));
  }

  /** No placeholder text can start inside a prefix that has no '$'. */
  lemma NoPlaceholderIn(pre: string, i: nat)
    requires '$' !in pre
    ensures forall j :: 0 <= j < |pre| ==> !IdAt(pre + Placeholder(i), j, Placeholder(i))
  {
    var ph := Placeholder(i);
    forall j | 0 <= j < |pre|
      ensures !IdAt(pre + ph, j, ph)
    {
      assert (pre + ph)[j] == pre[j];
      assert pre[j] in pre;
      FirstCharDiffers(pre + ph, j, ph);
    }
  }

  /** The usual shape of a deduced parameter: operators followed by the
      placeholder, e.g. "r.q(const).$1".  It matches exactly the types that
      start with those operators, with the operators' length as priority. */
  lemma TrailingPlaceholder(ty: string, pre: string, i: nat)
    requires '$' !in pre
    requires pre == "" || !IsIdChar(pre[|pre| - 1])
    ensures DoesParmMatch(ty, pre + Placeholder(i), Placeholder(i)) ==
      if IsPrefix(pre, ty) then (PartiallySpecializedMatch, |pre|) else (PartiallySpecializedNoMatch, -1)
  {
    var ph := Placeholder(i);
    NoPlaceholderIn(pre, i);
    assert OccursAt(pre + ph, |pre|, ph) by {
      assert (pre + ph)[|pre|..|pre| + |ph|] == ph;
    }
    assert IdAt(pre + ph, |pre|, ph);
    ReplaceIdAtEnd(pre, ph, Base(ty));
    ReplaceIdAtEnd(pre, ph, "");
    assert pre + "" == pre;
  }

  lemma PlaceholderOne()
    ensures Placeholder(1) == "$1"
  {
    assert NatToString(1) == "1";
  }

  /** The example of the source's comment: r.q(const).p.int is matched by
      `T &`, `T const &` and `T *const &`, with increasing priority. */
  lemma DocExampleRef()
    ensures DoesParmMatch("r.q(const).p.int", "r.$1", "$1") == (PartiallySpecializedMatch, 2)
  {
    PlaceholderOne();
    TrailingPlaceholder("r.q(const).p.int", "r.", 1);
    assert "r." + "$1" == "r.$1";
    assert "r.q(const).p.int"[..2] == "r.";
  }

  lemma DocExampleConstRef()
    ensures DoesParmMatch("r.q(const).p.int", "r.q(const).$1", "$1") == (PartiallySpecializedMatch, 11)
  {
    PlaceholderOne();
    TrailingPlaceholder("r.q(const).p.int", "r.q(const).", 1);
    assert "r.q(const)." + "$1" == "r.q(const).$1";
    assert "r.q(const).p.int"[..11] == "r.q(const).";
  }

  lemma DocExampleConstPtrRef()
    ensures DoesParmMatch("r.q(const).p.int", "r.q(const).p.$1", "$1") == (PartiallySpecializedMatch, 13)
  {
    PlaceholderOne();
    TrailingPlaceholder("r.q(const).p.int", "r.q(const).p.", 1);
    assert "r.q(const).p." + "$1" == "r.q(const).p.$1";
    assert "r.q(const).p.int"[..13] == "r.q(const).p.";
  }

  /** partial_arg: removes the text before the pattern's first '$' from the
      argument, i.e. recovers the deduced template argument. */
  function PartialArg(s: string, p: string): (r: string)
    ensures |r| <= |s|
    ensures IndexOf(p, "$").None? ==> r == s
  {
    match IndexOf(p, "$")
    case None => s
    case Some(c) => RemoveFirst(s, p[..c])
  }

  /** With an argument that starts with the pattern's operators, the deduced
      argument is what follows them. */
  lemma PartialArgDeduces(s: string, pre: string, rest: string)
    requires '$' !in pre
    requires IsPrefix(pre, s)
    ensures PartialArg(s, pre + "$" + rest) == s[|pre|..]
  {
    var p := pre + "$" + rest;
    assert OccursAt(p, |pre|, "$") by {
      assert p[|pre|..|pre| + 1] == "$";
    }
    forall j | 0 <= j < |pre|
      ensures !OccursAt(p, j, "$")
    {
      assert p[j] == pre[j];
      assert pre[j] in pre;
      FirstCharDiffers(p, j, "$");
    }
    match IndexOf(p, "$")
    case None => assert false;
    case Some(c) =>
      assert c == |pre|;
      assert p[..c] == pre;
      if pre != "" {
        assert OccursAt(s, 0, pre);
        assert IndexOf(s, pre) == Some(0);
        assert s[..0] + s[|pre|..] == s[|pre|..];
      }
  }

  /** Matching and deduction agree: when the pattern `pre$i` matches, the
      operators followed by the deduced argument give back the argument. */
  lemma PrefixRest(pre: string, s: string)
    requires IsPrefix(pre, s)
    ensures pre + s[|pre|..] == s
  {
    assert s == s[..|pre|] + s[|pre|..];
  }

  lemma MatchThenDeduce(ty: string, pre: string, i: nat)
    requires '$' !in pre
    requires pre == "" || !IsIdChar(pre[|pre| - 1])
    requires DoesParmMatch(ty, pre + Placeholder(i), Placeholder(i)).0 == PartiallySpecializedMatch
    ensures pre + PartialArg(ty, pre + Placeholder(i)) == ty
  {
    var ph := Placeholder(i);
    TrailingPlaceholder(ty, pre, i);
    assert IsPrefix(pre, ty);
    var rest := ph[1..];
    assert ph == "$" + rest;
    assert pre + "$" + rest == pre + ph;
    PartialArgDeduces(ty, pre, rest);
    assert PartialArg(ty, pre + ph) == ty[|pre|..];
    PrefixRest(pre, ty);
  }
}

=== FILE: normalizer.dfy ===
// Declarator normalizer (cparse_fix_function_decl): after substitution a
// function's return type may start with operators that belong to the
// declarator.  They move, as text, from the front of "type" to the end of
// "decl"; trailing qualifiers and arrays stay with the base.

module Normalizer {
  import opened Strings
  import opened Types

  /** Operators that stay in the type: qualifiers and arrays. */
  predicate Kept(op: string) {
    IsQualifierOp(op) || IsArrayOp(op)
  }

  /** Start of the trailing run of kept operators: the operators before it move. */
  function KeepFrom(ops: seq<string>): (k: nat)
    ensures k <= |ops|
    ensures forall j :: k <= j < |ops| ==> Kept(ops[j])
    ensures k == 0 || !Kept(ops[k - 1])
  {
    if ops == [] then 0
    else if Kept(ops[|ops| - 1]) then KeepFrom(ops[..|ops| - 1])
    else |ops|
  }

  /** The text that moves from the type to the declarator. */
  function Moved(ty: string): (m: string)
    ensures IsPrefix(m, ty)
  {
    var ops := Ops(ty);
    var k := KeepFrom(ops);
    SplitConcat(ty);
    ConcatAppend(ops[..k], ops[k..]);
    assert ops == ops[..k] + ops[k..];
    Concat(ops[..k])
  }

  /** The new (decl, type) pair. */
  function FixDecl(decl: string, ty: string): (string, string) {
    var m := Moved(ty);
    (decl + m, ty[|m|..])
  }

  /** cparse_fix_function_decl on the text of the two attributes. */
  method FixFunctionDecl(decl: string, ty: string) returns (newDecl: string, newType: string)
    ensures (newDecl, newType) == FixDecl(decl, ty)
  {
    var prefix := Ops(ty);
    var k := |prefix|;
    // strip trailing qualifier and array operators off the prefix
    while k > 0 && Kept(prefix[k - 1])
      invariant 0 <= k <= |prefix|
      invariant KeepFrom(prefix[..k]) == KeepFrom(prefix)
    {
      assert prefix[..k][..k - 1] == prefix[..k - 1];
      k := k - 1;
    }
    assert KeepFrom(prefix[..k]) == k;
    var moved := Concat(prefix[..k]);
    assert moved == Moved(ty);
    newDecl, newType := decl, ty;
    if |moved| > 0 {
      newDecl := decl + moved;
      newType := ty[|moved|..];
    } else {
      assert decl + moved == decl && ty[|moved|..] == ty;
    }
  }

  /** Nothing is lost or invented: decl followed by type reads the same text
      before and after, and what moved is a prefix of the old type. */
  lemma FixDeclPreservesText(decl: string, ty: string)
    ensures FixDecl(decl, ty).0 + FixDecl(decl, ty).1 == decl + ty
    ensures IsPrefix(decl, FixDecl(decl, ty).0)
    ensures IsPrefix(FixDecl(decl, ty).0[|decl|..], ty)
  {
    var m := Moved(ty);
    var (d, t) := FixDecl(decl, ty);
    assert d == decl + m && t == ty[|m|..];
    assert ty == ty[..|m|] + ty[|m|..];
    assert d + t == decl + (m + t);
    assert d[|decl|..] == m;
  }

  /** The new type is its old trailing qualifiers/arrays followed by the old base,
      and the moved operators end with one that is neither. */
  lemma {:induction false} FixDeclType(decl: string, ty: string)
    ensures Ops(FixDecl(decl, ty).1) == Ops(ty)[KeepFrom(Ops(ty))..]
    ensures Base(FixDecl(decl, ty).1) == Base(ty)
    ensures forall op :: op in Ops(FixDecl(decl, ty).1) ==> Kept(op)
  {
    var ops := Ops(ty);
    SplitDrop(ty, KeepFrom(ops));
  }

  lemma {:induction false} KeepFromAllKept(ops: seq<string>)
    requires forall op :: op in ops ==> Kept(op)
    ensures KeepFrom(ops) == 0
  {
    if ops != [] {
      assert ops[|ops| - 1] in ops;
      assert forall op :: op in ops[..|ops| - 1] ==> op in ops;
      KeepFromAllKept(ops[..|ops| - 1]);
    }
  }

  /** Normalizing a normalized declaration changes nothing. */
  lemma FixDeclIdempotent(decl: string, ty: string)
    ensures FixDecl(FixDecl(decl, ty).0, FixDecl(decl, ty).1) == FixDecl(decl, ty)
  {
    var (d, t) := FixDecl(decl, ty);
    FixDeclType(decl, ty);
    KeepFromAllKept(Ops(t));
    assert Ops(t)[..0] == [];
    assert Moved(t) == "";
    assert d + "" == d;
    assert t[0..] == t;
  }

  /** A type with no operators before a non-kept one is left alone. */
  lemma FixDeclNoMove(decl: string, ty: string)
    requires forall op :: op in Ops(ty) ==> Kept(op)
    ensures FixDecl(decl, ty) == (decl, ty)
  {
    KeepFromAllKept(Ops(ty));
    assert Ops(ty)[..0] == [];
    assert decl + "" == decl;
    assert ty[0..] == ty;
  }
}

module NormalizerExamples {
  import opened Strings
  import opened Types
  import opened Normalizer

  lemma SplitQChar()
    ensures Split("q(const).char") == (["q(const)."], "char")
  {
    assert CloseParen("q(const).char", 2, 1) == Some(7);
    assert OpLen("q(const).char") == 9;
    SplitStep("q(const).char");
    assert "q(const).char"[..9] == "q(const).";
    assert "q(const).char"[9..] == "char";
    assert Split("char") == ([], "char");
    assert ["q(const)."] + [] == ["q(const)."];
  }

  lemma SplitPQChar()
    ensures Split("p.q(const).char") == (["p.", "q(const)."], "char")
  {
    assert OpLen("p.q(const).char") == 2;
    SplitStep("p.q(const).char");
    assert "p.q(const).char"[..2] == "p.";
    assert "p.q(const).char"[2..] == "q(const).char";
    SplitQChar();
    assert ["p."] + ["q(const)."] == ["p.", "q(const)."];
  }

  /** A pointer to a type with no operators of its own. */
  lemma SplitPointerTo(base: string)
    requires Split(base) == ([], base)
    ensures Split("p." + base) == (["p."], base)
  {
    var t := "p." + base;
    assert t[..2] == "p.";
    assert OpLen(t) == 2;
    SplitStep(t);
    assert t[2..] == base;
    assert ["p."] + [] == ["p."];
  }

  lemma SplitQPInt()
    ensures Split("q(const).p.int") == (["q(const).", "p."], "int")
  {
    assert CloseParen("q(const).p.int", 2, 1) == Some(7);
    assert OpLen("q(const).p.int") == 9;
    SplitStep("q(const).p.int");
    assert "q(const).p.int"[..9] == "q(const).";
    assert "q(const).p.int"[9..] == "p.int";
    assert Split("int") == ([], "int");
    SplitPointerTo("int");
    assert "p." + "int" == "p.int";
    assert ["q(const)."] + ["p."] == ["q(const).", "p."];
  }

  lemma SplitRQPInt()
    ensures Split("r.q(const).p.int") == (["r.", "q(const).", "p."], "int")
  {
    assert OpLen("r.q(const).p.int") == 2;
    SplitStep("r.q(const).p.int");
    assert "r.q(const).p.int"[..2] == "r.";
    assert "r.q(const).p.int"[2..] == "q(const).p.int";
    SplitQPInt();
    assert ["r."] + ["q(const).", "p."] == ["r.", "q(const).", "p."];
  }

  /** The three examples of the source's documentation comment. */
  lemma FixDeclDocExample1()
    ensures FixDecl("f().", "p.q(const).char") == ("f().p.", "q(const).char")
  {
    var ops := ["p.", "q(const)."];
    SplitPQChar();
    assert Ops("p.q(const).char") == ops;
    assert !Kept(ops[0]) && Kept(ops[1]);
    assert ops[..1] == ["p."];
    assert KeepFrom(ops[..1]) == 1;
    assert KeepFrom(ops) == 1;
    assert Concat(["p."]) == "p.";
    assert Moved("p.q(const).char") == "p.";
    assert "f()." + "p." == "f().p.";
    assert "p.q(const).char"[2..] == "q(const).char";
  }

  lemma FixDeclDocExample2()
    ensures FixDecl("f().p.", "p.SomeClass") == ("f().p.p.", "SomeClass")
  {
    var ops := ["p."];
    assert Split("SomeClass") == ([], "SomeClass");
    SplitPointerTo("SomeClass");
    assert "p." + "SomeClass" == "p.SomeClass";
    assert Ops("p.SomeClass") == ops;
    assert !Kept(ops[0]);
    assert KeepFrom(ops) == 1;
    assert ops[..1] == ops;
    assert Concat(["p."]) == "p.";
    assert Moved("p.SomeClass") == "p.";
    assert "f().p." + "p." == "f().p.p.";
    assert "p.SomeClass"[2..] == "SomeClass";
  }

  lemma ConcatRQP()
    ensures Concat(["r.", "q(const).", "p."]) == "r.q(const).p."
  {
    var ops := ["r.", "q(const).", "p."];
    assert ops[1..] == ["q(const).", "p."] && ops[1..][1..] == ["p."];
    assert Concat(["p."]) == "p.";
    assert Concat(["q(const).", "p."]) == "q(const).p.";
  }

  lemma MovedRQPInt()
    ensures Moved("r.q(const).p.int") == "r.q(const).p."
  {
    var ops := ["r.", "q(const).", "p."];
    SplitRQPInt();
    assert Ops("r.q(const).p.int") == ops;
    assert !Kept(ops[2]);
    assert KeepFrom(ops) == 3;
    assert ops[..3] == ops;
    ConcatRQP();
  }

  lemma FixDeclDocExample3()
    ensures FixDecl("f().", "r.q(const).p.int") == ("f().r.q(const).p.", "int")
  {
    MovedRQPInt();
    AppendFRQP();
    assert "r.q(const).p.int"[13..] == "int";
  }

  lemma AppendFRQP()
    ensures "f()." + "r.q(const).p." == "f().r.q(const).p."
  {
  }
}

=== FILE: parms.dfy ===
// Template parameters and the few ParmList queries the template engine uses.
// A parameter is a record of optional attributes: "name", "type", "value"
// and the "default" flag that marks a parameter filled in from a default.

module Parms {
  import opened Strings
  import opened Types

  datatype Parm = Parm(name: Option<string>, ty: Option<string>, value: Option<string>, isDefault: bool)

  /** A parameter with only a type, as the parser builds for a plain argument. */
  function TypeParm(t: string): Parm {
    Parm(None, Some(t), None, false)
  }

  /** ParmList_variadic_parm: the last parameter, when its type is variadic. */
  function VariadicParm(ps: seq<Parm>): (r: Option<Parm>)
    ensures r.Some? <==> |ps| > 0 && ps[|ps| - 1].ty.Some? && IsVariadic(ps[|ps| - 1].ty.value)
    ensures r.Some? ==> r.value == ps[|ps| - 1]
  {
    if |ps| > 0 && ps[|ps| - 1].ty.Some? && IsVariadic(ps[|ps| - 1].ty.value) then Some(ps[|ps| - 1])
    else None
  }

  /** ParmList_numrequired: the parameters before the first one that has a
      default value. */
  function NumRequired(ps: seq<Parm>): (k: nat)
    ensures k <= |ps|
    ensures forall i :: 0 <= i < k ==> ps[i].value.None?
    ensures k < |ps| ==> ps[k].value.Some?
  {
    if ps == [] || ps[0].value.Some? then 0 else 1 + NumRequired(ps[1..])
  }

  /** The text a parameter stands for: its value, or its type when it has no
      value (a type argument). */
  function ValueOrType(p: Parm): (r: Option<string>)
    ensures r.None? <==> p.value.None? && p.ty.None?
  {
    if p.value.Some? then p.value else p.ty
  }
}

=== FILE: patch.dfy ===
// Swig_cparse_template_expand: instantiating a template declaration with
// the arguments of one instantiation.  The substitution walk (module
// Traverse) queues the strings to rewrite on three worklists; the root's
// name gets the argument list appended; then, template parameter by
// template parameter, the queued identifiers, types and code are
// rewritten; finally the post-processing walk (module Postprocess) tidies
// the function declarators.

module Patch {
  import opened Strings
  import opened Parms
  import opened Tree
  import opened Matching
  import opened Visit
  import opened Traverse
  import opened Postprocess

  /** What a symbol-table lookup of a type finds: the sym:name of the node
      found, and whether that node is a template. */
  datatype Found = Found(symName: Option<string>, isTemplate: bool)

  /** The type-system and symbol-table services the expansion calls. */
  datatype Services = Services(
    templateArgs: seq<Parm> -> string,                              // SwigType_add_template
    scopeLast: string -> string,                                    // Swig_scopename_last
    resolve: string -> string,                                      // typedef reduction, qualification, default template arguments
    render: string -> string,                                       // SwigType_str
    typenameReplace: (string, string, string) -> string,            // SwigType_typename_replace
    variadicReplace: (string, Option<Parm>, seq<Parm>) -> string,   // SwigType_variadic_replace
    lookup: string -> Option<Found>)                                // Swig_symbol_clookup

  // ---------------------------------------------------------------------
  // Partial specialization arguments

  /** The instantiation's arguments seen through a partial specialization:
      where the specialization's argument and the instantiation's argument
      both have a type, the latter loses the operators the specialization
      puts before its placeholder. */
  function PartialArgs(ptargs: seq<Parm>, tparms: seq<Parm>): (r: seq<Parm>)
    requires |ptargs| == |tparms|
    ensures |r| == |tparms|
    ensures forall j :: 0 <= j < |r| ==>
      r[j].name == tparms[j].name && r[j].value == tparms[j].value && r[j].isDefault == tparms[j].isDefault
      && r[j].ty.Some? == tparms[j].ty.Some?
      && (r[j].ty.Some? ==> |r[j].ty.value| <= |tparms[j].ty.value|)
  {
    seq(|tparms|, j requires 0 <= j < |tparms| =>
      if ptargs[j].ty.Some? && tparms[j].ty.Some?
      then tparms[j].(ty := Some(PartialArg(tparms[j].ty.value, ptargs[j].ty.value)))
      else tparms[j])
  }

  /** A specialization argument `p.$1` deduces `int` from `p.int`: the
      pointer the specialization already spells out is removed. */
  lemma PartialArgsPointer(name: Option<string>)
    ensures PartialArgs([TypeParm("p.$1")], [Parm(name, Some("p.int"), None, false)])
      == [Parm(name, Some("int"), None, false)]
  {
    assert "p." + "$" + "1" == "p.$1";
    assert IsPrefix("p.", "p.int") && "p.int"[2..] == "int";
    PartialArgDeduces("p.int", "p.", "1");
  }

  /** The loop over the two argument lists, in step. */
  method ApplyPartialArgs(ptargs: seq<Parm>, tparms: seq<Parm>) returns (r: seq<Parm>)
    requires |ptargs| == |tparms|
    ensures r == PartialArgs(ptargs, tparms)
  {
    r := tparms;
    var j := 0;
    while j < |r|
      invariant 0 <= j <= |r| == |tparms|
      invariant forall x :: 0 <= x < j ==> r[x] == PartialArgs(ptargs, tparms)[x]
      invariant forall x :: j <= x < |r| ==> r[x] == tparms[x]
    {
      if ptargs[j].ty.Some? && r[j].ty.Some? {
        r := r[j := r[j].(ty := Some(PartialArg(r[j].ty.value, ptargs[j].ty.value)))];
      }
      j := j + 1;
    }
  }

  // ---------------------------------------------------------------------
  // Rewriting a worklist

  /** The rewrite applied to each string of one worklist: identifiers
      (patchlist), types (typelist, with or without template parameters)
      and code (cpatchlist). */
  datatype Edit =
    | IdEdit(name: string, dvalue: string)
    | TypeEdit(name: string, dvalue: string, tbase: string, unexpanded: Option<Parm>, pack: seq<Parm>)
    | BareTypeEdit(tbase: string, unexpanded: Option<Parm>, pack: seq<Parm>)
    | CodeEdit(name: string, valuestr: string)

  /** The instantiated name: the root's name attribute as it reads now (the
      source holds on to that very string). */
  function IName(nodes: seq<Record>, root: nat): string {
    match Get(nodes, AttrSlot(root, NameAttr))
    case Some(n) => n
    case None => ""
  }

  /** A type that names a non-template declaration with the template's own
      sym:name: the template's parameters are not substituted in it. */
  predicate Shadowed(nodes: seq<Record>, root: nat, svc: Services, t: string) {
    var found := svc.lookup(t);
    var tsname := Get(nodes, AttrSlot(root, SymNameAttr));
    found.Some? && found.value.symName.Some? && tsname.Some?
    && found.value.symName == tsname && !found.value.isTemplate
  }

  /** Code substitution: "#name" becomes the quoted value, then name the value. */
  function CodeText(t: string, name: string, valuestr: string): string {
    ReplaceId(ReplaceId(t, "#" + name, "\"" + valuestr + "\"").0, name, valuestr).0
  }

  /** The new text of a queued string that reads t. */
  function EditText(nodes: seq<Record>, root: nat, svc: Services, e: Edit, t: string): string {
    match e
    case IdEdit(name, dvalue) => ReplaceId(t, name, dvalue).0
    case TypeEdit(name, dvalue, tbase, unexpanded, pack) =>
      var t1 := svc.variadicReplace(t, unexpanded, pack);
      if Shadowed(nodes, root, svc, t1) then t1
      else svc.typenameReplace(svc.typenameReplace(t1, name, dvalue), tbase, IName(nodes, root))
    case BareTypeEdit(tbase, unexpanded, pack) =>
      svc.typenameReplace(svc.variadicReplace(t, unexpanded, pack), tbase, IName(nodes, root))
    case CodeEdit(name, valuestr) => CodeText(t, name, valuestr)
  }

  /** The strings an edit reads besides the one it rewrites. */
  function ReadSlots(e: Edit, root: nat): set<Slot> {
    if e.TypeEdit? || e.BareTypeEdit? then {AttrSlot(root, NameAttr), AttrSlot(root, SymNameAttr)} else {}
  }

  lemma EditTextReads(a: seq<Record>, b: seq<Record>, root: nat, svc: Services, e: Edit, t: string)
    requires forall s :: s in ReadSlots(e, root) ==> Get(a, s) == Get(b, s)
    ensures EditText(a, root, svc, e, t) == EditText(b, root, svc, e, t)
  {
    if e.TypeEdit? || e.BareTypeEdit? {
      assert Get(a, AttrSlot(root, NameAttr)) == Get(b, AttrSlot(root, NameAttr));
      assert Get(a, AttrSlot(root, SymNameAttr)) == Get(b, AttrSlot(root, SymNameAttr));
    }
  }

  predicate AllRewritable(nodes: seq<Record>, l: seq<Slot>) {
    forall s :: s in l ==> Rewritable(nodes, s)
  }

  predicate WorkRewritable(nodes: seq<Record>, w: Work) {
    AllRewritable(nodes, w.patch) && AllRewritable(nodes, w.types) && AllRewritable(nodes, w.code)
  }

  /** Writing one slot keeps every slot that held a string holding one, and
      every other slot's string. */
  lemma SetKeeps(nodes: seq<Record>, s: Slot, t: string)
    requires Rewritable(nodes, s)
    ensures forall x :: Rewritable(nodes, x) ==> Rewritable(Set(nodes, s, t), x)
    ensures forall x :: x != s ==> Get(Set(nodes, s, t), x) == Get(nodes, x)
    ensures Get(Set(nodes, s, t), s) == Some(t)
  {
    forall x ensures Get(Set(nodes, s, t), x) == if x == s then Some(t) else Get(nodes, x) {
      GetSet(nodes, s, t, x);
    }
  }

  /** The tree after the edit has rewritten the slots of l in turn, each
      from its string as the rewrites before it left it. */
  function ApplyEdit(nodes: seq<Record>, root: nat, svc: Services, e: Edit, l: seq<Slot>): (r: seq<Record>)
    requires AllRewritable(nodes, l)
    ensures Shape(nodes, r)
    ensures forall s :: Rewritable(nodes, s) ==> Rewritable(r, s)
    ensures forall s :: s !in l ==> Get(r, s) == Get(nodes, s)
    decreases |l|
  {
    if l == [] then nodes
    else
      var m := ApplyEdit(nodes, root, svc, e, l[..|l| - 1]);
      var s := l[|l| - 1];
      assert s in l && Rewritable(nodes, s);
      var t := EditText(m, root, svc, e, Get(m, s).value);
      SetKeeps(m, s, t);
      ShapeTrans(nodes, m, Set(m, s, t));
      Set(m, s, t)
  }

  /** The edit applied n times over to t. */
  function Repeat(nodes: seq<Record>, root: nat, svc: Services, e: Edit, n: nat, t: string): string
    decreases n
  {
    if n == 0 then t else EditText(nodes, root, svc, e, Repeat(nodes, root, svc, e, n - 1, t))
  }

  /** The last rewrite of a worklist. */
  lemma ApplyEditLast(nodes: seq<Record>, root: nat, svc: Services, e: Edit, l: seq<Slot>)
    requires l != [] && AllRewritable(nodes, l)
    ensures AllRewritable(nodes, l[..|l| - 1])
    ensures var m := ApplyEdit(nodes, root, svc, e, l[..|l| - 1]);
      Rewritable(m, l[|l| - 1])
      && (forall x :: Get(ApplyEdit(nodes, root, svc, e, l), x)
            == if x == l[|l| - 1] then Some(EditText(m, root, svc, e, Get(m, x).value)) else Get(m, x))
  {
    var m := ApplyEdit(nodes, root, svc, e, l[..|l| - 1]);
    var last := l[|l| - 1];
    assert last in l && Rewritable(nodes, last);
    SetKeeps(m, last, EditText(m, root, svc, e, Get(m, last).value));
  }

  lemma CountLast<T>(l: seq<T>, x: T)
    requires l != []
    ensures multiset(l)[x] == multiset(l[..|l| - 1])[x] + if l[|l| - 1] == x then 1 else 0
  {
    assert l == l[..|l| - 1] + [l[|l| - 1]];
  }

  /** Rewriting strings the edit does not read leaves the edit as it was. */
  lemma ApplyEditUnread(nodes: seq<Record>, root: nat, svc: Services, e: Edit, l: seq<Slot>, t: string)
    requires AllRewritable(nodes, l)
    requires forall x :: x in l ==> x !in ReadSlots(e, root)
    ensures EditText(ApplyEdit(nodes, root, svc, e, l), root, svc, e, t) == EditText(nodes, root, svc, e, t)
  {
    var m := ApplyEdit(nodes, root, svc, e, l);
    forall x | x in ReadSlots(e, root) ensures Get(m, x) == Get(nodes, x) {
      assert x !in l;
    }
    EditTextReads(m, nodes, root, svc, e, t);
  }

  /** Unless the worklist holds a string the edit reads, each string ends
      up rewritten once for every time its slot is listed (twice when two
      list entries alias it, not at all when it is not listed). */
  lemma {:induction false} ApplyEditGet(nodes: seq<Record>, root: nat, svc: Services, e: Edit, l: seq<Slot>, s: Slot)
    requires AllRewritable(nodes, l) && Rewritable(nodes, s)
    requires forall x :: x in l ==> x !in ReadSlots(e, root)
    ensures Get(ApplyEdit(nodes, root, svc, e, l), s)
      == Some(Repeat(nodes, root, svc, e, multiset(l)[s], Get(nodes, s).value))
    decreases |l|
  {
    if l != [] {
      var init, last := l[..|l| - 1], l[|l| - 1];
      CountLast(l, s);
      ApplyEditLast(nodes, root, svc, e, l);
      ApplyEditGet(nodes, root, svc, e, init, s);
      var m := ApplyEdit(nodes, root, svc, e, init);
      ApplyEditUnread(nodes, root, svc, e, init, Repeat(nodes, root, svc, e, multiset(init)[s], Get(nodes, s).value));
      var n := multiset(init)[s];
      var v := Get(nodes, s).value;
      if last == s {
        calc {
          Get(ApplyEdit(nodes, root, svc, e, l), s);
          Some(EditText(m, root, svc, e, Get(m, s).value));
          Some(EditText(nodes, root, svc, e, Repeat(nodes, root, svc, e, n, v)));
          Some(Repeat(nodes, root, svc, e, n + 1, v));
        }
      } else {
        assert Get(ApplyEdit(nodes, root, svc, e, l), s) == Get(m, s);
      }
    }
  }

  /** One of the source's loops over a worklist. */
  method RewriteAll(a: Arena, root: nat, svc: Services, e: Edit, l: seq<Slot>)
    requires AllRewritable(a.nodes, l)
    modifies a
    ensures a.nodes == ApplyEdit(old(a.nodes), root, svc, e, l)
  {
    ghost var o := a.nodes;
    for i := 0 to |l|
      invariant a.nodes == ApplyEdit(o, root, svc, e, l[..i])
    {
      assert l[..i + 1][..i] == l[..i];
      var s := l[i];
      assert s in l && Rewritable(o, s);
      a.nodes := Set(a.nodes, s, EditText(a.nodes, root, svc, e, Get(a.nodes, s).value));
    }
    assert l[..|l|] == l;
  }

  // ---------------------------------------------------------------------
  // Default arguments of later parameters

  /** Parameters that differ at most in their values, and have a value
      exactly when the other does. */
  predicate Alike(ps: seq<Parm>, qs: seq<Parm>) {
    |ps| == |qs|
    && forall j :: 0 <= j < |ps| ==>
      qs[j].name == ps[j].name && qs[j].ty == ps[j].ty && qs[j].isDefault == ps[j].isDefault
      && qs[j].value.Some? == ps[j].value.Some?
  }

  /** The values of the parameters after position k with name replaced by
      dvalue: a default argument may mention an earlier parameter. */
  function DefaultsPatched(ps: seq<Parm>, k: nat, name: string, dvalue: string): (r: seq<Parm>)
    ensures Alike(ps, r)
    ensures forall j :: 0 <= j < |ps| && j <= k ==> r[j] == ps[j]
  {
    seq(|ps|, j requires 0 <= j < |ps| =>
      if j > k && ps[j].value.Some? then ps[j].(value := Some(ReplaceId(ps[j].value.value, name, dvalue).0)) else ps[j])
  }

  /** A later default that does not mention the parameter is left alone;
      one that does has every mention replaced. */
  lemma DefaultsPatchedValue(ps: seq<Parm>, k: nat, name: string, dvalue: string, j: nat)
    requires k < j < |ps| && ps[j].value.Some?
    ensures DefaultsPatched(ps, k, name, dvalue)[j].value.value == ps[j].value.value <== !HasIdFrom(ps[j].value.value, name, 0)
    ensures ReplaceId(ps[j].value.value, name, dvalue).1 > 0 <==> HasIdFrom(ps[j].value.value, name, 0)
  {
    ReplaceIdNone(ps[j].value.value, name, dvalue);
  }

  /** The walk along the parameters after p. */
  method PatchDefaults(ps: seq<Parm>, k: nat, name: string, dvalue: string) returns (r: seq<Parm>)
    ensures r == DefaultsPatched(ps, k, name, dvalue)
  {
    r := ps;
    var j := k + 1;
    while j < |r|
      invariant |r| == |ps|
      invariant forall x :: 0 <= x < |ps| && x < j ==> r[x] == DefaultsPatched(ps, k, name, dvalue)[x]
      invariant forall x :: j <= x < |ps| ==> r[x] == ps[x]
    {
      if r[j].value.Some? {
        r := r[j := r[j].(value := Some(ReplaceId(r[j].value.value, name, dvalue).0))];
      }
      j := j + 1;
    }
  }

  // ---------------------------------------------------------------------
  // The loop over the template parameters

  /** The tree and the two parameter lists, which the loop rewrites. */
  datatype PatchState = PatchState(nodes: seq<Record>, actuals: seq<Parm>, formals: seq<Parm>)

  /** The parameter whose value substitutes the formal parameter at
      position k: the actual argument, or, once the actual arguments have
      run out, the formal parameter itself. */
  function Current(actuals: seq<Parm>, formals: seq<Parm>, k: nat): Parm
    requires k < |formals|
  {
    if k < |actuals| then actuals[k] else formals[k]
  }

  /** Every named formal parameter from position k on has something to
      substitute: a value or a type. */
  predicate Substitutable(actuals: seq<Parm>, formals: seq<Parm>, k: nat) {
    forall j :: k <= j < |formals| && formals[j].name.Some? ==> ValueOrType(Current(actuals, formals, j)).Some?
  }

  /** ParmList_nth_parm: the actual arguments from the variadic
      parameter's position on (none when there are fewer). */
  function Pack(actuals: seq<Parm>, formals: seq<Parm>): seq<Parm> {
    if VariadicParm(formals).Some? && |formals| - 1 <= |actuals| then actuals[|formals| - 1..] else []
  }

  /** The substitution of the formal parameter at position k. */
  function PatchStep(st: PatchState, root: nat, svc: Services, w: Work, tbase: string, k: nat): (r: PatchState)
    requires k < |st.formals| && Substitutable(st.actuals, st.formals, k) && WorkRewritable(st.nodes, w)
    ensures Shape(st.nodes, r.nodes) && WorkRewritable(r.nodes, w)
    ensures Alike(st.actuals, r.actuals) && Alike(st.formals, r.formals)
    ensures |st.formals| <= |st.actuals| ==> r.formals == st.formals
    ensures forall s :: s !in w.patch && s !in w.types && s !in w.code ==> Get(r.nodes, s) == Get(st.nodes, s)
  {
    var f := st.formals[k];
    if f.name.None? then st
    else
      var name := f.name.value;
      var dvalue := svc.resolve(ValueOrType(Current(st.actuals, st.formals, k)).value);
      var valuestr := svc.render(dvalue);
      var actuals := if k < |st.actuals| then DefaultsPatched(st.actuals, k, name, dvalue) else st.actuals;
      var formals := if k < |st.actuals| then st.formals else DefaultsPatched(st.formals, k, name, dvalue);
      var n1 := ApplyEdit(st.nodes, root, svc, IdEdit(name, dvalue), w.patch);
      var n2 := ApplyEdit(n1, root, svc, TypeEdit(name, dvalue, tbase, VariadicParm(formals), Pack(actuals, formals)), w.types);
      var n3 := ApplyEdit(n2, root, svc, CodeEdit(name, valuestr), w.code);
      ShapeTrans(st.nodes, n1, n2);
      ShapeTrans(st.nodes, n2, n3);
      PatchState(n3, actuals, formals)
  }

  /** The substitutions of the formal parameters from position k on. */
  function PatchFrom(st: PatchState, root: nat, svc: Services, w: Work, tbase: string, k: nat): (r: PatchState)
    requires Substitutable(st.actuals, st.formals, k) && WorkRewritable(st.nodes, w)
    ensures Shape(st.nodes, r.nodes) && WorkRewritable(r.nodes, w)
    ensures Alike(st.actuals, r.actuals) && Alike(st.formals, r.formals)
    ensures forall s :: s !in w.patch && s !in w.types && s !in w.code ==> Get(r.nodes, s) == Get(st.nodes, s)
    decreases |st.formals| - k
  {
    if k >= |st.formals| then st
    else
      var next := PatchStep(st, root, svc, w, tbase, k);
      var r := PatchFrom(next, root, svc, w, tbase, k + 1);
      ShapeTrans(st.nodes, next.nodes, r.nodes);
      r
  }

  /** With an actual argument for every formal parameter, the template's
      own parameter list (and its default arguments) is left as it was. */
  lemma {:induction false} PatchFromKeepsFormals(st: PatchState, root: nat, svc: Services, w: Work, tbase: string, k: nat)
    requires Substitutable(st.actuals, st.formals, k) && WorkRewritable(st.nodes, w)
    requires |st.formals| <= |st.actuals|
    ensures PatchFrom(st, root, svc, w, tbase, k).formals == st.formals
    decreases |st.formals| - k
  {
    if k < |st.formals| {
      var next := PatchStep(st, root, svc, w, tbase, k);
      PatchFromKeepsFormals(next, root, svc, w, tbase, k + 1);
    }
  }

  /** A template with one parameter: an identifier listed once on the
      patchlist and on no other list has every whole-word mention of the
      parameter replaced by the resolved argument. */
  lemma PatchOneParameter(nodes: seq<Record>, root: nat, svc: Services, w: Work, tbase: string, name: string, arg: Parm, s: Slot)
    requires WorkRewritable(nodes, w) && ValueOrType(arg).Some?
    requires s in w.patch && multiset(w.patch)[s] == 1 && s !in w.types && s !in w.code
    ensures var r := PatchFrom(PatchState(nodes, [arg], [Parm(Some(name), None, None, false)]), root, svc, w, tbase, 0);
      Get(r.nodes, s) == Some(ReplaceId(Get(nodes, s).value, name, svc.resolve(ValueOrType(arg).value)).0)
  {
    var st := PatchState(nodes, [arg], [Parm(Some(name), None, None, false)]);
    var dvalue := svc.resolve(ValueOrType(arg).value);
    var e := IdEdit(name, dvalue);
    ApplyEditGet(nodes, root, svc, e, w.patch, s);
    assert Repeat(nodes, root, svc, e, 1, Get(nodes, s).value) == ReplaceId(Get(nodes, s).value, name, dvalue).0;
  }

  /** The body of the loop over the template parameters, for position k. */
  method PatchParm(a: Arena, root: nat, svc: Services, w: Work, tbase: string, actuals: seq<Parm>, formals: seq<Parm>, k: nat)
    returns (actuals': seq<Parm>, formals': seq<Parm>)
    requires k < |formals| && Substitutable(actuals, formals, k) && WorkRewritable(a.nodes, w)
    modifies a
    ensures PatchState(a.nodes, actuals', formals') == PatchStep(PatchState(old(a.nodes), actuals, formals), root, svc, w, tbase, k)
  {
    actuals', formals' := actuals, formals;
    var f := formals[k];
    if f.name.Some? {
      var name := f.name.value;
      var p := if k < |actuals| then actuals[k] else formals[k];
      var dvalue := svc.resolve(ValueOrType(p).value);
      var valuestr := svc.render(dvalue);
      if k < |actuals| {
        actuals' := PatchDefaults(actuals, k, name, dvalue);
      } else {
        formals' := PatchDefaults(formals, k, name, dvalue);
      }
      RewriteAll(a, root, svc, IdEdit(name, dvalue), w.patch);
      RewriteAll(a, root, svc, TypeEdit(name, dvalue, tbase, VariadicParm(formals'), Pack(actuals', formals')), w.types);
      RewriteAll(a, root, svc, CodeEdit(name, valuestr), w.code);
    }
  }

  /** The loop over the template parameters, the actual argument list and
      the formal parameter list in step. */
  method PatchParms(a: Arena, root: nat, svc: Services, w: Work, tbase: string, actuals: seq<Parm>, formals: seq<Parm>)
    returns (actuals': seq<Parm>, formals': seq<Parm>)
    requires Substitutable(actuals, formals, 0) && WorkRewritable(a.nodes, w)
    modifies a
    ensures PatchState(a.nodes, actuals', formals') == PatchFrom(PatchState(old(a.nodes), actuals, formals), root, svc, w, tbase, 0)
  {
    ghost var goal := PatchFrom(PatchState(a.nodes, actuals, formals), root, svc, w, tbase, 0);
    actuals', formals' := actuals, formals;
    var k := 0;
    while k < |formals'|
      invariant 0 <= k <= |formals'|
      invariant Substitutable(actuals', formals', k) && WorkRewritable(a.nodes, w)
      invariant PatchFrom(PatchState(a.nodes, actuals', formals'), root, svc, w, tbase, k) == goal
      decreases |formals'| - k
    {
      actuals', formals' := PatchParm(a, root, svc, w, tbase, actuals', formals', k);
      k := k + 1;
    }
  }

  // ---------------------------------------------------------------------
  // The expansion

  /** The root's name with the template arguments appended. */
  function Named(nodes: seq<Record>, root: nat, args: string): (r: seq<Record>)
    requires root < |nodes|
    ensures Shape(nodes, r)
    ensures forall s :: Rewritable(nodes, s) ==> Rewritable(r, s)
    ensures forall s :: s != AttrSlot(root, NameAttr) ==> Get(r, s) == Get(nodes, s)
    ensures NameAttr in nodes[root].attrs ==> IName(r, root) == nodes[root].attrs[NameAttr] + args
  {
    var s := AttrSlot(root, NameAttr);
    if NameAttr in nodes[root].attrs then
      var t := nodes[root].attrs[NameAttr] + args;
      SetKeeps(nodes, s, t);
      Set(nodes, s, t)
    else nodes
  }

  /** What the expansion does after the substitution walk: it sets the
      name, substitutes the template parameters (or, without any, only the
      template's own name in the types) and post-processes the tree. */
  method Substitute(a: Arena, root: nat, svc: Services, w: Work, tbase: string, templateArgs: string,
                    actuals: seq<Parm>, formals: seq<Parm>)
    returns (actuals': seq<Parm>, formals': seq<Parm>, ghost named: seq<Record>, ghost patched: seq<Record>)
    requires WellFormed(a.nodes) && root < |a.nodes| && WorkRewritable(a.nodes, w)
    requires |actuals| > 0 ==> Substitutable(actuals, formals, 0)
    modifies a
    ensures named == Named(old(a.nodes), root, templateArgs)
    ensures if |actuals| > 0 && |formals| > 0 then
        PatchState(patched, actuals', formals') == PatchFrom(PatchState(named, actuals, formals), root, svc, w, tbase, 0)
      else
        actuals' == actuals && formals' == formals
        && patched == ApplyEdit(named, root, svc, BareTypeEdit(tbase, VariadicParm(formals), Pack(actuals, formals)), w.types)
    ensures a.nodes == PostTree(patched, root)
  {
    ghost var o := a.nodes;
    a.nodes := Named(a.nodes, root, templateArgs);
    named := a.nodes;
    actuals', formals' := actuals, formals;
    if |actuals| > 0 && |formals| > 0 {
      actuals', formals' := PatchParms(a, root, svc, w, tbase, actuals, formals);
    } else {
      RewriteAll(a, root, svc, BareTypeEdit(tbase, VariadicParm(formals), Pack(actuals, formals)), w.types);
    }
    patched := a.nodes;
    ShapeTrans(o, named, patched);
    WellFormedShape(o, patched);
    Postprocess.Postprocess(a, root);
  }

  /** The work the walk queues holds strings the expansion may rewrite. */
  lemma WorkInRewritable(o: seq<Record>, nodes: seq<Record>, root: nat, w: Work)
    requires WorkIn(o, nodes, root, false, w)
    ensures WorkRewritable(nodes, w)
  {
  }

  /** Swig_cparse_template_expand on the template node root, with the
      instantiation's arguments tparms, the partial specialization's
      arguments (when the template is one) and the template's parameters.
      It returns the instantiation's arguments and the template's
      parameters as the expansion leaves them and the work the walk queued;
      the ghost results are the tree after the substitution walk, after the
      name is set, and after the substitutions. */
  method Expand(a: Arena, root: nat, rname: string, tparms: seq<Parm>, partialArgs: Option<seq<Parm>>,
                templateparms: seq<Parm>, svc: Services)
    returns (actuals: seq<Parm>, formals: seq<Parm>,
             ghost walked: seq<Record>, w: Work, ghost named: seq<Record>, ghost patched: seq<Record>)
    requires WellFormed(a.nodes) && root < |a.nodes| && NameAttr in a.nodes[root].attrs
    requires partialArgs.Some? ==> |partialArgs.value| == |tparms|
    requires forall x: nat :: Reached(a.nodes, root, x) ==> Ready(a.nodes[x])
    requires |tparms| > 0 ==> Substitutable(tparms, templateparms, 0)
    modifies a
    ensures Shape(old(a.nodes), walked) && Frame(old(a.nodes), walked, root, false)
    ensures KindsKept(old(a.nodes), walked, false)
    ensures old(a.nodes)[root].kind == "template" ==> SameKinds(old(a.nodes), walked, root)
    ensures walked[root].kind == if old(a.nodes)[root].kind == "template" && !IsError(old(a.nodes)[root])
      then EffectiveKind(old(a.nodes)[root]) else old(a.nodes)[root].kind
    ensures WorkIn(old(a.nodes), walked, root, false, w) && WorkDistinct(w)
    ensures var args := if partialArgs.Some? then PartialArgs(partialArgs.value, tparms) else tparms;
      QueuedIn(old(a.nodes), walked,
               Ctx(root, old(a.nodes)[root].attrs[NameAttr], rname, svc.templateArgs(tparms),
                   VariadicParm(templateparms), Pack(args, templateparms)), root, false, w)
    ensures named == Named(walked, root, svc.templateArgs(tparms))
    ensures var args := if partialArgs.Some? then PartialArgs(partialArgs.value, tparms) else tparms;
      var tbase := svc.scopeLast(old(a.nodes)[root].attrs[NameAttr]);
      if |args| > 0 && |templateparms| > 0 then
        PatchState(patched, actuals, formals)
          == PatchFrom(PatchState(named, args, templateparms), root, svc, w, tbase, 0)
      else
        actuals == args && formals == templateparms
        && patched == ApplyEdit(named, root, svc,
             BareTypeEdit(tbase, VariadicParm(templateparms), Pack(args, templateparms)), w.types)
    ensures a.nodes == PostTree(patched, root)
  {
    ghost var o := a.nodes;
    var templateArgs := svc.templateArgs(tparms);
    var tname := a.nodes[root].attrs[NameAttr];
    var tbase := svc.scopeLast(tname);
    var args := tparms;
    if partialArgs.Some? {
      args := ApplyPartialArgs(partialArgs.value, tparms);
    }
    var ctx := Ctx(root, tname, rname, templateArgs, VariadicParm(templateparms), Pack(args, templateparms));
    w := Walk(a, ctx, root, false);
    walked := a.nodes;
    WellFormedShape(o, walked);
    WorkInRewritable(o, walked, root, w);
    actuals, formals, named, patched := Substitute(a, root, svc, w, tbase, templateArgs, args, templateparms);
  }
}

=== FILE: postprocess.dfy ===
// The post-processing walk of an expanded template
// (cparse_postprocess_expanded_template): every function declaration the
// walk gets to has its declarator tidied (module Normalizer).  The walk
// stops at nodes in error and does not look below simple declarations.

module Postprocess {
  import opened Strings
  import opened Types
  import opened Tree
  import opened Normalizer
  import opened Traverse

  /** A function declaration with a type: the one kind of node the walk
      changes, judged by its node type as it is now. */
  predicate FixesDecl(r: Record) {
    r.kind == "cdecl" && DeclAttr in r.attrs && IsFunction(r.attrs[DeclAttr]) && TypeAttr in r.attrs
  }

  /** A node after the walk has visited it. */
  function PostRec(r: Record): (q: Record)
    ensures q.kind == r.kind && q.parent == r.parent && q.children == r.children
    ensures q.attrs.Keys == r.attrs.Keys && q.parmlists == r.parmlists && q.bases == r.bases
    ensures forall a :: a in r.attrs && a != DeclAttr && a != TypeAttr ==> q.attrs[a] == r.attrs[a]
  {
    if FixesDecl(r) then
      var f := FixDecl(r.attrs[DeclAttr], r.attrs[TypeAttr]);
      r.(attrs := r.attrs[DeclAttr := f.0][TypeAttr := f.1])
    else r
  }

  /** The post-processing walk from node i visits node k. */
  predicate PostReached(nodes: seq<Record>, i: nat, k: nat) {
    k < |nodes| && Descends(PostProcessing, nodes, i, k) && !IsError(nodes[k])
  }

  /** The tree after the post-processing walk from node i. */
  function PostTree(nodes: seq<Record>, i: nat): (r: seq<Record>)
    ensures |r| == |nodes|
  {
    seq(|nodes|, x requires 0 <= x < |nodes| => if PostReached(nodes, i, x) then PostRec(nodes[x]) else nodes[x])
  }

  /** What the post-processing walk does not change: the tree's structure,
      node types and errors. */
  predicate PostShape(a: seq<Record>, b: seq<Record>) {
    |a| == |b|
    && forall x :: 0 <= x < |a| ==>
      a[x].parent == b[x].parent && a[x].children == b[x].children
      && a[x].kind == b[x].kind && IsError(a[x]) == IsError(b[x])
  }

  lemma {:induction false} PostDescendsShape(a: seq<Record>, b: seq<Record>, i: nat, k: nat)
    requires PostShape(a, b)
    ensures Descends(PostProcessing, a, i, k) == Descends(PostProcessing, b, i, k)
    decreases k
  {
    if k != i && i < k < |a| && a[k].parent.Some? && a[k].parent.value < k {
      PostDescendsShape(a, b, i, a[k].parent.value);
    }
  }

  lemma PostTreeShape(nodes: seq<Record>, i: nat)
    ensures PostShape(nodes, PostTree(nodes, i))
  {
  }

  /** Only function declarations the walk gets to change, and only in their
      declarator and type; nodes in error are never changed. */
  lemma PostTreeChanges(nodes: seq<Record>, i: nat, x: nat)
    requires x < |nodes| && PostTree(nodes, i)[x] != nodes[x]
    ensures nodes[x].kind == "cdecl" && !IsError(nodes[x])
    ensures DeclAttr in nodes[x].attrs && IsFunction(nodes[x].attrs[DeclAttr]) && TypeAttr in nodes[x].attrs
    ensures Descends(PostProcessing, nodes, i, x)
    ensures PostTree(nodes, i)[x] == nodes[x].(attrs := PostTree(nodes, i)[x].attrs)
  {
  }

  /** A fixed declaration reads the same text, declarator then type. */
  lemma PostRecText(r: Record)
    requires FixesDecl(r)
    ensures PostRec(r).attrs[DeclAttr] + PostRec(r).attrs[TypeAttr] == r.attrs[DeclAttr] + r.attrs[TypeAttr]
  {
    FixDeclPreservesText(r.attrs[DeclAttr], r.attrs[TypeAttr]);
  }

  lemma SameUpdate(m: map<Attr, string>, a: Attr, b: Attr)
    requires a in m && b in m
    ensures m[a := m[a]][b := m[b]] == m
  {
  }

  /** Post-processing a post-processed node changes nothing. */
  lemma PostRecIdempotent(r: Record)
    ensures PostRec(PostRec(r)) == PostRec(r)
  {
    if FixesDecl(r) {
      var q := PostRec(r);
      var f := FixDecl(r.attrs[DeclAttr], r.attrs[TypeAttr]);
      assert q.attrs[DeclAttr] == f.0 && q.attrs[TypeAttr] == f.1;
      if FixesDecl(q) {
        FixDeclIdempotent(r.attrs[DeclAttr], r.attrs[TypeAttr]);
        assert FixDecl(q.attrs[DeclAttr], q.attrs[TypeAttr]) == f;
        SameUpdate(q.attrs, DeclAttr, TypeAttr);
      }
    }
  }

  /** Post-processing a post-processed tree changes nothing. */
  lemma PostTreeIdempotent(nodes: seq<Record>, i: nat)
    ensures PostTree(PostTree(nodes, i), i) == PostTree(nodes, i)
  {
    var p := PostTree(nodes, i);
    forall x | 0 <= x < |nodes| ensures PostTree(p, i)[x] == p[x] {
      PostDescendsShape(nodes, p, i, x);
      if PostReached(nodes, i, x) {
        PostRecIdempotent(nodes[x]);
      }
    }
  }

  /** cparse_postprocess_expanded_template from node i. */
  method Postprocess(a: Arena, i: nat)
    requires WellFormed(a.nodes) && i < |a.nodes|
    modifies a
    decreases |a.nodes| - i, 1
    ensures a.nodes == PostTree(old(a.nodes), i)
  {
    ghost var o := a.nodes;
    var r := a.nodes[i];
    if IsError(r) {
      PostLeaf(o, i);
      return;
    }
    if r.kind == "cdecl" {
      if DeclAttr in r.attrs && IsFunction(r.attrs[DeclAttr]) {
        if TypeAttr in r.attrs {
          var d, t := FixFunctionDecl(r.attrs[DeclAttr], r.attrs[TypeAttr]);
          a.nodes := a.nodes[i := r.(attrs := r.attrs[DeclAttr := d][TypeAttr := t])];
        }
      }
      PostLeaf(o, i);
    } else {
      PostChildren(a, i);
      PostOpen(o, i);
    }
  }

  /** Below a node whose children it does not visit, the walk changes at
      most the node itself. */
  lemma PostLeaf(o: seq<Record>, i: nat)
    requires i < |o| && !Opens(PostProcessing, o[i])
    ensures PostTree(o, i) == if IsError(o[i]) then o else o[i := PostRec(o[i])]
  {
    forall x | 0 <= x < |o| ensures PostTree(o, i)[x] == (if IsError(o[i]) then o else o[i := PostRec(o[i])])[x] {
      if Descends(PostProcessing, o, i, x) {
        DescendsLeaf(PostProcessing, o, i, x);
      }
    }
  }

  /** The tree after the walks from the children before position j: the
      nodes of their subtrees are visited. */
  function PostUpTo(o: seq<Record>, i: nat, cs: seq<nat>, j: nat): (r: seq<Record>)
    ensures |r| == |o|
  {
    seq(|o|, x requires 0 <= x < |o| =>
      if PostReached(o, i, x) && x != i && PostDone(o, cs, j, x) then PostRec(o[x]) else o[x])
  }

  /** Node x is in none of the subtrees of the children from position j on. */
  predicate PostDone(o: seq<Record>, cs: seq<nat>, j: nat, x: nat) {
    forall jj :: j <= jj < |cs| ==> !Descends(PostProcessing, o, cs[jj], x)
  }

  lemma PostOpen(o: seq<Record>, i: nat)
    requires WellFormed(o) && i < |o| && Opens(PostProcessing, o[i])
    ensures PostUpTo(o, i, o[i].children, |o[i].children|) == PostTree(o, i)
  {
  }

  /** The walks from node i's children, in order. */
  method PostChildren(a: Arena, i: nat)
    requires WellFormed(a.nodes) && i < |a.nodes| && Opens(PostProcessing, a.nodes[i])
    modifies a
    decreases |a.nodes| - i, 0
    ensures a.nodes == PostUpTo(old(a.nodes), i, old(a.nodes)[i].children, |old(a.nodes)[i].children|)
  {
    ghost var o := a.nodes;
    var cs := a.nodes[i].children;
    PostStart(o, i, cs);
    for j := 0 to |cs|
      invariant a.nodes == PostUpTo(o, i, cs, j)
    {
      assert cs[j] in o[i].children;
      PostTreeShape(o, i);
      PostUpToShape(o, i, cs, j);
      WellFormedPost(o, a.nodes);
      Postprocess(a, cs[j]);
      PostStep(o, i, cs, j);
    }
  }

  lemma PostStart(o: seq<Record>, i: nat, cs: seq<nat>)
    requires WellFormed(o) && i < |o| && cs == o[i].children
    ensures PostUpTo(o, i, cs, 0) == o
  {
    forall x | 0 <= x < |o| ensures PostUpTo(o, i, cs, 0)[x] == o[x] {
      if PostReached(o, i, x) && x != i {
        var c := DescendsViaChild(PostProcessing, o, i, x);
        var jj :| 0 <= jj < |cs| && cs[jj] == c;
      }
    }
  }

  lemma PostUpToShape(o: seq<Record>, i: nat, cs: seq<nat>, j: nat)
    ensures PostShape(o, PostUpTo(o, i, cs, j))
  {
  }

  lemma WellFormedPost(a: seq<Record>, b: seq<Record>)
    requires WellFormed(a) && PostShape(a, b)
    requires forall x :: 0 <= x < |a| && a[x].kind == "template" ==>
      (TemplateTypeAttr in a[x].attrs <==> TemplateTypeAttr in b[x].attrs)
      && (TemplateTypeAttr in a[x].attrs ==> a[x].attrs[TemplateTypeAttr] == b[x].attrs[TemplateTypeAttr])
    ensures WellFormed(b)
  {
  }

  /** The walk from the child at position j extends the walks before it. */
  lemma PostStep(o: seq<Record>, i: nat, cs: seq<nat>, j: nat)
    requires WellFormed(o) && i < |o| && cs == o[i].children && j < |cs| && Opens(PostProcessing, o[i])
    ensures PostTree(PostUpTo(o, i, cs, j), cs[j]) == PostUpTo(o, i, cs, j + 1)
  {
    var before := PostUpTo(o, i, cs, j);
    PostUpToShape(o, i, cs, j);
    forall x | 0 <= x < |o| ensures PostTree(before, cs[j])[x] == PostUpTo(o, i, cs, j + 1)[x] {
      PostDescendsShape(o, before, cs[j], x);
      if Descends(PostProcessing, o, cs[j], x) {
        ChildFacts(PostProcessing, o, i, cs, j, x);
      }
    }
  }
}

=== FILE: ranking.dfy ===
// Ranking the partial specializations of a class template (the partials block
// of template_locate).  Every partial specialization whose parameters all
// match the arguments is a candidate and gets a row of priorities, one per
// argument.  Each column is then replaced by flags marking the entries that
// reach the column's maximum, and the candidates flagged in every column
// survive.  When nobody survives, all candidates are kept.  The first
// remaining candidate is the one used.
//
// The specification works on a matrix held as a sequence of rows; the
// method RankPartials computes the same result the way the source does, in
// a two-dimensional array that is filled row by row and then overwritten
// column by column.

module Ranking {
  import opened Strings
  import opened Matching

  /** A partial specialization: the name it is registered under and the
      type pattern of each of its parameters. */
  datatype PartialSpec = PartialSpec(templcsymname: string, patterns: seq<string>)

  /** Result of matching argument c against parameter c of a pattern list. */
  function Score(args: seq<string>, pats: seq<string>, c: nat): (EMatch, int)
    requires c < |args| && c < |pats|
  {
    DoesParmMatch(args[c], pats[c], Placeholder(c + 1))
  }

  /** A partial specialization takes part in the ranking when it has as many
      parameters as there are arguments and each of them matches at least
      as a deduced parameter. */
  predicate Eligible(args: seq<string>, p: PartialSpec) {
    |p.patterns| == |args|
    && forall c :: 0 <= c < |args| ==> Code(Score(args, p.patterns, c).0) >= Code(PartiallySpecializedMatch)
  }

  /** The candidates, as indices into the list of partial specializations,
      in declaration order. */
  function Candidates(args: seq<string>, ps: seq<PartialSpec>): (cs: seq<nat>)
    ensures |cs| <= |ps|
    ensures forall k :: 0 <= k < |cs| ==> cs[k] < |ps| && Eligible(args, ps[cs[k]])
    ensures forall i :: 0 <= i < |ps| && Eligible(args, ps[i]) ==> i in cs
    ensures forall k, l :: 0 <= k < l < |cs| ==> cs[k] < cs[l]
  {
    if ps == [] then []
    else
      var init := Candidates(args, ps[..|ps| - 1]);
      if Eligible(args, ps[|ps| - 1]) then init + [|ps| - 1] else init
  }

  /** The priorities of one candidate. */
  function Row(args: seq<string>, pats: seq<string>): (row: seq<int>)
    requires |pats| == |args|
  {
    seq(|args|, c requires 0 <= c < |args| => Score(args, pats, c).1)
  }

  /** Every row of M has n entries. */
  predicate Rect(M: seq<seq<int>>, n: nat) {
    forall r :: 0 <= r < |M| ==> |M[r]| == n
  }

  /** The priority matrix: one row per candidate, one column per argument. */
  function Matrix(args: seq<string>, ps: seq<PartialSpec>): (M: seq<seq<int>>)
    ensures |M| == |Candidates(args, ps)| && Rect(M, |args|)
    ensures forall r, c :: 0 <= r < |M| && 0 <= c < |args| ==> M[r][c] >= 0
  {
    var cs := Candidates(args, ps);
    seq(|cs|, r requires 0 <= r < |cs| => Row(args, ps[cs[r]].patterns))
  }

  /** The highest priority in column c among the first `rows` rows, starting
      from -1 as the source does. */
  function ColMax(M: seq<seq<int>>, n: nat, c: nat, rows: nat): (mx: int)
    requires Rect(M, n) && c < n && rows <= |M|
    ensures mx >= -1
    ensures forall r :: 0 <= r < rows ==> M[r][c] <= mx
    ensures mx == -1 || exists r :: 0 <= r < rows && M[r][c] == mx
  {
    if rows == 0 then -1
    else
      var mx := ColMax(M, n, c, rows - 1);
      if M[rows - 1][c] > mx then M[rows - 1][c] else mx
  }

  /** The flag that replaces entry (r, c). */
  function Flag(M: seq<seq<int>>, n: nat, r: nat, c: nat): int
    requires Rect(M, n) && r < |M| && c < n
  {
    if M[r][c] >= ColMax(M, n, c, |M|) then 1 else 0
  }

  /** A candidate survives when it reaches the maximum of every column. */
  predicate Survivor(M: seq<seq<int>>, n: nat, r: nat)
    requires Rect(M, n) && r < |M|
  {
    forall c :: 0 <= c < n ==> Flag(M, n, r, c) == 1
  }

  /** The surviving rows among the first `rows`, in order. */
  function Survivors(M: seq<seq<int>>, n: nat, rows: nat): (s: seq<nat>)
    requires Rect(M, n) && rows <= |M|
    ensures forall k :: 0 <= k < |s| ==> s[k] < rows && Survivor(M, n, s[k])
    ensures forall r :: 0 <= r < rows && Survivor(M, n, r) ==> r in s
    ensures forall k, l :: 0 <= k < l < |s| ==> s[k] < s[l]
  {
    if rows == 0 then []
    else
      var init := Survivors(M, n, rows - 1);
      if Survivor(M, n, rows - 1) then init + [rows - 1] else init
  }

  function Range(k: nat): (s: seq<nat>)
    ensures |s| == k && forall i :: 0 <= i < k ==> s[i] == i
  {
    seq(k, i requires 0 <= i < k => i)
  }

  /** The rows left after the tournament: it runs only between two or more
      candidates, and when nobody survives every candidate stays. */
  function Tournament(M: seq<seq<int>>, n: nat): (t: seq<nat>)
    requires Rect(M, n)
    ensures forall k :: 0 <= k < |t| ==> t[k] < |M|
  {
    if |M| > 1 && |Survivors(M, n, |M|)| > 0 then Survivors(M, n, |M|) else Range(|M|)
  }

  /** The entries of cs at the positions t. */
  function Pick(cs: seq<nat>, t: seq<nat>): (r: seq<nat>)
    requires forall k :: 0 <= k < |t| ==> t[k] < |cs|
    ensures |r| == |t| && forall k :: 0 <= k < |t| ==> r[k] == cs[t[k]]
  {
    seq(|t|, k requires 0 <= k < |t| => cs[t[k]])
  }

  /** The partial specializations that remain after ranking, as indices into
      ps; the first one is used and the others are reported as ignored. */
  function Finalists(args: seq<string>, ps: seq<PartialSpec>): (r: seq<nat>)
    ensures forall k :: 0 <= k < |r| ==> r[k] < |ps|
  {
    Pick(Candidates(args, ps), Tournament(Matrix(args, ps), |args|))
  }

  /** Every finalist is eligible, and some partial specialization remains
      exactly when one is eligible. */
  lemma FinalistsEligible(args: seq<string>, ps: seq<PartialSpec>)
    ensures forall k :: 0 <= k < |Finalists(args, ps)| ==> Eligible(args, ps[Finalists(args, ps)[k]])
    ensures |Finalists(args, ps)| == 0 <==> forall i :: 0 <= i < |ps| ==> !Eligible(args, ps[i])
  {
    var cs := Candidates(args, ps);
    var M := Matrix(args, ps);
    if |cs| > 0 {
      TournamentNonEmpty(M, |args|);
      assert Eligible(args, ps[cs[0]]);
    } else {
      assert forall i :: 0 <= i < |ps| ==> !Eligible(args, ps[i]);
    }
  }

  // ---------------------------------------------------------------------
  // Properties of the ranking

  /** A candidate survives exactly when no other candidate has a higher
      priority in any column. */
  lemma SurvivorIffUndominated(M: seq<seq<int>>, n: nat, r: nat)
    requires Rect(M, n) && r < |M|
    requires forall r', c :: 0 <= r' < |M| && 0 <= c < n ==> M[r'][c] >= -1
    ensures Survivor(M, n, r) <==> forall r', c :: 0 <= r' < |M| && 0 <= c < n ==> M[r'][c] <= M[r][c]
  {
    if Survivor(M, n, r) {
      forall r', c | 0 <= r' < |M| && 0 <= c < n
        ensures M[r'][c] <= M[r][c]
      {
        assert Flag(M, n, r, c) == 1;
      }
    }
    if forall r', c :: 0 <= r' < |M| && 0 <= c < n ==> M[r'][c] <= M[r][c] {
      forall c | 0 <= c < n
        ensures Flag(M, n, r, c) == 1
      {
        var mx := ColMax(M, n, c, |M|);
        if mx != -1 {
          var w :| 0 <= w < |M| && M[w][c] == mx;
          assert M[w][c] <= M[r][c];
        }
      }
    }
  }

  /** Between several candidates, one that does not survive is dropped as
      soon as some other candidate survives. */
  lemma LoserDropped(M: seq<seq<int>>, n: nat, r: nat)
    requires Rect(M, n) && r < |M| && |M| > 1
    requires !Survivor(M, n, r)
    requires exists w :: 0 <= w < |M| && Survivor(M, n, w)
    ensures r !in Tournament(M, n)
  {
    var w :| 0 <= w < |M| && Survivor(M, n, w);
    assert w in Survivors(M, n, |M|);
  }

  /** When no candidate survives, the list of candidates is kept whole. */
  lemma NoSurvivorKeepsAll(M: seq<seq<int>>, n: nat)
    requires Rect(M, n)
    requires forall r :: 0 <= r < |M| ==> !Survivor(M, n, r)
    ensures Tournament(M, n) == Range(|M|)
  {
    SurvivorsNone(M, n, |M|);
  }

  lemma {:induction false} SurvivorsNone(M: seq<seq<int>>, n: nat, rows: nat)
    requires Rect(M, n) && rows <= |M|
    requires forall r :: 0 <= r < rows ==> !Survivor(M, n, r)
    ensures Survivors(M, n, rows) == []
  {
    if rows > 0 {
      SurvivorsNone(M, n, rows - 1);
    }
  }

  /** Some candidate is always used: the tournament never empties a
      non-empty list. */
  lemma TournamentNonEmpty(M: seq<seq<int>>, n: nat)
    requires Rect(M, n) && |M| > 0
    ensures |Tournament(M, n)| > 0
  {
  }

  /** An exact match outranks every deduced match in the same column: a
      candidate that only deduces argument c cannot survive against one
      that matches it exactly (for any type shorter than 99999 characters). */
  lemma ExactOutranksDeduced(args: seq<string>, ps: seq<PartialSpec>, a: nat, b: nat, c: nat)
    requires a < |Candidates(args, ps)| && b < |Candidates(args, ps)| && c < |args|
    requires |args[c]| < ExactMatchPriority
    requires Score(args, ps[Candidates(args, ps)[a]].patterns, c).0 == ExactMatch
    requires Score(args, ps[Candidates(args, ps)[b]].patterns, c).0 == PartiallySpecializedMatch
    ensures !Survivor(Matrix(args, ps), |args|, b)
  {
    var M := Matrix(args, ps);
    var cs := Candidates(args, ps);
    PartialPriorityBound(args[c], ps[cs[b]].patterns[c], Placeholder(c + 1));
    assert M[a][c] == ExactMatchPriority;
    assert M[b][c] < ExactMatchPriority;
    assert Flag(M, |args|, b, c) == 0;
  }

  /** The ambiguous example of the source's comment, X<int *, double *>
      against X<T1, double *> and X<int *, T2>: each candidate wins one
      column, nobody survives, both stay and the first is used. */
  lemma AmbiguousExample()
    ensures Survivors([[0, ExactMatchPriority], [ExactMatchPriority, 0]], 2, 2) == []
    ensures Tournament([[0, ExactMatchPriority], [ExactMatchPriority, 0]], 2) == [0, 1]
  {
    var M := [[0, ExactMatchPriority], [ExactMatchPriority, 0]];
    assert ColMax(M, 2, 0, 2) == ExactMatchPriority;
    assert ColMax(M, 2, 1, 2) == ExactMatchPriority;
    assert !Survivor(M, 2, 0) by { assert Flag(M, 2, 0, 0) == 0; }
    assert !Survivor(M, 2, 1) by { assert Flag(M, 2, 1, 1) == 0; }
    SurvivorsNone(M, 2, 2);
    NoSurvivorKeepsAll(M, 2);
    assert Range(2) == [0, 1];
  }

  /** The ranking example of the source's comment: for `const int *` the
      exact specialization beats `const T *`, which beats `T *`, which
      beats `T`. */
  lemma SpecializationOrderExample()
    ensures Tournament([[0], [2], [11], [ExactMatchPriority]], 1) == [3]
  {
    var M := [[0], [2], [11], [ExactMatchPriority]];
    assert ColMax(M, 1, 0, 4) == ExactMatchPriority;
    assert Survivor(M, 1, 3);
    assert !Survivor(M, 1, 0) by { assert Flag(M, 1, 0, 0) == 0; }
    assert !Survivor(M, 1, 1) by { assert Flag(M, 1, 1, 0) == 0; }
    assert !Survivor(M, 1, 2) by { assert Flag(M, 1, 2, 0) == 0; }
    assert Survivors(M, 1, 0) == [];
    assert Survivors(M, 1, 1) == [];
    assert Survivors(M, 1, 2) == [];
    assert Survivors(M, 1, 3) == [];
    assert Survivors(M, 1, 4) == [3];
  }

  // ---------------------------------------------------------------------
  // The ranking as the source runs it

  /** Number of 1-flags among the first k columns of row r. */
  function FlagCount(M: seq<seq<int>>, n: nat, r: nat, k: nat): int
    requires Rect(M, n) && r < |M| && k <= n
  {
    if k == 0 then 0 else FlagCount(M, n, r, k - 1) + Flag(M, n, r, k - 1)
  }

  /** Summing the flags of a row gives the row length exactly when every
      flag is set, which is how the source tests survival. */
  lemma {:induction false} FlagCountFull(M: seq<seq<int>>, n: nat, r: nat, k: nat)
    requires Rect(M, n) && r < |M| && k <= n
    ensures 0 <= FlagCount(M, n, r, k) <= k
    ensures FlagCount(M, n, r, k) == k <==> forall c :: 0 <= c < k ==> Flag(M, n, r, c) == 1
  {
    if k > 0 {
      FlagCountFull(M, n, r, k - 1);
    }
  }

  /** Scores the parameters of one partial specialization left to right
      into row `row`, stopping at the first one that does not match. */
  method ScoreRow(args: seq<string>, pats: seq<string>, m: array2<int>, row: nat) returns (allMatch: bool)
    requires |pats| == |args| == m.Length1 && row < m.Length0
    modifies m
    ensures allMatch <==> forall c :: 0 <= c < |args| ==> Code(Score(args, pats, c).0) >= Code(PartiallySpecializedMatch)
    ensures allMatch ==> forall c :: 0 <= c < |args| ==> m[row, c] == Row(args, pats)[c]
    ensures forall r, c :: 0 <= r < m.Length0 && r != row && 0 <= c < m.Length1 ==> m[r, c] == old(m[r, c])
  {
    var n := |args|;
    allMatch := true;
    var i := 0;
    while allMatch && i < n
      invariant 0 <= i <= n
      invariant allMatch ==> forall c :: 0 <= c < i ==>
        m[row, c] == Row(args, pats)[c] && Code(Score(args, pats, c).0) >= Code(PartiallySpecializedMatch)
      invariant !allMatch ==> exists c :: 0 <= c < n && Code(Score(args, pats, c).0) < Code(PartiallySpecializedMatch)
      invariant forall r, c :: 0 <= r < m.Length0 && r != row && 0 <= c < m.Length1 ==> m[r, c] == old(m[r, c])
      decreases n - i, allMatch
    {
      var match_ := DoesParmMatch(args[i], pats[i], Placeholder(i + 1));
      m[row, i] := match_.1;
      if Code(match_.0) < Code(PartiallySpecializedMatch) {
        assert Code(Score(args, pats, i).0) < Code(PartiallySpecializedMatch);
        allMatch := false;
      } else {
        i := i + 1;
      }
    }
  }

  lemma CandidatesStep(args: seq<string>, ps: seq<PartialSpec>, k: nat)
    requires k < |ps|
    ensures Candidates(args, ps[..k + 1]) ==
      if Eligible(args, ps[k]) then Candidates(args, ps[..k]) + [k] else Candidates(args, ps[..k])
  {
    assert ps[..k + 1][..k] == ps[..k];
  }

  /** The first |possible| rows of m hold the priorities of the listed
      partial specializations. */
  ghost predicate Filled(m: array2<int>, args: seq<string>, ps: seq<PartialSpec>, possible: seq<nat>)
    reads m
  {
    m.Length1 == |args| && |possible| <= m.Length0
    && (forall k :: 0 <= k < |possible| ==> possible[k] < |ps| && |ps[possible[k]].patterns| == |args|)
    && forall r, c :: 0 <= r < |possible| && 0 <= c < |args| ==> m[r, c] == Row(args, ps[possible[r]].patterns)[c]
  }

  /** Scoring a partial specialization into the next free row lists it. */
  lemma FilledAppend(m: array2<int>, args: seq<string>, ps: seq<PartialSpec>, possible: seq<nat>, pi: nat)
    requires Filled(m, args, ps, possible) && |possible| < m.Length0
    requires pi < |ps| && |ps[pi].patterns| == |args|
    requires forall c :: 0 <= c < |args| ==> m[|possible|, c] == Row(args, ps[pi].patterns)[c]
    ensures Filled(m, args, ps, possible + [pi])
  {
  }

  /** One turn of the loop over the partial specializations. */
  method AddCandidate(args: seq<string>, ps: seq<PartialSpec>, pi: nat, m: array2<int>, possible: seq<nat>)
    returns (possible': seq<nat>)
    requires pi < |ps| == m.Length0
    requires possible == Candidates(args, ps[..pi]) && Filled(m, args, ps, possible)
    requires forall k :: 0 <= k < |possible| ==> possible[k] < pi
    modifies m
    ensures possible' == Candidates(args, ps[..pi + 1]) && Filled(m, args, ps, possible')
    ensures forall k :: 0 <= k < |possible'| ==> possible'[k] < pi + 1
  {
    CandidatesStep(args, ps, pi);
    possible' := possible;
    var pats := ps[pi].patterns;
    if |pats| == |args| {
      assert |possible| < m.Length0;
      var allMatch := ScoreRow(args, pats, m, |possible|);
      assert allMatch == Eligible(args, ps[pi]);
      assert Filled(m, args, ps, possible);
      if allMatch {
        FilledAppend(m, args, ps, possible, pi);
        possible' := possible + [pi];
      }
    } else {
      assert !Eligible(args, ps[pi]);
    }
  }

  /** Fills the rows of the candidates: each partial specialization with the
      right number of parameters is scored into the next free row, which is
      kept only when all its parameters matched. */
  method FillMatrix(args: seq<string>, ps: seq<PartialSpec>) returns (m: array2<int>, possible: seq<nat>)
    ensures fresh(m) && m.Length0 == |ps| && m.Length1 == |args|
    ensures possible == Candidates(args, ps)
    ensures forall r, c :: 0 <= r < |possible| && 0 <= c < |args| ==> m[r, c] == Matrix(args, ps)[r][c]
  {
    m := new int[|ps|, |args|];
    possible := [];
    var pi := 0;
    assert ps[..0] == [];
    assert Candidates(args, []) == [];
    while pi < |ps|
      invariant 0 <= pi <= |ps|
      invariant possible == Candidates(args, ps[..pi]) && Filled(m, args, ps, possible)
      invariant forall k :: 0 <= k < |possible| ==> possible[k] < pi
    {
      possible := AddCandidate(args, ps, pi, m, possible);
      pi := pi + 1;
    }
    assert ps[..|ps|] == ps;
    forall r | 0 <= r < |possible|
      ensures Matrix(args, ps)[r] == Row(args, ps[possible[r]].patterns)
    {
      MatrixRow(args, ps, r);
    }
  }

  lemma MatrixRow(args: seq<string>, ps: seq<PartialSpec>, r: nat)
    requires r < |Candidates(args, ps)|
    ensures Matrix(args, ps)[r] == Row(args, ps[Candidates(args, ps)[r]].patterns)
  {
  }

  /** Replaces each column of the first `rows` rows by its flags: 1 where the
      entry reaches the column's maximum, 0 elsewhere. */
  method FlagColumns(m: array2<int>, rows: nat, n: nat, ghost M: seq<seq<int>>)
    requires rows <= m.Length0 && n == m.Length1 && |M| == rows && Rect(M, n)
    requires forall r, c :: 0 <= r < rows && 0 <= c < n ==> m[r, c] == M[r][c]
    modifies m
    ensures forall r, c :: 0 <= r < rows && 0 <= c < n ==> m[r, c] == Flag(M, n, r, c)
  {
    var col := 0;
    while col < n
      invariant 0 <= col <= n
      invariant forall r, c :: 0 <= r < rows && 0 <= c < col ==> m[r, c] == Flag(M, n, r, c)
      invariant forall r, c :: 0 <= r < rows && col <= c < n ==> m[r, c] == M[r][c]
    {
      var maxpriority := -1;
      var row := 0;
      while row < rows
        invariant 0 <= row <= rows
        invariant maxpriority == ColMax(M, n, col, row)
      {
        var priority := m[row, col];
        if priority > maxpriority {
          maxpriority := priority;
        }
        row := row + 1;
      }
      row := 0;
      while row < rows
        invariant 0 <= row <= rows
        invariant forall r, c :: 0 <= r < rows && 0 <= c < col ==> m[r, c] == Flag(M, n, r, c)
        invariant forall r :: 0 <= r < row ==> m[r, col] == Flag(M, n, r, col)
        invariant forall r, c :: 0 <= r < rows && col <= c < n && (c != col || r >= row) ==> m[r, c] == M[r][c]
      {
        var priority := m[row, col];
        m[row, col] := if priority >= maxpriority then 1 else 0;
        row := row + 1;
      }
      col := col + 1;
    }
  }

  lemma SurvivorsStep(M: seq<seq<int>>, n: nat, row: nat)
    requires Rect(M, n) && row < |M|
    ensures Survivors(M, n, row + 1) ==
      if Survivor(M, n, row) then Survivors(M, n, row) + [row] else Survivors(M, n, row)
  {
  }

  lemma PickAppend(cs: seq<nat>, t: seq<nat>, x: nat)
    requires forall k :: 0 <= k < |t| ==> t[k] < |cs|
    requires x < |cs|
    ensures Pick(cs, t + [x]) == Pick(cs, t) + [cs[x]]
  {
  }

  /** One row of the collection: a surviving row's candidate is appended. */
  lemma CollectStep(M: seq<seq<int>>, n: nat, row: nat, possible: seq<nat>, chosen: seq<nat>)
    requires Rect(M, n) && row < |M| == |possible|
    requires chosen == Pick(possible, Survivors(M, n, row))
    ensures (if Survivor(M, n, row) then chosen + [possible[row]] else chosen)
      == Pick(possible, Survivors(M, n, row + 1))
  {
    SurvivorsStep(M, n, row);
    if Survivor(M, n, row) {
      PickAppend(possible, Survivors(M, n, row), row);
    }
  }

  /** The number of flags set in row `row`. */
  method RowFlagSum(m: array2<int>, rows: nat, n: nat, row: nat, ghost M: seq<seq<int>>) returns (count: int)
    requires rows <= m.Length0 && n == m.Length1 && |M| == rows && Rect(M, n) && row < rows
    requires forall c :: 0 <= c < n ==> m[row, c] == Flag(M, n, row, c)
    ensures count == FlagCount(M, n, row, n)
  {
    count := 0;
    var col := 0;
    while col < n
      invariant 0 <= col <= n
      invariant count == FlagCount(M, n, row, col)
    {
      count := count + m[row, col];
      col := col + 1;
    }
  }

  /** Keeps, in order, the candidates whose flags are all set. */
  method CollectSurvivors(m: array2<int>, rows: nat, n: nat, possible: seq<nat>, ghost M: seq<seq<int>>)
    returns (chosen: seq<nat>)
    requires rows <= m.Length0 && n == m.Length1 && |M| == rows && |possible| == rows && Rect(M, n)
    requires forall r, c :: 0 <= r < rows && 0 <= c < n ==> m[r, c] == Flag(M, n, r, c)
    ensures chosen == Pick(possible, Survivors(M, n, rows))
  {
    chosen := [];
    var row := 0;
    while row < rows
      invariant 0 <= row <= rows
      invariant chosen == Pick(possible, Survivors(M, n, row))
    {
      var highestCount := RowFlagSum(m, rows, n, row, M);
      FlagCountFull(M, n, row, n);
      CollectStep(M, n, row, possible, chosen);
      if highestCount == n {
        chosen := chosen + [possible[row]];
      }
      row := row + 1;
    }
  }

  /** The partials block of template_locate, up to the choice: the
      remaining partial specializations in order. */
  method RankPartials(args: seq<string>, ps: seq<PartialSpec>) returns (finalists: seq<nat>)
    ensures finalists == Finalists(args, ps)
  {
    var m, possible := FillMatrix(args, ps);
    ghost var M := Matrix(args, ps);
    var posslen := |possible|;
    if posslen > 1 {
      FlagColumns(m, posslen, |args|, M);
      var chosen := CollectSurvivors(m, posslen, |args|, possible, M);
      if |chosen| > 0 {
        possible := chosen;
      }
    }
    finalists := possible;
    assert Pick(Candidates(args, ps), Range(posslen)) == Candidates(args, ps);
  }
}

=== FILE: strings.dfy ===
// Text operations the template engine relies on: DOH's whole-identifier
// replacement (Replaceid, DOH_REPLACE_ID), first-occurrence and all-occurrence
// substring replacement (DOH_REPLACE_FIRST, DOH_REPLACE_ANY), substring search
// (Strstr) and prefix comparison (Strncmp).

module Strings {

  datatype Option<T> = None | Some(value: T)

  /** Characters that may be part of a C identifier. */
  predicate IsIdChar(c: char) {
    ('a' <= c <= 'z') || ('A' <= c <= 'Z') || ('0' <= c <= '9') || c == '_'
  }

  predicate IsPrefix(p: string, s: string) {
    |p| <= |s| && s[..|p|] == p
  }

  /** x occurs in s at index i (as plain text). */
  predicate OccursAt(s: string, i: nat, x: string) {
    i + |x| <= |s| && s[i..i + |x|] == x
  }

  /** x occurs in s at index i as a whole identifier: the characters just
      before and just after the occurrence are not identifier characters. */
  predicate IdAt(s: string, i: nat, x: string) {
    |x| > 0 && OccursAt(s, i, x)
    && (i == 0 || !IsIdChar(s[i - 1]))
    && (i + |x| == |s| || !IsIdChar(s[i + |x|]))
  }

  predicate HasIdFrom(s: string, x: string, i: nat) {
    exists j :: i <= j < |s| && IdAt(s, j, x)
  }

  /** Replaces, left to right from index i, every whole-identifier occurrence
      of x by v; the second component counts the replacements. */
  function ReplaceIdFrom(s: string, x: string, v: string, i: nat): (string, nat)
    requires i <= |s|
    decreases |s| - i
  {
    if i == |s| then ("", 0)
    else if IdAt(s, i, x) then
      var rest := ReplaceIdFrom(s, x, v, i + |x|);
      (v + rest.0, rest.1 + 1)
    else
      var rest := ReplaceIdFrom(s, x, v, i + 1);
      ([s[i]] + rest.0, rest.1)
  }

  /** Replaceid(s, x, v): the new text and the number of substitutions. */
  function ReplaceId(s: string, x: string, v: string): (string, nat) {
    ReplaceIdFrom(s, x, v, 0)
  }

  /** No replacement happens exactly when x never occurs as an identifier,
      and then the text is left as it was. */
  lemma {:induction false} ReplaceIdFromNone(s: string, x: string, v: string, i: nat)
    requires i <= |s|
    ensures ReplaceIdFrom(s, x, v, i).1 == 0 <==> !HasIdFrom(s, x, i)
    ensures !HasIdFrom(s, x, i) ==> ReplaceIdFrom(s, x, v, i).0 == s[i..]
    decreases |s| - i
  {
    if i < |s| {
      if IdAt(s, i, x) {
        assert i <= i < |s| && IdAt(s, i, x);
      } else {
        ReplaceIdFromNone(s, x, v, i + 1);
        if HasIdFrom(s, x, i) {
          var j :| i <= j < |s| && IdAt(s, j, x);
          assert j != i;
          assert HasIdFrom(s, x, i + 1);
        }
        if HasIdFrom(s, x, i + 1) {
          var j :| i + 1 <= j < |s| && IdAt(s, j, x);
          assert HasIdFrom(s, x, i);
        }
        assert s[i..] == [s[i]] + s[i + 1..];
      }
    }
  }

  lemma ReplaceIdNone(s: string, x: string, v: string)
    ensures ReplaceId(s, x, v).1 == 0 <==> !HasIdFrom(s, x, 0)
    ensures ReplaceId(s, x, v).1 == 0 ==> ReplaceId(s, x, v).0 == s
  {
    ReplaceIdFromNone(s, x, v, 0);
  }

  /** Replacing an identifier by itself changes nothing. */
  lemma {:induction false} ReplaceIdFromSelf(s: string, x: string, i: nat)
    requires i <= |s|
    ensures ReplaceIdFrom(s, x, x, i).0 == s[i..]
    decreases |s| - i
  {
    if i < |s| {
      if IdAt(s, i, x) {
        ReplaceIdFromSelf(s, x, i + |x|);
        assert s[i..] == s[i..i + |x|] + s[i + |x|..];
      } else {
        ReplaceIdFromSelf(s, x, i + 1);
        assert s[i..] == [s[i]] + s[i + 1..];
      }
    }
  }

  /** Each replacement changes the length by |v| - |x|. */
  lemma {:induction false} ReplaceIdFromLength(s: string, x: string, v: string, i: nat)
    requires i <= |s|
    ensures |ReplaceIdFrom(s, x, v, i).0| == |s| - i + ReplaceIdFrom(s, x, v, i).1 * (|v| - |x|)
    decreases |s| - i
  {
    if i < |s| {
      var d := |v| - |x|;
      if IdAt(s, i, x) {
        var rest := ReplaceIdFrom(s, x, v, i + |x|);
        ReplaceIdFromLength(s, x, v, i + |x|);
        MulSucc(rest.1, d);
      } else {
        ReplaceIdFromLength(s, x, v, i + 1);
      }
    }
  }

  lemma MulSucc(n: int, d: int)
    ensures (n + 1) * d == n * d + d
  {
  }

  /** Removing an identifier never lengthens the text. */
  lemma ReplaceIdEmptyShorter(s: string, x: string)
    ensures |ReplaceId(s, x, "").0| <= |s|
    ensures |ReplaceId(s, x, "").0| == |s| - ReplaceId(s, x, "").1 * |x|
  {
    ReplaceIdFromLength(s, x, "", 0);
  }

  /** Positions i..k-1 hold no occurrence: the scan copies them unchanged. */
  lemma {:induction false} ReplaceIdFromSkip(s: string, x: string, v: string, i: nat, k: nat)
    requires i <= k <= |s|
    requires forall j :: i <= j < k ==> !IdAt(s, j, x)
    ensures ReplaceIdFrom(s, x, v, i).0 == s[i..k] + ReplaceIdFrom(s, x, v, k).0
    ensures ReplaceIdFrom(s, x, v, i).1 == ReplaceIdFrom(s, x, v, k).1
    decreases k - i
  {
    if i < k {
      ReplaceIdFromSkip(s, x, v, i + 1, k);
      assert !IdAt(s, i, x);
      var rest := ReplaceIdFrom(s, x, v, i + 1);
      assert ReplaceIdFrom(s, x, v, i) == ([s[i]] + rest.0, rest.1);
      assert s[i..k] == [s[i]] + s[i + 1..k];
      assert [s[i]] + (s[i + 1..k] + ReplaceIdFrom(s, x, v, k).0) == s[i..k] + ReplaceIdFrom(s, x, v, k).0;
    }
  }

  /** A text that ends with a single whole-identifier occurrence of x and has no
      earlier one: that occurrence, and only it, is replaced. */
  lemma ReplaceIdAtEnd(a: string, x: string, v: string)
    requires IdAt(a + x, |a|, x)
    requires forall j :: 0 <= j < |a| ==> !IdAt(a + x, j, x)
    ensures ReplaceId(a + x, x, v) == (a + v, 1)
  {
    var s := a + x;
    ReplaceIdFromSkip(s, x, v, 0, |a|);
    assert s[0..|a|] == a;
    assert ReplaceIdFrom(s, x, v, |a| + |x|) == ("", 0);
    assert v + "" == v;
  }

  /** An occurrence starts with the searched text's first character. */
  lemma FirstCharDiffers(s: string, j: nat, x: string)
    requires |x| > 0 && j < |s| && s[j] != x[0]
    ensures !OccursAt(s, j, x)
  {
    if j + |x| <= |s| {
      assert s[j..j + |x|][0] == s[j];
    }
  }

  /** A text without x's first character holds no occurrence of x, and
      Replaceid leaves it alone. */
  lemma ReplaceIdAbsent(s: string, x: string, v: string)
    requires |x| > 0 && x[0] !in s
    ensures ReplaceId(s, x, v) == (s, 0)
  {
    forall j | 0 <= j < |s|
      ensures !IdAt(s, j, x)
    {
      assert s[j] in s;
      FirstCharDiffers(s, j, x);
    }
    ReplaceIdNone(s, x, v);
  }

  /** A text with a single whole-identifier occurrence of x, between a and b:
      that occurrence, and only it, is replaced. */
  lemma ReplaceIdSingle(a: string, x: string, b: string, v: string)
    requires IdAt(a + x + b, |a|, x)
    requires forall j :: 0 <= j < |a| ==> !IdAt(a + x + b, j, x)
    requires forall j :: |a| + |x| <= j < |a + x + b| ==> !IdAt(a + x + b, j, x)
    ensures ReplaceId(a + x + b, x, v) == (a + v + b, 1)
  {
    var s := a + x + b;
    ReplaceIdFromSkip(s, x, v, 0, |a|);
    assert s[0..|a|] == a;
    ReplaceIdFromNone(s, x, v, |a| + |x|);
    assert !HasIdFrom(s, x, |a| + |x|);
    assert s[|a| + |x|..] == b;
    var rest := ReplaceIdFrom(s, x, v, |a| + |x|);
    assert ReplaceIdFrom(s, x, v, |a|) == (v + rest.0, rest.1 + 1);
    assert a + (v + b) == a + v + b;
  }

  /** Index of the first plain-text occurrence of x in s at or after i. */
  function IndexOfFrom(s: string, x: string, i: nat): (r: Option<nat>)
    requires i <= |s|
    ensures r.Some? ==> i <= r.value && OccursAt(s, r.value, x)
    ensures r.Some? ==> forall j :: i <= j < r.value ==> !OccursAt(s, j, x)
    ensures r.None? ==> forall j :: i <= j <= |s| ==> !OccursAt(s, j, x)
    decreases |s| - i
  {
    if OccursAt(s, i, x) then Some(i)
    else if i == |s| then None
    else IndexOfFrom(s, x, i + 1)
  }

  function IndexOf(s: string, x: string): Option<nat> {
    IndexOfFrom(s, x, 0)
  }

  /** Strstr(s, x) != NULL */
  predicate Contains(s: string, x: string) {
    IndexOf(s, x).Some?
  }

  /** Replace(s, x, "", DOH_REPLACE_FIRST): deletes the first occurrence of x. */
  function RemoveFirst(s: string, x: string): (r: string)
    ensures |r| <= |s|
  {
    if x == "" then s
    else match IndexOf(s, x)
      case None => s
      case Some(i) => s[..i] + s[i + |x|..]
  }

  /** Replace(s, x, v, DOH_REPLACE_ANY) from index i: every plain-text
      occurrence of x, left to right without overlap, becomes v. */
  function ReplaceAllFrom(s: string, x: string, v: string, i: nat): string
    requires i <= |s|
    decreases |s| - i
  {
    if i == |s| then ""
    else if |x| > 0 && OccursAt(s, i, x) then v + ReplaceAllFrom(s, x, v, i + |x|)
    else [s[i]] + ReplaceAllFrom(s, x, v, i + 1)
  }

  function ReplaceAll(s: string, x: string, v: string): string {
    ReplaceAllFrom(s, x, v, 0)
  }

  /** Text without x is left alone by the replace-all. */
  lemma {:induction false} ReplaceAllFromAbsent(s: string, x: string, v: string, i: nat)
    requires i <= |s|
    requires forall j :: i <= j <= |s| ==> !OccursAt(s, j, x)
    ensures ReplaceAllFrom(s, x, v, i) == s[i..]
    decreases |s| - i
  {
    if i < |s| {
      ReplaceAllFromAbsent(s, x, v, i + 1);
      assert s[i..] == [s[i]] + s[i + 1..];
    }
  }

  /** Positions i..k-1 hold no occurrence: the replace-all copies them. */
  lemma {:induction false} ReplaceAllFromSkip(s: string, x: string, v: string, i: nat, k: nat)
    requires i <= k <= |s|
    requires forall j :: i <= j < k ==> !(|x| > 0 && OccursAt(s, j, x))
    ensures ReplaceAllFrom(s, x, v, i) == s[i..k] + ReplaceAllFrom(s, x, v, k)
    decreases k - i
  {
    if i < k {
      assert !(|x| > 0 && OccursAt(s, i, x));
      assert ReplaceAllFrom(s, x, v, i) == [s[i]] + ReplaceAllFrom(s, x, v, i + 1);
      ReplaceAllFromSkip(s, x, v, i + 1, k);
      assert s[i..k] == [s[i]] + s[i + 1..k];
      assert [s[i]] + (s[i + 1..k] + ReplaceAllFrom(s, x, v, k)) == s[i..k] + ReplaceAllFrom(s, x, v, k);
    }
  }

  /** A text that ends with x and has no earlier occurrence of it: only that
      occurrence is replaced. */
  lemma ReplaceAllAtEnd(a: string, x: string, v: string)
    requires |x| > 0
    requires forall j :: 0 <= j < |a| ==> !OccursAt(a + x, j, x)
    ensures ReplaceAll(a + x, x, v) == a + v
  {
    var s := a + x;
    ReplaceAllFromSkip(s, x, v, 0, |a|);
    assert s[0..|a|] == a;
    assert OccursAt(s, |a|, x) by {
      assert s[|a|..|a| + |x|] == x;
    }
    assert ReplaceAllFrom(s, x, v, |a| + |x|) == "";
    assert v + "" == v;
  }

  /** Decimal rendering of a natural number ("%d"). */
  function NatToString(n: nat): (r: string)
    ensures |r| > 0
    ensures forall k :: 0 <= k < |r| ==> '0' <= r[k] <= '9'
    decreases n
  {
    var d := [((n % 10) + 48) as char];
    if n < 10 then d else NatToString(n / 10) + d
  }
}

=== FILE: traverse.dfy ===
// The recursion of the substitution walk (cparse_template_expand): from a
// node, each node of its subtree is visited, except the subtrees below a
// node in error and below the node types whose children are not visited
// (simple declarations, constructors, destructors, using declarations).
//
// Then the post-processing walk (cparse_postprocess_expanded_template).

module Traverse {
  import opened Strings
  import opened Types
  import opened Tree
  import opened Normalizer
  import opened Visit

  /** The two walks over the expanded tree: the substitution walk and the
      post-processing walk. */
  datatype Pass = Substitution | PostProcessing

  /** The walk visits the children of a node: the node is not in error and,
      in the substitution walk, its type is not one whose children are left
      alone; in the post-processing walk, it is not a simple declaration
      (by its node type now: a template node is not looked into as what it
      templates). */
  predicate Opens(m: Pass, r: Record) {
    !IsError(r) && (if m == Substitution then Recurses(EffectiveKind(r)) else r.kind != "cdecl")
  }

  /** The walk from node i gets to node k: k is i, or the walk gets to k's
      parent and visits its children. */
  predicate Descends(m: Pass, nodes: seq<Record>, i: nat, k: nat)
    decreases k
  {
    k == i
    || (i < k < |nodes| && nodes[k].parent.Some? && nodes[k].parent.value < k
        && Descends(m, nodes, i, nodes[k].parent.value) && Opens(m, nodes[nodes[k].parent.value]))
  }

  /** The substitution walk from node i visits node k: it gets there and k
      is not in error. */
  predicate Reached(nodes: seq<Record>, i: nat, k: nat) {
    k < |nodes| && Descends(Substitution, nodes, i, k) && !IsError(nodes[k])
  }

  /** The substitution walk is blind to what it changes. */
  lemma {:induction false} DescendsShape(a: seq<Record>, b: seq<Record>, i: nat, k: nat)
    requires Shape(a, b)
    ensures Descends(Substitution, a, i, k) == Descends(Substitution, b, i, k)
    decreases k
  {
    if k != i && i < k < |a| && a[k].parent.Some? && a[k].parent.value < k {
      DescendsShape(a, b, i, a[k].parent.value);
    }
  }

  /** The walk only gets to nodes of the subtree. */
  lemma {:induction false} DescendsSubtree(m: Pass, nodes: seq<Record>, i: nat, k: nat)
    requires Descends(m, nodes, i, k)
    ensures InSubtree(Parents(nodes), i, k)
    decreases k
  {
    if k != i {
      DescendsSubtree(m, nodes, i, nodes[k].parent.value);
    }
  }

  /** From a child of a node whose children it visits, the walk gets to
      what it gets to from the node. */
  lemma {:induction false} DescendsChild(m: Pass, nodes: seq<Record>, i: nat, c: nat, k: nat)
    requires WellFormed(nodes) && i < |nodes| && c in nodes[i].children && Opens(m, nodes[i])
    requires Descends(m, nodes, c, k)
    ensures Descends(m, nodes, i, k) && k != i
    decreases k
  {
    if k != c {
      DescendsChild(m, nodes, i, c, nodes[k].parent.value);
    }
  }

  /** Conversely, what the walk gets to below a node it gets to from one of
      the node's children. */
  lemma {:induction false} DescendsViaChild(m: Pass, nodes: seq<Record>, i: nat, k: nat) returns (c: nat)
    requires WellFormed(nodes) && i < |nodes|
    requires Descends(m, nodes, i, k) && k != i
    ensures c in nodes[i].children && Descends(m, nodes, c, k)
    decreases k
  {
    var p := nodes[k].parent.value;
    if p == i {
      c := k;
    } else {
      c := DescendsViaChild(m, nodes, i, p);
      assert k != c by {
        DescendsSubtree(m, nodes, c, p);
        SubtreeOrder(Parents(nodes), c, p);
      }
    }
  }

  /** The walk gets nowhere below a node whose children it does not
      visit. */
  lemma {:induction false} DescendsLeaf(m: Pass, nodes: seq<Record>, i: nat, k: nat)
    requires i < |nodes| && !Opens(m, nodes[i])
    requires Descends(m, nodes, i, k)
    ensures k == i
    decreases k
  {
    if k != i {
      DescendsLeaf(m, nodes, i, nodes[k].parent.value);
    }
  }

  lemma ReachedShape(a: seq<Record>, b: seq<Record>, i: nat, k: nat)
    requires Shape(a, b)
    ensures Reached(a, i, k) == Reached(b, i, k)
  {
    DescendsShape(a, b, i, k);
  }

  /** Where a node lies in the subtrees of the children of a node whose
      children the walk visits. */
  lemma ChildFacts(m: Pass, o: seq<Record>, i: nat, cs: seq<nat>, j: nat, x: nat)
    requires WellFormed(o) && i < |o| && cs == o[i].children && j < |cs| && Opens(m, o[i])
    requires Descends(m, o, cs[j], x)
    ensures Descends(m, o, i, x) && x != i
    ensures forall jj :: 0 <= jj < |cs| && jj != j ==> !Descends(m, o, cs[jj], x)
  {
    DescendsChild(m, o, i, cs[j], x);
    forall jj | 0 <= jj < |cs| && jj != j
      ensures !Descends(m, o, cs[jj], x)
    {
      assert cs[jj] != cs[j];
      if Descends(m, o, cs[jj], x) {
        DescendsSubtree(m, o, cs[j], x);
        SubtreesDisjoint(o, i, cs[j], cs[jj], x);
        DescendsSubtree(m, o, cs[jj], x);
      }
    }
  }

  /** The template's own destructors: a destructor whose parent is the root,
      or an %extend block directly under the root. */
  predicate OwnDtor(nodes: seq<Record>, root: nat, x: nat)
    requires x < |nodes|
  {
    EffectiveKind(nodes[x]) == "destructor" && DtorPatched(nodes, root, x)
  }

  /** Node x as its visit sees it: a template node by what it templates. */
  function Visited(o: seq<Record>, x: nat): Record
    requires x < |o|
  {
    o[x].(kind := EffectiveKind(o[x]))
  }

  /** The walk from node i (below i, when below is set) puts slot s on list
      l: s is of a node x the walk visits (o is the tree before the walk,
      nodes the tree after it), and the visit of x queues s. */
  ghost predicate Due(o: seq<Record>, nodes: seq<Record>, ctx: Ctx, i: nat, below: bool, l: Worklist, s: Slot) {
    s.node < |o| == |nodes| && Reached(o, i, s.node) && (below ==> s.node != i)
    && SlotQueued(l, Visited(o, s.node), nodes[s.node], ctx, OwnDtor(o, ctx.root, s.node), s)
  }

  /** Every slot of the list is of a node the walk from i visits (below i,
      when below is set; o is the tree before the walk) and holds a string
      the expansion may rewrite in nodes. */
  predicate SlotsIn(o: seq<Record>, nodes: seq<Record>, i: nat, below: bool, l: seq<Slot>) {
    forall s :: s in l ==> Reached(o, i, s.node) && (below ==> s.node != i) && Rewritable(nodes, s)
  }

  predicate WorkIn(o: seq<Record>, nodes: seq<Record>, i: nat, below: bool, w: Work) {
    SlotsIn(o, nodes, i, below, w.patch) && SlotsIn(o, nodes, i, below, w.types) && SlotsIn(o, nodes, i, below, w.code)
  }

  /** The walk from i (below i, when below is set) changes only the nodes it
      visits. */
  predicate Frame(o: seq<Record>, nodes: seq<Record>, i: nat, below: bool) {
    |o| == |nodes|
    && forall x: nat :: x < |nodes| && !(Reached(o, i, x) && (below ==> x != i)) ==> nodes[x] == o[x]
  }

  /** List l holds exactly the slots the walk from i puts on it. */
  ghost predicate ListIn(o: seq<Record>, nodes: seq<Record>, ctx: Ctx, i: nat, below: bool, l: Worklist, entries: seq<Slot>) {
    forall s: Slot :: s in entries <==> Due(o, nodes, ctx, i, below, l, s)
  }

  /** Each list of the work holds exactly the slots the walk from i puts
      on it. */
  ghost predicate QueuedIn(o: seq<Record>, nodes: seq<Record>, ctx: Ctx, i: nat, below: bool, w: Work) {
    ListIn(o, nodes, ctx, i, below, Patchlist, w.patch)
    && ListIn(o, nodes, ctx, i, below, Typelist, w.types)
    && ListIn(o, nodes, ctx, i, below, Cpatchlist, w.code)
  }

  /** A node changes kind only when it is a template node outside any other
      template node, and then it becomes what it templates. */
  predicate KindsKept(o: seq<Record>, nodes: seq<Record>, inTemplate: bool) {
    |o| == |nodes|
    && forall x: nat :: x < |nodes| ==>
      nodes[x].kind == o[x].kind || (!inTemplate && nodes[x].kind == EffectiveKind(o[x]))
  }

  /** No node other than i changes kind. */
  predicate SameKinds(o: seq<Record>, nodes: seq<Record>, i: nat) {
    |o| == |nodes| && forall x: nat :: x < |nodes| && x != i ==> nodes[x].kind == o[x].kind
  }

  /** The substitution walk from node i.  A node in error is left alone.  A
      template node is visited as what it templates, its children inside a
      template; the outermost template node keeps its new node type, any
      nested one is a template node again afterwards.  Other nodes are
      visited by their type, and their children are walked when the type
      says so.  The slots queued are those of the nodes visited. */
  method Walk(a: Arena, ctx: Ctx, i: nat, inTemplate: bool) returns (w: Work)
    requires WellFormed(a.nodes) && i < |a.nodes|
    requires forall x: nat :: Reached(a.nodes, i, x) ==> Ready(a.nodes[x])
    modifies a
    decreases |a.nodes| - i, 1
    ensures Shape(old(a.nodes), a.nodes) && Frame(old(a.nodes), a.nodes, i, false)
    ensures KindsKept(old(a.nodes), a.nodes, inTemplate)
    ensures a.nodes[i].kind ==
      if old(a.nodes)[i].kind == "template" && !inTemplate && !IsError(old(a.nodes)[i])
      then EffectiveKind(old(a.nodes)[i]) else old(a.nodes)[i].kind
    ensures inTemplate || old(a.nodes)[i].kind == "template" ==> SameKinds(old(a.nodes), a.nodes, i)
    ensures WorkIn(old(a.nodes), a.nodes, i, false, w) && WorkDistinct(w)
    ensures QueuedIn(old(a.nodes), a.nodes, ctx, i, false, w)
  {
    ghost var o := a.nodes;
    var rec := a.nodes[i];
    if IsError(rec) {
      ErrorQueued(o, ctx, i);
      return NoWork;
    }
    var eff := EffectiveKind(rec);
    var dtor := eff == "destructor" && DtorPatched(a.nodes, ctx.root, i);
    assert Reached(o, i, i);
    var q, w0, recurse := VisitNode(i, rec.(kind := eff), ctx, dtor);
    a.nodes := a.nodes[i := q];
    ghost var n1 := a.nodes;
    VisitedShape(o, n1, i, q);
    var wc := NoWork;
    if recurse {
      forall x: nat | Reached(n1, i, x) && x != i ensures Ready(n1[x]) {
        ReachedShape(o, n1, i, x);
      }
      wc := WalkChildren(a, ctx, i, inTemplate || rec.kind == "template");
    } else {
      LeafQueued(n1, ctx, i);
    }
    ghost var n2 := a.nodes;
    if rec.kind == "template" && inTemplate {
      a.nodes := a.nodes[i := a.nodes[i].(kind := "template")];
    }
    w := Join(w0, wc);
    WalkFrame(o, n1, n2, a.nodes, i);
    WalkKinds(o, n1, n2, a.nodes, i, inTemplate);
    WalkWork(o, n1, n2, a.nodes, i, w0, wc);
    WalkDistinct(n1, n2, i, w0, wc);
    WalkQueued(o, n1, n2, a.nodes, ctx, i, w0, wc);
  }

  /** The record of node i after its visit keeps the tree's shape. */
  lemma VisitedShape(o: seq<Record>, n1: seq<Record>, i: nat, q: Record)
    requires WellFormed(o) && i < |o| && n1 == o[i := q]
    requires SameFrame(o[i].(kind := EffectiveKind(o[i])), q)
    ensures Shape(o, n1) && WellFormed(n1)
  {
    WellFormedShape(o, n1);
  }

  lemma WalkFrame(o: seq<Record>, n1: seq<Record>, n2: seq<Record>, n3: seq<Record>, i: nat)
    requires i < |o| && !IsError(o[i]) && Shape(o, n1) && n1 == o[i := n1[i]]
    requires SameFrame(o[i].(kind := EffectiveKind(o[i])), n1[i])
    requires Shape(n1, n2) && Frame(n1, n2, i, true)
    requires n3 == n2 || n3 == n2[i := n2[i].(kind := o[i].kind)]
    requires EffectiveKind(o[i]) != "template"
    ensures Shape(o, n3) && Frame(o, n3, i, false)
  {
    assert Reached(o, i, i);
    forall x: nat | x < |n3| && !Reached(o, i, x) ensures n3[x] == o[x] {
      ReachedShape(o, n1, i, x);
    }
  }

  lemma WalkKinds(o: seq<Record>, n1: seq<Record>, n2: seq<Record>, n3: seq<Record>, i: nat, inTemplate: bool)
    requires i < |o| == |n1| && n1 == o[i := n1[i]] && n1[i].kind == EffectiveKind(o[i])
    requires KindsKept(n1, n2, inTemplate || o[i].kind == "template")
    requires inTemplate || o[i].kind == "template" ==> SameKinds(n1, n2, i)
    requires n2[i] == n1[i]
    requires n3 == if o[i].kind == "template" && inTemplate then n2[i := n2[i].(kind := "template")] else n2
    ensures KindsKept(o, n3, inTemplate)
    ensures n3[i].kind == if o[i].kind == "template" && !inTemplate then EffectiveKind(o[i]) else o[i].kind
    ensures inTemplate || o[i].kind == "template" ==> SameKinds(o, n3, i)
  {
  }

  /** The slots of node i's visit and those of the walks below it, in the
      tree at the end of the walk from i. */
  lemma WalkSlots(o: seq<Record>, n1: seq<Record>, n2: seq<Record>, n3: seq<Record>, i: nat, l0: seq<Slot>, lc: seq<Slot>)
    requires i < |o| && !IsError(o[i]) && Shape(o, n1) && n1 == o[i := n1[i]]
    requires SlotsOf(i, n1[i], l0)
    requires Frame(n1, n2, i, true) && SlotsIn(n1, n2, i, true, lc)
    requires n3 == n2 || n3 == n2[i := n2[i].(kind := o[i].kind)]
    ensures SlotsIn(o, n3, i, false, l0 + lc)
  {
    assert Reached(o, i, i);
    assert n2[i] == n1[i];
    forall s | s in l0 + lc ensures Reached(o, i, s.node) && Rewritable(n3, s) {
      if s !in l0 {
        ReachedShape(o, n1, i, s.node);
      }
    }
  }

  lemma WalkWork(o: seq<Record>, n1: seq<Record>, n2: seq<Record>, n3: seq<Record>, i: nat, w0: Work, wc: Work)
    requires i < |o| && !IsError(o[i]) && Shape(o, n1) && n1 == o[i := n1[i]]
    requires WorkOf(i, n1[i], w0)
    requires Frame(n1, n2, i, true) && WorkIn(n1, n2, i, true, wc)
    requires n3 == n2 || n3 == n2[i := n2[i].(kind := o[i].kind)]
    ensures WorkIn(o, n3, i, false, Join(w0, wc))
  {
    WalkSlots(o, n1, n2, n3, i, w0.patch, wc.patch);
    WalkSlots(o, n1, n2, n3, i, w0.types, wc.types);
    WalkSlots(o, n1, n2, n3, i, w0.code, wc.code);
  }

  /** The visit of node i and the walks below it queue different slots. */
  lemma WalkDistinct(n1: seq<Record>, n2: seq<Record>, i: nat, w0: Work, wc: Work)
    requires i < |n1| && WorkOf(i, n1[i], w0) && WorkDistinct(w0)
    requires WorkIn(n1, n2, i, true, wc) && WorkDistinct(wc)
    ensures WorkDistinct(Join(w0, wc))
  {
    DistinctJoin(w0.patch, wc.patch);
    DistinctJoin(w0.types, wc.types);
    DistinctJoin(w0.code, wc.code);
  }

  /** Whether the walk from i puts a slot on a list depends only on the tree's
      shape and on the node of the slot, before and after. */
  lemma DueShape(o: seq<Record>, o': seq<Record>, nodes: seq<Record>, nodes': seq<Record>, ctx: Ctx, i: nat, below: bool,
                 l: Worklist, s: Slot)
    requires Shape(o, o') && |nodes| == |nodes'| == |o|
    requires s.node < |o| ==> o[s.node] == o'[s.node] && nodes[s.node] == nodes'[s.node]
    ensures Due(o, nodes, ctx, i, below, l, s) == Due(o', nodes', ctx, i, below, l, s)
  {
    ReachedShape(o, o', i, s.node);
  }

  /** The walk from a node in error queues nothing. */
  lemma ErrorQueued(o: seq<Record>, ctx: Ctx, i: nat)
    requires i < |o| && IsError(o[i])
    ensures QueuedIn(o, o, ctx, i, false, NoWork)
  {
    forall x: nat | Descends(Substitution, o, i, x) ensures !Reached(o, i, x) {
      DescendsLeaf(Substitution, o, i, x);
    }
  }

  /** Nothing is queued below a node whose children the walk does not
      visit. */
  lemma LeafQueued(o: seq<Record>, ctx: Ctx, i: nat)
    requires i < |o| && !Opens(Substitution, o[i])
    ensures QueuedIn(o, o, ctx, i, true, NoWork)
  {
    forall x: nat | Descends(Substitution, o, i, x) ensures x == i {
      DescendsLeaf(Substitution, o, i, x);
    }
  }

  /** A list of the walk from i: what the visit of i puts on it, then what
      the walks below i put on it. */
  lemma WalkList(o: seq<Record>, n1: seq<Record>, n2: seq<Record>, n3: seq<Record>, ctx: Ctx, i: nat,
                 l: Worklist, w0: Work, e0: seq<Slot>, ec: seq<Slot>)
    requires i < |o| && !IsError(o[i]) && Shape(o, n1) && n1 == o[i := n1[i]]
    requires Queued(i, Visited(o, i), n1[i], ctx, OwnDtor(o, ctx.root, i), w0) && e0 == Entries(w0, l)
    requires forall s :: s in e0 ==> s.node == i
    requires Frame(n1, n2, i, true) && ListIn(n1, n2, ctx, i, true, l, ec)
    requires n3 == n2 || n3 == n2[i := n2[i].(kind := o[i].kind)]
    ensures ListIn(o, n3, ctx, i, false, l, e0 + ec)
  {
    assert Reached(o, i, i);
    assert n2[i] == n1[i];
    forall s: Slot ensures s in e0 + ec <==> Due(o, n3, ctx, i, false, l, s) {
      if s.node == i {
        SlotQueuedKind(l, Visited(o, i), n1[i], n3[i], ctx, OwnDtor(o, ctx.root, i), s);
        assert s !in ec;
      } else {
        assert s !in e0;
        DueShape(o, n1, n3, n2, ctx, i, false, l, s);
        if s.node < |o| {
          assert n3[s.node] == n2[s.node];
        }
      }
    }
  }

  lemma WalkQueued(o: seq<Record>, n1: seq<Record>, n2: seq<Record>, n3: seq<Record>, ctx: Ctx, i: nat, w0: Work, wc: Work)
    requires i < |o| && !IsError(o[i]) && Shape(o, n1) && n1 == o[i := n1[i]]
    requires Queued(i, Visited(o, i), n1[i], ctx, OwnDtor(o, ctx.root, i), w0) && WorkOf(i, n1[i], w0)
    requires Frame(n1, n2, i, true) && QueuedIn(n1, n2, ctx, i, true, wc)
    requires n3 == n2 || n3 == n2[i := n2[i].(kind := o[i].kind)]
    ensures QueuedIn(o, n3, ctx, i, false, Join(w0, wc))
  {
    WalkList(o, n1, n2, n3, ctx, i, Patchlist, w0, w0.patch, wc.patch);
    WalkList(o, n1, n2, n3, ctx, i, Typelist, w0, w0.types, wc.types);
    WalkList(o, n1, n2, n3, ctx, i, Cpatchlist, w0, w0.code, wc.code);
  }

  /** The nodes the walk from node i visits below it: those the walks from
      its children visit, in order. */
  method WalkChildren(a: Arena, ctx: Ctx, i: nat, inTemplate: bool) returns (w: Work)
    requires WellFormed(a.nodes) && i < |a.nodes|
    requires !IsError(a.nodes[i]) && Recurses(EffectiveKind(a.nodes[i]))
    requires forall x: nat :: Reached(a.nodes, i, x) && x != i ==> Ready(a.nodes[x])
    modifies a
    decreases |a.nodes| - i, 0
    ensures Shape(old(a.nodes), a.nodes) && Frame(old(a.nodes), a.nodes, i, true)
    ensures KindsKept(old(a.nodes), a.nodes, inTemplate)
    ensures inTemplate ==> SameKinds(old(a.nodes), a.nodes, i)
    ensures WorkIn(old(a.nodes), a.nodes, i, true, w) && WorkDistinct(w)
    ensures QueuedIn(old(a.nodes), a.nodes, ctx, i, true, w)
  {
    ghost var o := a.nodes;
    var cs := a.nodes[i].children;
    w := NoWork;
    ChildrenStart(o, ctx, i, cs);
    for j := 0 to |cs|
      invariant Progress(o, a.nodes, ctx, i, cs, j, inTemplate, w)
    {
      ghost var before := a.nodes;
      ChildReady(o, before, i, cs, j);
      var wc := Walk(a, ctx, cs[j], inTemplate);
      ChildStep(o, before, a.nodes, ctx, i, cs, j, inTemplate, w, wc);
      w := Join(w, wc);
    }
  }

  /** What the walks from the children before position j have done. */
  ghost predicate Progress(o: seq<Record>, nodes: seq<Record>, ctx: Ctx, i: nat, cs: seq<nat>, j: nat, inTemplate: bool, w: Work) {
    Shape(o, nodes) && WellFormed(nodes) && Frame(o, nodes, i, true)
    && Untouched(o, nodes, cs, j)
    && KindsKept(o, nodes, inTemplate) && (inTemplate ==> SameKinds(o, nodes, i))
    && WorkIn(o, nodes, i, true, w) && WorkDone(o, cs, j, w) && WorkDistinct(w)
    && SoFar(o, nodes, ctx, i, cs, j, Patchlist, w.patch)
    && SoFar(o, nodes, ctx, i, cs, j, Typelist, w.types)
    && SoFar(o, nodes, ctx, i, cs, j, Cpatchlist, w.code)
  }

  /** The walk from the child at position j extends what was done. */
  lemma ChildStep(o: seq<Record>, before: seq<Record>, after: seq<Record>, ctx: Ctx, i: nat, cs: seq<nat>, j: nat,
                  inTemplate: bool, w: Work, wc: Work)
    requires WellFormed(o) && i < |o| && cs == o[i].children && j < |cs|
    requires !IsError(o[i]) && Recurses(EffectiveKind(o[i]))
    requires Progress(o, before, ctx, i, cs, j, inTemplate, w)
    requires Shape(before, after) && Frame(before, after, cs[j], false)
    requires KindsKept(before, after, inTemplate)
    requires inTemplate ==> SameKinds(before, after, cs[j])
    requires inTemplate && cs[j] < |after| ==> after[cs[j]].kind == before[cs[j]].kind
    requires WorkIn(before, after, cs[j], false, wc) && WorkDistinct(wc)
    requires QueuedIn(before, after, ctx, cs[j], false, wc)
    ensures Progress(o, after, ctx, i, cs, j + 1, inTemplate, Join(w, wc))
  {
    ChildDistinct(o, before, after, cs, j, w.patch, wc.patch);
    ChildDistinct(o, before, after, cs, j, w.types, wc.types);
    ChildDistinct(o, before, after, cs, j, w.code, wc.code);
    ChildFrame(o, before, after, i, cs, j);
    WellFormedShape(o, after);
    ChildWork(o, before, after, i, cs, j, w, wc);
    ChildList(o, before, after, ctx, i, cs, j, Patchlist, w.patch, wc.patch);
    ChildList(o, before, after, ctx, i, cs, j, Typelist, w.types, wc.types);
    ChildList(o, before, after, ctx, i, cs, j, Cpatchlist, w.code, wc.code);
  }

  /** Node x is in none of the subtrees of the children from position j on. */
  predicate Done(nodes: seq<Record>, cs: seq<nat>, j: nat, x: nat) {
    forall jj :: j <= jj < |cs| ==> !Descends(Substitution, nodes, cs[jj], x)
  }

  /** The subtrees of the children from position j on are as they were. */
  predicate Untouched(o: seq<Record>, nodes: seq<Record>, cs: seq<nat>, j: nat) {
    |o| == |nodes|
    && forall jj, x: nat :: j <= jj < |cs| && x < |nodes| && Descends(Substitution, o, cs[jj], x) ==> nodes[x] == o[x]
  }

  predicate WorkDone(o: seq<Record>, cs: seq<nat>, j: nat, w: Work) {
    (forall s :: s in w.patch ==> Done(o, cs, j, s.node))
    && (forall s :: s in w.types ==> Done(o, cs, j, s.node))
    && (forall s :: s in w.code ==> Done(o, cs, j, s.node))
  }

  /** List l holds so far exactly the slots the walks from the children
      before position j put on it. */
  ghost predicate SoFar(o: seq<Record>, nodes: seq<Record>, ctx: Ctx, i: nat, cs: seq<nat>, j: nat, l: Worklist, entries: seq<Slot>) {
    forall s: Slot :: s in entries <==> Due(o, nodes, ctx, i, true, l, s) && Done(o, cs, j, s.node)
  }

  lemma ChildrenStart(o: seq<Record>, ctx: Ctx, i: nat, cs: seq<nat>)
    requires WellFormed(o) && i < |o| && cs == o[i].children
    ensures forall l: Worklist :: SoFar(o, o, ctx, i, cs, 0, l, [])
  {
    forall x: nat | Reached(o, i, x) && x != i ensures !Done(o, cs, 0, x) {
      var c := DescendsViaChild(Substitution, o, i, x);
      var jj :| 0 <= jj < |cs| && cs[jj] == c;
    }
  }

  lemma ChildReady(o: seq<Record>, before: seq<Record>, i: nat, cs: seq<nat>, j: nat)
    requires WellFormed(o) && i < |o| && cs == o[i].children && j < |cs|
    requires !IsError(o[i]) && Recurses(EffectiveKind(o[i]))
    requires forall x: nat :: Reached(o, i, x) && x != i ==> Ready(o[x])
    requires Shape(o, before) && Untouched(o, before, cs, j)
    ensures i < cs[j] < |before| && forall x: nat :: Reached(before, cs[j], x) ==> Ready(before[x])
  {
    assert cs[j] in o[i].children;
    forall x: nat | Reached(before, cs[j], x) ensures Ready(before[x]) {
      ReachedShape(o, before, cs[j], x);
      ChildFacts(Substitution, o, i, cs, j, x);
      assert before[x] == o[x];
    }
  }

  lemma ChildFrame(o: seq<Record>, before: seq<Record>, after: seq<Record>, i: nat, cs: seq<nat>, j: nat)
    requires WellFormed(o) && i < |o| && cs == o[i].children && j < |cs|
    requires !IsError(o[i]) && Recurses(EffectiveKind(o[i]))
    requires Shape(o, before) && Frame(o, before, i, true) && Untouched(o, before, cs, j)
    requires Shape(before, after) && Frame(before, after, cs[j], false)
    ensures Shape(o, after) && Frame(o, after, i, true) && Untouched(o, after, cs, j + 1)
  {
    forall x: nat | x < |after| && Reached(before, cs[j], x)
      ensures Reached(o, i, x) && x != i && forall jj :: j < jj < |cs| ==> !Descends(Substitution, o, cs[jj], x)
    {
      ReachedShape(o, before, cs[j], x);
      ChildFacts(Substitution, o, i, cs, j, x);
    }
  }

  lemma ChildSlots(o: seq<Record>, before: seq<Record>, after: seq<Record>, i: nat, cs: seq<nat>, j: nat,
                   l: seq<Slot>, lc: seq<Slot>)
    requires WellFormed(o) && i < |o| && cs == o[i].children && j < |cs|
    requires !IsError(o[i]) && Recurses(EffectiveKind(o[i]))
    requires Shape(o, before) && SlotsIn(o, before, i, true, l) && forall s :: s in l ==> Done(o, cs, j, s.node)
    requires Frame(before, after, cs[j], false) && SlotsIn(before, after, cs[j], false, lc)
    ensures SlotsIn(o, after, i, true, l + lc) && forall s :: s in l + lc ==> Done(o, cs, j + 1, s.node)
  {
    forall s | s in l + lc
      ensures Reached(o, i, s.node) && s.node != i && Rewritable(after, s) && Done(o, cs, j + 1, s.node)
    {
      if s in l {
        ReachedShape(o, before, cs[j], s.node);
      } else {
        ReachedShape(o, before, cs[j], s.node);
        ChildFacts(Substitution, o, i, cs, j, s.node);
      }
    }
  }

  lemma ChildWork(o: seq<Record>, before: seq<Record>, after: seq<Record>, i: nat, cs: seq<nat>, j: nat, w: Work, wc: Work)
    requires WellFormed(o) && i < |o| && cs == o[i].children && j < |cs|
    requires !IsError(o[i]) && Recurses(EffectiveKind(o[i]))
    requires Shape(o, before) && WorkIn(o, before, i, true, w) && WorkDone(o, cs, j, w)
    requires Frame(before, after, cs[j], false) && WorkIn(before, after, cs[j], false, wc)
    ensures WorkIn(o, after, i, true, Join(w, wc)) && WorkDone(o, cs, j + 1, Join(w, wc))
  {
    ChildSlots(o, before, after, i, cs, j, w.patch, wc.patch);
    ChildSlots(o, before, after, i, cs, j, w.types, wc.types);
    ChildSlots(o, before, after, i, cs, j, w.code, wc.code);
  }

  /** The walk from the child at position j queues no slot the walks from
      the children before it queued. */
  lemma ChildDistinct(o: seq<Record>, before: seq<Record>, after: seq<Record>, cs: seq<nat>, j: nat,
                      l: seq<Slot>, lc: seq<Slot>)
    requires j < |cs| && Shape(o, before)
    requires Distinct(l) && forall s :: s in l ==> Done(o, cs, j, s.node)
    requires Distinct(lc) && SlotsIn(before, after, cs[j], false, lc)
    ensures Distinct(l + lc)
  {
    forall s | s in l ensures s !in lc {
      ReachedShape(o, before, cs[j], s.node);
    }
    DistinctJoin(l, lc);
  }

  /** The walk from the child at position j puts on a list what it owes
      to the walk from i. */
  lemma ChildList(o: seq<Record>, before: seq<Record>, after: seq<Record>, ctx: Ctx, i: nat, cs: seq<nat>, j: nat,
                  l: Worklist, e: seq<Slot>, ec: seq<Slot>)
    requires WellFormed(o) && i < |o| && cs == o[i].children && j < |cs|
    requires !IsError(o[i]) && Recurses(EffectiveKind(o[i]))
    requires Shape(o, before) && Untouched(o, before, cs, j)
    requires SoFar(o, before, ctx, i, cs, j, l, e)
    requires Frame(before, after, cs[j], false) && ListIn(before, after, ctx, cs[j], false, l, ec)
    ensures SoFar(o, after, ctx, i, cs, j + 1, l, e + ec)
  {
    forall s: Slot ensures s in e + ec <==> Due(o, after, ctx, i, true, l, s) && Done(o, cs, j + 1, s.node) {
      var x := s.node;
      ReachedShape(o, before, cs[j], x);
      if Descends(Substitution, o, cs[j], x) {
        ChildFacts(Substitution, o, i, cs, j, x);
        assert !Done(o, cs, j, x);
        if x < |o| {
          assert before[x] == o[x];
        }
        DueShape(before, o, after, after, ctx, cs[j], false, l, s);
        assert Reached(o, i, x) == Reached(o, cs[j], x);
      } else {
        assert s !in ec;
        DueShape(o, o, after, before, ctx, i, true, l, s);
      }
    }
  }
}

=== FILE: tree.dfy ===
// The parse tree the template expansion works on.  Nodes live in an arena,
// a sequence of records, each naming its parent and its children by index
// (a child's index is larger than its parent's).  A record holds the node
// type and the node's string attributes, parameter lists and base lists.
//
// The expansion queues the strings it will later rewrite on three lists.
// In the source these hold the attribute strings themselves, which are
// rewritten in place; here they hold Slots, the address of one string in
// the arena, so that two entries for the same string alias exactly as in
// the source.

module Tree {
  import opened Strings
  import opened Parms

  /** The names of node attributes.  Those the engine reads or writes by
      name have their own constructor; Other holds any other name. */
  datatype Attr =
    | NameAttr | SymNameAttr | TypeAttr | DeclAttr | ValueAttr | CodeAttr
    | StorageAttr | ConversionOperatorAttr | TemplateTypeAttr | ErrorAttr | UnameAttr
    | Other(key: string)

  /** A node's parameter lists: "parms", "throws", "kwargs" and the
      typemap "pattern". */
  datatype ParmListName = ParmsList | ThrowsList | KwargsList | PatternList

  /** A class's base lists: "baselist", "protectedbaselist" and
      "privatebaselist". */
  datatype Access = Public | Protected | Private

  datatype Field = TypeField | ValueField | NameField

  /** The address of one string: a node attribute, a field of a parameter
      in one of the node's parameter lists, or an entry of a base list. */
  datatype Slot =
    | AttrSlot(node: nat, attr: Attr)
    | ParmSlot(node: nat, list: ParmListName, index: nat, field: Field)
    | BaseSlot(node: nat, access: Access, index: nat)

  datatype Record = Record(
    kind: string,
    attrs: map<Attr, string>,
    parmlists: map<ParmListName, seq<Parm>>,
    bases: map<Access, seq<string>>,
    parent: Option<nat>,
    children: seq<nat>)

  /** The three worklists: identifier substitution (patchlist), type
      substitution (typelist) and code substitution (cpatchlist). */
  datatype Work = Work(patch: seq<Slot>, types: seq<Slot>, code: seq<Slot>)

  const NoWork := Work([], [], [])

  /** The names of the three worklists. */
  datatype Worklist = Patchlist | Typelist | Cpatchlist

  function Entries(w: Work, l: Worklist): seq<Slot> {
    match l
    case Patchlist => w.patch
    case Typelist => w.types
    case Cpatchlist => w.code
  }

  function Join(a: Work, b: Work): Work {
    Work(a.patch + b.patch, a.types + b.types, a.code + b.code)
  }

  /** No slot is listed twice. */
  predicate Distinct(l: seq<Slot>) {
    forall x, y :: 0 <= x < y < |l| ==> l[x] != l[y]
  }

  /** No worklist lists a slot twice. */
  predicate WorkDistinct(w: Work) {
    Distinct(w.patch) && Distinct(w.types) && Distinct(w.code)
  }

  /** Two lists without repeats and without a common slot join into a list
      without repeats. */
  lemma DistinctJoin(a: seq<Slot>, b: seq<Slot>)
    requires Distinct(a) && Distinct(b) && forall s :: s in a ==> s !in b
    ensures Distinct(a + b)
  {
    forall x, y | 0 <= x < y < |a + b| ensures (a + b)[x] != (a + b)[y] {
      if x < |a| && y >= |a| {
        assert (a + b)[x] in a && (a + b)[y] == b[y - |a|];
      }
    }
  }

  lemma DistinctSnoc(l: seq<Slot>, s: Slot)
    requires Distinct(l) && s !in l
    ensures Distinct(l + [s])
  {
    DistinctJoin(l, [s]);
  }

  /** In a list without repeats, a listed slot is listed exactly once. */
  lemma {:induction false} DistinctOnce(l: seq<Slot>, s: Slot)
    requires Distinct(l) && s in l
    ensures multiset(l)[s] == 1
    decreases |l|
  {
    assert l == [l[0]] + l[1..];
    assert Distinct(l[1..]);
    if l[0] == s {
      assert s !in l[1..] by {
        forall y | 0 <= y < |l[1..]| ensures l[1..][y] != s {
          assert l[1..][y] == l[y + 1];
        }
      }
    } else {
      DistinctOnce(l[1..], s);
    }
  }

  function AllSlots(w: Work): seq<Slot> {
    w.patch + w.types + w.code
  }

  /** The node type a node is processed as: a template node is processed as
      the kind of declaration it templates ("" when that is not recorded). */
  function EffectiveKind(r: Record): string {
    if r.kind == "template" then (if TemplateTypeAttr in r.attrs then r.attrs[TemplateTypeAttr] else "") else r.kind
  }

  predicate IsError(r: Record) {
    ErrorAttr in r.attrs
  }

  function FieldOf(p: Parm, f: Field): Option<string> {
    match f
    case TypeField => p.ty
    case ValueField => p.value
    case NameField => p.name
  }

  function WithField(p: Parm, f: Field, t: string): (q: Parm)
    ensures FieldOf(q, f) == Some(t)
    ensures forall g :: g != f ==> FieldOf(q, g) == FieldOf(p, g)
    ensures q.isDefault == p.isDefault
  {
    match f
    case TypeField => p.(ty := Some(t))
    case ValueField => p.(value := Some(t))
    case NameField => p.(name := Some(t))
  }

  /** The string a slot of this record holds, if there is one. */
  function GetRec(r: Record, s: Slot): Option<string> {
    match s
    case AttrSlot(_, a) => if a in r.attrs then Some(r.attrs[a]) else None
    case ParmSlot(_, l, i, f) =>
      if l in r.parmlists && i < |r.parmlists[l]| then FieldOf(r.parmlists[l][i], f) else None
    case BaseSlot(_, l, i) =>
      if l in r.bases && i < |r.bases[l]| then Some(r.bases[l][i]) else None
  }

  function SetRec(r: Record, s: Slot, t: string): (q: Record)
    requires GetRec(r, s).Some?
    ensures q.kind == r.kind && q.parent == r.parent && q.children == r.children
    ensures q.attrs.Keys == r.attrs.Keys
  {
    match s
    case AttrSlot(_, a) => r.(attrs := r.attrs[a := t])
    case ParmSlot(_, l, i, f) => r.(parmlists := r.parmlists[l := r.parmlists[l][i := WithField(r.parmlists[l][i], f, t)]])
    case BaseSlot(_, l, i) => r.(bases := r.bases[l := r.bases[l][i := t]])
  }

  /** Writing a slot changes that slot and no other of the record. */
  lemma GetSetRec(r: Record, s: Slot, t: string, s': Slot)
    requires GetRec(r, s).Some? && s'.node == s.node
    ensures GetRec(SetRec(r, s, t), s') == if s' == s then Some(t) else GetRec(r, s')
  {
  }

  function Get(nodes: seq<Record>, s: Slot): Option<string> {
    if s.node < |nodes| then GetRec(nodes[s.node], s) else None
  }

  /** A slot that holds a string the expansion may rewrite: any but the
      attribute recording what a template node templates. */
  predicate Rewritable(nodes: seq<Record>, s: Slot) {
    Get(nodes, s).Some? && !(s.AttrSlot? && s.attr == TemplateTypeAttr)
  }

  function Set(nodes: seq<Record>, s: Slot, t: string): (r: seq<Record>)
    requires Rewritable(nodes, s)
    ensures |r| == |nodes| && Shape(nodes, r)
  {
    nodes[s.node := SetRec(nodes[s.node], s, t)]
  }

  /** Writing a slot changes that slot and no other. */
  lemma GetSet(nodes: seq<Record>, s: Slot, t: string, s': Slot)
    requires Rewritable(nodes, s)
    ensures Get(Set(nodes, s, t), s') == if s' == s then Some(t) else Get(nodes, s')
  {
    if s'.node == s.node {
      GetSetRec(nodes[s.node], s, t, s');
    }
  }

  /** What the expansion never changes: the tree's structure, which nodes
      are in error, and what kind of declaration each node is. */
  predicate Shape(a: seq<Record>, b: seq<Record>) {
    |a| == |b|
    && forall k :: 0 <= k < |a| ==>
      a[k].parent == b[k].parent && a[k].children == b[k].children
      && IsError(a[k]) == IsError(b[k]) && EffectiveKind(a[k]) == EffectiveKind(b[k])
  }

  lemma ShapeTrans(a: seq<Record>, b: seq<Record>, c: seq<Record>)
    requires Shape(a, b) && Shape(b, c)
    ensures Shape(a, c)
  {
  }

  function Parents(nodes: seq<Record>): (ps: seq<Option<nat>>)
    ensures |ps| == |nodes|
  {
    seq(|nodes|, k requires 0 <= k < |nodes| => nodes[k].parent)
  }

  lemma ShapeParents(a: seq<Record>, b: seq<Record>)
    requires Shape(a, b)
    ensures Parents(a) == Parents(b)
  {
  }

  /** Node k lies in the subtree rooted at node i. */
  predicate InSubtree(parents: seq<Option<nat>>, i: nat, k: nat)
    decreases k
  {
    k == i
    || (i < k < |parents| && parents[k].Some? && parents[k].value < k && InSubtree(parents, i, parents[k].value))
  }

  /** Children come after their parent, name it as their parent and are
      listed once, and a node naming a parent is among its children; a
      template node does not template another template node. */
  predicate WellFormed(nodes: seq<Record>) {
    forall k :: 0 <= k < |nodes| ==>
      (forall c :: c in nodes[k].children ==> k < c < |nodes| && nodes[c].parent == Some(k))
      && (forall x, y :: 0 <= x < y < |nodes[k].children| ==> nodes[k].children[x] != nodes[k].children[y])
      && (nodes[k].parent.Some? ==> nodes[k].parent.value < k && k in nodes[nodes[k].parent.value].children)
      && EffectiveKind(nodes[k]) != "template"
  }

  lemma WellFormedShape(a: seq<Record>, b: seq<Record>)
    requires WellFormed(a) && Shape(a, b)
    ensures WellFormed(b)
  {
  }

  /** A node in the subtree of i is i itself or comes after it. */
  lemma {:induction false} SubtreeOrder(parents: seq<Option<nat>>, i: nat, k: nat)
    requires InSubtree(parents, i, k)
    ensures i <= k
    decreases k
  {
  }

  /** The subtrees of a node's children are disjoint, and do not hold the
      node itself. */
  lemma {:induction false} SubtreeOfChild(nodes: seq<Record>, i: nat, c: nat, k: nat)
    requires WellFormed(nodes) && i < |nodes| && c in nodes[i].children
    requires InSubtree(Parents(nodes), c, k)
    ensures InSubtree(Parents(nodes), i, k) && k != i
    decreases k
  {
    var ps := Parents(nodes);
    if k != c {
      SubtreeOfChild(nodes, i, c, ps[k].value);
    }
  }

  lemma {:induction false} SubtreesDisjoint(nodes: seq<Record>, i: nat, c: nat, d: nat, k: nat)
    requires WellFormed(nodes) && i < |nodes| && c in nodes[i].children && d in nodes[i].children && c != d
    requires InSubtree(Parents(nodes), c, k)
    ensures !InSubtree(Parents(nodes), d, k)
    decreases k
  {
    var ps := Parents(nodes);
    // i comes before both children, so it is in neither subtree
    NotAbove(ps, c, i);
    NotAbove(ps, d, i);
    if k != c {
      SubtreesDisjoint(nodes, i, c, d, ps[k].value);
    }
  }

  /** A node before i is not in i's subtree. */
  lemma NotAbove(parents: seq<Option<nat>>, i: nat, k: nat)
    requires k < i
    ensures !InSubtree(parents, i, k)
  {
  }

  /** The arena of nodes; expansion rewrites the records in place. */
  class Arena {
    var nodes: seq<Record>

    constructor (nodes: seq<Record>)
      ensures this.nodes == nodes
    {
      this.nodes := nodes;
    }
  }
}

=== FILE: types.dfy ===
// SWIG's textual type encoding: a type is a chain of operators followed by a
// base name, e.g. "r.q(const).p.int" is a reference to a const pointer to int.
// Operators are "p." (pointer), "r." (reference), "z." (rvalue reference),
// "v." (variadic), and "q(...)." (qualifier), "a(...)." (array), "f(...)."
// (function), "m(...)." (member pointer).  Split reads the operators off the
// front; only the parts of the type library that the template engine relies
// on are given here.

module Types {
  import opened Strings

  /** Index of the ')' that closes the innermost of `depth` open groups when
      scanning t from index i, if there is one. */
  function CloseParen(t: string, i: nat, depth: nat): (r: Option<nat>)
    requires i <= |t| && depth >= 1
    ensures r.Some? ==> i <= r.value < |t| && t[r.value] == ')'
    decreases |t| - i
  {
    if i == |t| then None
    else if t[i] == '(' then CloseParen(t, i + 1, depth + 1)
    else if t[i] == ')' then (if depth == 1 then Some(i) else CloseParen(t, i + 1, depth - 1))
    else CloseParen(t, i + 1, depth)
  }

  /** Length of the operator at the front of t; 0 when t starts with its base. */
  function OpLen(t: string): (k: nat)
    ensures k == 0 || 2 <= k <= |t|
  {
    if |t| >= 2 && t[0] in "przv" && t[1] == '.' then 2
    else if |t| >= 2 && t[0] in "qafm" && t[1] == '(' then
      match CloseParen(t, 2, 1)
      case Some(j) => if j + 1 < |t| && t[j + 1] == '.' then j + 2 else 0
      case None => 0
    else 0
  }

  function Concat(ops: seq<string>): string {
    if ops == [] then "" else ops[0] + Concat(ops[1..])
  }

  lemma {:induction false} ConcatAppend(a: seq<string>, b: seq<string>)
    ensures Concat(a + b) == Concat(a) + Concat(b)
  {
    if a != [] {
      assert (a + b)[1..] == a[1..] + b;
      ConcatAppend(a[1..], b);
    } else {
      assert a + b == b;
    }
  }

  /** The operator tokens of t and its base: t is their concatenation. */
  function Split(t: string): (r: (seq<string>, string))
    decreases |t|
  {
    var k := OpLen(t);
    if k == 0 then ([], t)
    else
      var rest := Split(t[k..]);
      ([t[..k]] + rest.0, rest.1)
  }

  /** The operators and the base are a partition of the text. */
  lemma {:induction false} SplitConcat(t: string)
    ensures Concat(Ops(t)) + Base(t) == t
    decreases |t|
  {
    var k := OpLen(t);
    if k > 0 {
      SplitConcat(t[k..]);
      var ops := Ops(t);
      assert ops[0] == t[..k] && ops[1..] == Ops(t[k..]);
      assert t == t[..k] + t[k..];
    }
  }

  /** SwigType's operator list. */
  function Ops(t: string): seq<string> {
    Split(t).0
  }

  /** SwigType_base: the base name, e.g. "int" for "r.q(const).p.int". */
  function Base(t: string): string {
    Split(t).1
  }

  /** SwigType_prefix: the operators, e.g. "r.q(const).p." for "r.q(const).p.int". */
  function Prefix(t: string): string {
    Concat(Ops(t))
  }

  predicate IsQualifierOp(op: string) { |op| > 0 && op[0] == 'q' }
  predicate IsArrayOp(op: string) { |op| > 0 && op[0] == 'a' }
  predicate IsFunctionOp(op: string) { |op| > 0 && op[0] == 'f' }

  /** SwigType_isfunction: the declarator starts with a function operator,
      possibly behind one qualifier (a const member function). */
  predicate IsFunction(decl: string) {
    var ops := Ops(decl);
    |ops| > 0 && (IsFunctionOp(ops[0]) || (IsQualifierOp(ops[0]) && |ops| > 1 && IsFunctionOp(ops[1])))
  }

  /** SwigType_isvariadic: the type starts with the variadic operator. */
  predicate IsVariadic(t: string) {
    IsPrefix("v.", t)
  }

  /** SwigType_del_variadic: drops the leading variadic operator. */
  function DelVariadic(t: string): (r: string)
    requires IsVariadic(t)
    ensures "v." + r == t
  {
    t[2..]
  }

  /** One step of Split: a leading operator is the first token. */
  lemma SplitStep(t: string)
    requires OpLen(t) > 0
    ensures Split(t) == ([t[..OpLen(t)]] + Split(t[OpLen(t)..]).0, Split(t[OpLen(t)..]).1)
  {
  }

  /** The text left after reading k operators off the front of t. */
  function DropOps(t: string, k: nat): string
    requires k <= |Ops(t)|
    decreases k
  {
    if k == 0 then t
    else
      SplitStep(t);
      DropOps(t[OpLen(t)..], k - 1)
  }

  lemma {:induction false} DropOpsSplit(t: string, k: nat)
    requires k <= |Ops(t)|
    ensures Split(DropOps(t, k)) == (Ops(t)[k..], Base(t))
    decreases k
  {
    if k == 0 {
      assert Ops(t)[0..] == Ops(t);
    } else {
      var t' := t[OpLen(t)..];
      SplitStep(t);
      DropOpsSplit(t', k - 1);
      assert Ops(t)[k..] == Ops(t')[k - 1..];
    }
  }

  lemma {:induction false} DropOpsConcat(t: string, k: nat)
    requires k <= |Ops(t)|
    ensures Concat(Ops(t)[..k]) + DropOps(t, k) == t
    decreases k
  {
    if k == 0 {
      assert Ops(t)[..0] == [];
    } else {
      DropOpsStep(t, k);
      var n := OpLen(t);
      var t' := t[n..];
      DropOpsConcat(t', k - 1);
      ConcatConsPrefix(t[..n], Ops(t'), k);
      AppendAssoc(t[..n], Concat(Ops(t')[..k - 1]), DropOps(t', k - 1));
    }
  }

  /** Reading one operator off the front of t. */
  lemma DropOpsStep(t: string, k: nat)
    requires 0 < k <= |Ops(t)|
    ensures OpLen(t) > 0 && t == t[..OpLen(t)] + t[OpLen(t)..]
    ensures Ops(t) == [t[..OpLen(t)]] + Ops(t[OpLen(t)..])
    ensures k - 1 <= |Ops(t[OpLen(t)..])| && DropOps(t, k) == DropOps(t[OpLen(t)..], k - 1)
  {
    SplitStep(t);
  }

  lemma ConcatConsPrefix(h: string, ops: seq<string>, k: nat)
    requires 0 < k <= |ops| + 1
    ensures Concat(([h] + ops)[..k]) == h + Concat(ops[..k - 1])
  {
    var a := ([h] + ops)[..k];
    assert a[0] == h;
    assert a[1..] == ops[..k - 1];
  }

  lemma AppendAssoc(a: string, b: string, c: string)
    ensures (a + b) + c == a + (b + c)
  {
  }

  /** The concatenation of the first k tokens starts with the first token. */
  lemma ConcatCons(ops: seq<string>, k: nat)
    requires 0 < k <= |ops|
    ensures Concat(ops[..k]) == ops[0] + Concat(ops[1..][..k - 1])
  {
    assert ops[..k][1..] == ops[1..][..k - 1];
  }

  /** Dropping the first k operators leaves a text that splits into the
      remaining operators and the same base. */
  lemma SplitDrop(t: string, k: nat)
    requires k <= |Ops(t)|
    ensures |Concat(Ops(t)[..k])| <= |t|
    ensures Split(t[|Concat(Ops(t)[..k])|..]) == (Ops(t)[k..], Base(t))
  {
    DropOpsConcat(t, k);
    DropOpsSplit(t, k);
    var c := Concat(Ops(t)[..k]);
    assert t[|c|..] == DropOps(t, k);
  }
}

=== FILE: variadic.dfy ===
// Variadic pack expansion (expand_variadic_parms): the variadic last
// parameter of a declaration's parameter list, e.g. `v.r.T tt` in
// `X(T&... tt)`, is replaced by one parameter per element of the
// instantiation's pack, here `r.A, r.B, r.C` for X<A, B, C>.

module Variadic {
  import opened Strings
  import opened Types
  import opened Parms

  /** The type of one expanded element: the variadic type without its `v.`,
      with the pack's name replaced by the element's type (by nothing when
      the element has no type; left alone when the pack has no name). */
  function ElementType(vt: string, packName: Option<string>, elementType: Option<string>): (t: string)
    requires IsVariadic(vt)
    ensures packName.None? ==> "v." + t == vt
  {
    var base := DelVariadic(vt);
    if packName.None? then base
    else ReplaceId(base, packName.value, if elementType.Some? then elementType.value else "").0
  }

  /** A parameter list after expand_variadic_parms: when the template has a
      variadic parameter and the list ends with a variadic parameter, that
      last parameter is replaced by the pack, each element taking its
      element type; otherwise the list is as it was. */
  function Expanded(ps: seq<Parm>, unexpanded: Option<Parm>, pack: seq<Parm>): seq<Parm> {
    if unexpanded.Some? && VariadicParm(ps).Some? then
      ps[..|ps| - 1]
      + seq(|pack|, e requires 0 <= e < |pack| => pack[e].(ty := Some(ElementType(ps[|ps| - 1].ty.value, unexpanded.value.name, pack[e].ty))))
    else ps
  }

  /** expand_variadic_parms on one parameter list: when the template has a
      variadic parameter and the list ends with a variadic parameter, that
      last parameter is replaced by a copy of the pack whose types are the
      element types; otherwise the list is returned as it is. */
  method ExpandVariadicParms(ps: seq<Parm>, unexpanded: Option<Parm>, pack: seq<Parm>) returns (r: seq<Parm>)
    ensures r == Expanded(ps, unexpanded, pack)
    ensures unexpanded.None? || VariadicParm(ps).None? ==> r == ps
    ensures unexpanded.Some? && VariadicParm(ps).Some? ==>
      |r| == |ps| - 1 + |pack| && r[..|ps| - 1] == ps[..|ps| - 1]
      && forall e :: 0 <= e < |pack| ==>
        r[|ps| - 1 + e] == pack[e].(ty := Some(ElementType(ps[|ps| - 1].ty.value, unexpanded.value.name, pack[e].ty)))
  {
    r := ps;
    if unexpanded.Some? {
      var variadic := VariadicParm(ps);
      if variadic.Some? {
        var vt := variadic.value.ty.value;
        var packName := unexpanded.value.name;
        var expanded := pack;
        var e := 0;
        while e < |expanded|
          invariant 0 <= e <= |pack| && |expanded| == |pack|
          invariant forall k :: 0 <= k < e ==> expanded[k] == pack[k].(ty := Some(ElementType(vt, packName, pack[k].ty)))
          invariant forall k :: e <= k < |pack| ==> expanded[k] == pack[k]
        {
          expanded := expanded[e := expanded[e].(ty := Some(ElementType(vt, packName, expanded[e].ty)))];
          e := e + 1;
        }
        r := ps[..|ps| - 1] + expanded;
      }
    }
  }

  /** The usual shape of a variadic parameter type: operators followed by
      the pack's name.  Each element then gets the same operators followed
      by its own type. */
  lemma ElementOfTrailingPack(pre: string, packName: string, elementType: string)
    requires |packName| > 0 && packName[0] !in pre
    requires pre == "" || !IsIdChar(pre[|pre| - 1])
    ensures IsVariadic("v." + pre + packName)
    ensures ElementType("v." + pre + packName, Some(packName), Some(elementType)) == pre + elementType
  {
    var vt := "v." + pre + packName;
    assert vt[..2] == "v.";
    assert DelVariadic(vt) == pre + packName;
    var s := pre + packName;
    assert s[|pre|..|pre| + |packName|] == packName;
    forall j | 0 <= j < |pre|
      ensures !IdAt(s, j, packName)
    {
      assert s[j] == pre[j];
      assert pre[j] in pre;
      FirstCharDiffers(s, j, packName);
    }
    ReplaceIdAtEnd(pre, packName, elementType);
  }

  /** The source's example: `v.r.T tt` with the pack A, B, C becomes
      `r.A, r.B, r.C`. */
  lemma DocExampleReferences()
    ensures ElementType("v.r.T", Some("T"), Some("A")) == "r.A"
    ensures ElementType("v.r.T", Some("T"), Some("B")) == "r.B"
    ensures ElementType("v.r.T", Some("T"), Some("C")) == "r.C"
  {
    assert "v." + "r." + "T" == "v.r.T";
    ElementOfTrailingPack("r.", "T", "A");
    ElementOfTrailingPack("r.", "T", "B");
    ElementOfTrailingPack("r.", "T", "C");
  }
}

=== FILE: visit.dfy ===
// The visit of one node in the substitution walk of a template expansion
// (cparse_template_expand): by the node's type, some of its strings are
// renamed on the spot, and the strings that depend on the template
// parameters are queued on the three worklists by their address.  The
// recursion over the tree is in module Traverse; the rewriting of the
// queued strings in module Patch.

module Visit {
  import opened Strings
  import opened Types
  import opened Parms
  import opened Variadic
  import opened Tree
  import opened Normalizer

  /** What the whole walk shares: the root template node, the template's
      name (tname), the instance's name (rname), the instance's template
      arguments as text (e.g. "<(int)>"), the template's variadic parameter
      and the arguments that make up the pack. */
  datatype Ctx = Ctx(root: nat, tname: string, rname: string, templateargs: string,
                     unexpanded: Option<Parm>, pack: seq<Parm>)

  /** SwigType_templateprefix: the text before the first template argument
      list, e.g. "Foo" for "Foo<(int)>". */
  function TemplatePrefix(s: string): (r: string)
    ensures IsPrefix(r, s)
    ensures r == s || OccursAt(s, |r|, "<(")
    ensures forall j :: 0 <= j < |r| ==> !OccursAt(s, j, "<(")
  {
    match IndexOf(s, "<(")
    case None => s
    case Some(i) => s[..i]
  }

  /** Append: a string the node does not have is not queued. */
  function Queue(list: seq<Slot>, r: Record, s: Slot): (l: seq<Slot>)
    ensures forall t :: t in l <==> t in list || (t == s && GetRec(r, s).Some?)
  {
    if GetRec(r, s).Some? then list + [s] else list
  }

  /** The slot, when the record holds a string there. */
  function Held(r: Record, s: Slot): (l: seq<Slot>)
    ensures l == (if GetRec(r, s).Some? then [s] else [])
  {
    if GetRec(r, s).Some? then [s] else []
  }

  /** The slots of a visit all belong to node k, hold a string in the
      record left by the visit, and never address the template type. */
  predicate SlotsOf(k: nat, r: Record, slots: seq<Slot>) {
    forall s :: s in slots ==> s.node == k && GetRec(r, s).Some? && !(s.AttrSlot? && s.attr == TemplateTypeAttr)
  }

  /** A visit changes only the node's strings and lists, never its place in
      the tree, its kind or whether it is in error. */
  predicate SameFrame(r: Record, q: Record) {
    q.kind == r.kind && q.parent == r.parent && q.children == r.children
    && q.attrs.Keys == r.attrs.Keys
    && (TemplateTypeAttr in r.attrs ==> q.attrs[TemplateTypeAttr] == r.attrs[TemplateTypeAttr])
  }

  /** The slots of a visit's work all belong to node k and hold a string in
      record r. */
  predicate WorkOf(k: nat, r: Record, w: Work) {
    SlotsOf(k, r, w.patch) && SlotsOf(k, r, w.types) && SlotsOf(k, r, w.code)
  }

  /** No slot of the work addresses parameter list l. */
  predicate NotInList(w: Work, l: ParmListName) {
    (forall s :: s in w.patch ==> !(s.ParmSlot? && s.list == l))
    && (forall s :: s in w.types ==> !(s.ParmSlot? && s.list == l))
    && (forall s :: s in w.code ==> !(s.ParmSlot? && s.list == l))
  }

  /** The work addresses node attributes only. */
  predicate AttrsOnly(w: Work) {
    (forall s :: s in w.patch ==> s.AttrSlot?)
    && (forall s :: s in w.types ==> s.AttrSlot?)
    && (forall s :: s in w.code ==> s.AttrSlot?)
  }

  // ---------------------------------------------------------------------
  // add_parms and expand_parms

  /** Slot s addresses a field of one of the first n parameters of list l
      of node k that the parameter has: its type or value, or, in a typemap
      pattern, its name. */
  predicate ParmQueued(k: nat, l: ParmListName, ps: seq<Parm>, isPattern: bool, n: nat, s: Slot) {
    s.ParmSlot? && s.node == k && s.list == l && s.index < n && s.index < |ps|
    && FieldOf(ps[s.index], s.field).Some? && (s.field == NameField ==> isPattern)
  }

  /** add_parms: the type and value of each parameter (and, in a typemap
      pattern, its name) go on the type list; the value also goes on the
      given patch list. */
  method AddParms(k: nat, l: ParmListName, ps: seq<Parm>, isPattern: bool) returns (patch: seq<Slot>, types: seq<Slot>)
    ensures forall s :: s in types <==> ParmQueued(k, l, ps, isPattern, |ps|, s)
    ensures forall s :: s in patch <==> ParmQueued(k, l, ps, false, |ps|, s) && s.field == ValueField
    ensures Distinct(types) && Distinct(patch)
  {
    patch := [];
    types := [];
    var j := 0;
    while j < |ps|
      invariant 0 <= j <= |ps|
      invariant forall s :: s in types <==> ParmQueued(k, l, ps, isPattern, j, s)
      invariant forall s :: s in patch <==> ParmQueued(k, l, ps, false, j, s) && s.field == ValueField
      invariant Distinct(types) && Distinct(patch)
    {
      ghost var t0, p0 := types, patch;
      assert forall s: Slot :: s in t0 + p0 ==> s.ParmSlot? && s.index < j;
      if ps[j].ty.Some? {
        DistinctSnoc(types, ParmSlot(k, l, j, TypeField));
        types := types + [ParmSlot(k, l, j, TypeField)];
      }
      if ps[j].value.Some? {
        DistinctSnoc(types, ParmSlot(k, l, j, ValueField));
        types := types + [ParmSlot(k, l, j, ValueField)];
      }
      if isPattern && ps[j].name.Some? {
        DistinctSnoc(types, ParmSlot(k, l, j, NameField));
        types := types + [ParmSlot(k, l, j, NameField)];
      }
      if ps[j].value.Some? {
        DistinctSnoc(patch, ParmSlot(k, l, j, ValueField));
        patch := patch + [ParmSlot(k, l, j, ValueField)];
      }
      j := j + 1;
    }
  }

  /** A field of a parameter in list s.list of a record that expand_parms
      puts on the type list: its type or value, or, in a typemap pattern,
      its name. */
  predicate ParmTyped(q: Record, s: Slot) {
    s.ParmSlot? && s.list in q.parmlists
    && ParmQueued(s.node, s.list, q.parmlists[s.list], s.list == PatternList, |q.parmlists[s.list]|, s)
  }

  /** A parameter value that expand_parms puts on the code list. */
  predicate ParmCoded(q: Record, s: Slot) {
    s.ParmSlot? && s.list in q.parmlists && s.field == ValueField
    && ParmQueued(s.node, s.list, q.parmlists[s.list], false, |q.parmlists[s.list]|, s)
  }

  /** The parameter slots of node k in the work are exactly those
      expand_parms queues for the given lists of record q. */
  ghost predicate ParmWork(k: nat, q: Record, lists: seq<ParmListName>, w: Work) {
    forall s: Slot :: s.ParmSlot? && s.node == k ==>
      s !in w.patch
      && (s in w.types <==> s.list in lists && ParmTyped(q, s))
      && (s in w.code <==> s.list in lists && ParmCoded(q, s))
  }

  /** The parameter lists of a record after expand_parms on the given
      lists. */
  function ExpandedLists(m: map<ParmListName, seq<Parm>>, lists: seq<ParmListName>, ctx: Ctx): (r: map<ParmListName, seq<Parm>>)
    ensures r.Keys == m.Keys
    ensures forall l :: l in m && l !in lists ==> r[l] == m[l]
  {
    map l | l in m :: if l in lists then Expanded(m[l], ctx.unexpanded, ctx.pack) else m[l]
  }

  lemma ExpandedListsSnoc(m: map<ParmListName, seq<Parm>>, lists: seq<ParmListName>, l: ParmListName, ctx: Ctx)
    ensures ExpandedLists(m, lists + [l], ctx)
      == if l in m then ExpandedLists(m, lists, ctx)[l := Expanded(m[l], ctx.unexpanded, ctx.pack)] else ExpandedLists(m, lists, ctx)
  {
  }

  /** expand_parms: the variadic expansion of one of the node's parameter
      lists, then add_parms on the result.  Every visit passes the code list
      as the patch list, so a parameter's value is patched as code (and
      also as a type).  The new slots are appended to the visit's work. */
  method ExpandParms(k: nat, r: Record, l: ParmListName, ctx: Ctx, isPattern: bool, w: Work) returns (q: Record, w': Work)
    requires WorkOf(k, r, w) && NotInList(w, l)
    ensures l !in r.parmlists ==> q == r && w' == w
    ensures l in r.parmlists ==> q == r.(parmlists := r.parmlists[l := Expanded(r.parmlists[l], ctx.unexpanded, ctx.pack)])
    ensures l in r.parmlists ==>
      forall s: Slot :: s.ParmSlot? && s.list == l ==>
        (s in w'.types <==> ParmQueued(k, l, q.parmlists[l], isPattern, |q.parmlists[l]|, s))
        && (s in w'.code <==> ParmQueued(k, l, q.parmlists[l], false, |q.parmlists[l]|, s) && s.field == ValueField)
    ensures w'.patch == w.patch
    ensures forall s: Slot :: !(s.ParmSlot? && s.list == l) ==> (s in w'.types <==> s in w.types) && (s in w'.code <==> s in w.code)
    ensures WorkOf(k, q, w')
    ensures WorkDistinct(w) ==> WorkDistinct(w')
  {
    if l !in r.parmlists {
      return r, w;
    }
    var ps := ExpandVariadicParms(r.parmlists[l], ctx.unexpanded, ctx.pack);
    q := r.(parmlists := r.parmlists[l := ps]);
    assert forall s :: s in w.patch + w.types + w.code ==> GetRec(q, s) == GetRec(r, s);
    w' := QueueParms(k, q, l, isPattern, w);
  }

  /** add_parms on list l of record q, its slots appended to the work. */
  method QueueParms(k: nat, q: Record, l: ParmListName, isPattern: bool, w: Work) returns (w': Work)
    requires l in q.parmlists && WorkOf(k, q, w)
    ensures forall s: Slot :: s.ParmSlot? && s.list == l ==>
        (s in w'.types <==> s in w.types || ParmQueued(k, l, q.parmlists[l], isPattern, |q.parmlists[l]|, s))
        && (s in w'.code <==> s in w.code || (ParmQueued(k, l, q.parmlists[l], false, |q.parmlists[l]|, s) && s.field == ValueField))
    ensures w'.patch == w.patch
    ensures forall s :: s in w'.types ==> s in w.types || (s.ParmSlot? && s.list == l)
    ensures forall s :: s in w'.code ==> s in w.code || (s.ParmSlot? && s.list == l)
    ensures forall s: Slot :: !(s.ParmSlot? && s.list == l) ==> (s in w'.types <==> s in w.types) && (s in w'.code <==> s in w.code)
    ensures WorkOf(k, q, w')
    ensures WorkDistinct(w) && NotInList(w, l) ==> WorkDistinct(w')
  {
    var patch, types := AddParms(k, l, q.parmlists[l], isPattern);
    w' := Work(w.patch, w.types + types, w.code + patch);
    if WorkDistinct(w) && NotInList(w, l) {
      DistinctJoin(w.types, types);
      DistinctJoin(w.code, patch);
    }
  }

  /** expand_parms on each of the named lists in turn, the typemap pattern
      with its parameter names: the lists are expanded, and exactly their
      parameters' slots are added to the work. */
  method ExpandParmLists(k: nat, r: Record, lists: seq<ParmListName>, ctx: Ctx, w0: Work) returns (q: Record, w: Work)
    requires WorkOf(k, r, w0) && AttrsOnly(w0)
    requires forall x, y :: 0 <= x < y < |lists| ==> lists[x] != lists[y]
    ensures q == r.(parmlists := ExpandedLists(r.parmlists, lists, ctx))
    ensures w.patch == w0.patch
    ensures forall s: Slot :: !s.ParmSlot? ==> (s in w.types <==> s in w0.types) && (s in w.code <==> s in w0.code)
    ensures ParmWork(k, q, lists, w)
    ensures WorkOf(k, q, w)
    ensures WorkDistinct(w0) ==> WorkDistinct(w)
  {
    q := r;
    w := w0;
    assert ExpandedLists(r.parmlists, lists[..0], ctx) == r.parmlists;
    for i := 0 to |lists|
      invariant q == r.(parmlists := ExpandedLists(r.parmlists, lists[..i], ctx))
      invariant w.patch == w0.patch && WorkOf(k, q, w)
      invariant forall s: Slot :: !s.ParmSlot? ==> (s in w.types <==> s in w0.types) && (s in w.code <==> s in w0.code)
      invariant ParmWork(k, q, lists[..i], w)
      invariant WorkDistinct(w0) ==> WorkDistinct(w)
    {
      var l := lists[i];
      assert l !in lists[..i];
      var q', w' := ExpandParms(k, q, l, ctx, l == PatternList, w);
      ExpandedListsSnoc(r.parmlists, lists[..i], l, ctx);
      assert lists[..i + 1] == lists[..i] + [l];
      ParmWorkStep(k, q, q', lists[..i], l, w, w');
      q, w := q', w';
    }
    assert lists[..|lists|] == lists;
  }

  /** The parameter slots after expand_parms on one more list. */
  lemma ParmWorkStep(k: nat, q: Record, q': Record, lists: seq<ParmListName>, l: ParmListName, w: Work, w': Work)
    requires l !in lists && ParmWork(k, q, lists, w)
    requires l !in q.parmlists ==> q' == q && w' == w
    requires l in q.parmlists ==> q' == q.(parmlists := q'.parmlists) && l in q'.parmlists && q'.parmlists == q.parmlists[l := q'.parmlists[l]]
    requires l in q.parmlists ==>
      forall s: Slot :: s.ParmSlot? && s.list == l ==>
        (s in w'.types <==> ParmQueued(k, l, q'.parmlists[l], l == PatternList, |q'.parmlists[l]|, s))
        && (s in w'.code <==> ParmQueued(k, l, q'.parmlists[l], false, |q'.parmlists[l]|, s) && s.field == ValueField)
    requires w'.patch == w.patch
    requires forall s: Slot :: !(s.ParmSlot? && s.list == l) ==> (s in w'.types <==> s in w.types) && (s in w'.code <==> s in w.code)
    ensures ParmWork(k, q', lists + [l], w')
  {
    forall s: Slot | s.ParmSlot? && s.node == k
      ensures s !in w'.patch
        && (s in w'.types <==> s.list in lists + [l] && ParmTyped(q', s))
        && (s in w'.code <==> s.list in lists + [l] && ParmCoded(q', s))
    {
      if s.list == l {
        if l !in q.parmlists {
          assert !ParmTyped(q, s) && !ParmCoded(q, s);
        }
      }
    }
  }

  // ---------------------------------------------------------------------
  // The visit of one node, by node type

  predicate IsFriend(r: Record) {
    StorageAttr in r.attrs && r.attrs[StorageAttr] == "friend"
  }

  /** A simple declaration: its type and declarator go on the type list,
      its value on the patch list, its code on the code list, then its
      parameters and exception specification.  A conversion operator also
      has its names patched as code; a friend loses the template arguments
      of its symbol name and has its name patched as a type.  (A friend
      conversion operator gets a new symbol name string after the old one
      was queued; patching the old one does not reach the node, so here it
      is not queued.) */
  method VisitCdecl(k: nat, r: Record, ctx: Ctx) returns (q: Record, w: Work)
    requires r.kind == "cdecl"
    ensures SameFrame(r, q) && WorkOf(k, q, w) && q.bases == r.bases
    ensures q.parmlists == ExpandedLists(r.parmlists, ListsOf(r.kind), ctx)
    ensures IsFriend(r) && SymNameAttr in r.attrs ==>
      q.attrs == r.attrs[SymNameAttr := TemplatePrefix(r.attrs[SymNameAttr])]
    ensures !(IsFriend(r) && SymNameAttr in r.attrs) ==> q.attrs == r.attrs
    ensures Queued(k, r, q, ctx, false, w) && WorkDistinct(w)
  {
    q := r;
    if IsFriend(r) && SymNameAttr in r.attrs {
      q := q.(attrs := q.attrs[SymNameAttr := TemplatePrefix(r.attrs[SymNameAttr])]);
    }
    var w0 := Work(CdeclPatch(k, r), CdeclTypes(k, r), CdeclCode(k, r));
    assert WorkOf(k, q, w0);
    CdeclDistinct(k, r);
    q, w := ExpandParmLists(k, q, ListsOf(r.kind), ctx, w0);
    QueuedFromParts(k, r, q, ctx, false, w0, w);
  }

  /** The value of a simple declaration is patched. */
  function CdeclPatch(k: nat, r: Record): (l: seq<Slot>)
    ensures forall s :: s in l <==> s == AttrSlot(k, ValueAttr) && ValueAttr in r.attrs
  {
    Held(r, AttrSlot(k, ValueAttr))
  }

  /** The type and declarator of a simple declaration, and the name of a
      friend, are patched as types. */
  function CdeclTypes(k: nat, r: Record): (l: seq<Slot>)
    ensures forall s :: s in l <==>
      s.AttrSlot? && s.node == k && s.attr in r.attrs
      && (s.attr == TypeAttr || s.attr == DeclAttr || (s.attr == NameAttr && IsFriend(r)))
  {
    Held(r, AttrSlot(k, TypeAttr)) + Held(r, AttrSlot(k, DeclAttr))
    + (if IsFriend(r) then Held(r, AttrSlot(k, NameAttr)) else [])
  }

  /** The code of a simple declaration, and the names of a conversion
      operator, are patched as code. */
  function CdeclCode(k: nat, r: Record): (l: seq<Slot>)
    ensures forall s :: s in l <==>
      s.AttrSlot? && s.node == k && s.attr in r.attrs
      && (s.attr == CodeAttr
          || (ConversionOperatorAttr in r.attrs && s.attr == NameAttr)
          || (ConversionOperatorAttr in r.attrs && !IsFriend(r) && s.attr == SymNameAttr))
  {
    Held(r, AttrSlot(k, CodeAttr))
    + (if ConversionOperatorAttr in r.attrs then Held(r, AttrSlot(k, NameAttr)) else [])
    + (if ConversionOperatorAttr in r.attrs && !IsFriend(r) then Held(r, AttrSlot(k, SymNameAttr)) else [])
  }

  /** Only the last entry of a base list may be a variadic base. */
  predicate VariadicBaseLast(items: seq<string>) {
    forall j :: 0 <= j < |items| - 1 ==> !IsVariadic(items[j])
  }

  /** The bases a variadic base stands for: the element types of the pack
      (itself when the template has no variadic parameter). */
  function BaseElements(name: string, ctx: Ctx): (r: seq<string>)
    requires IsVariadic(name)
    ensures |r| == if ctx.unexpanded.Some? then |ctx.pack| else 1
  {
    if ctx.unexpanded.None? then [name]
    else seq(|ctx.pack|, e requires 0 <= e < |ctx.pack| => ElementType(name, ctx.unexpanded.value.name, ctx.pack[e].ty))
  }

  /** A base list after the visit: a trailing variadic base is replaced by
      the bases it stands for. */
  function ExpandedBases(items: seq<string>, ctx: Ctx): seq<string> {
    if |items| > 0 && IsVariadic(items[|items| - 1]) then items[..|items| - 1] + BaseElements(items[|items| - 1], ctx)
    else items
  }

  /** The slots of the first n entries of base list b. */
  function BaseSlotSeq(k: nat, b: Access, n: nat): (r: seq<Slot>)
    ensures |r| == n && forall i :: 0 <= i < n ==> r[i] == BaseSlot(k, b, i)
  {
    seq(n, i requires 0 <= i < n => BaseSlot(k, b, i))
  }

  /** The slots of every entry of base list b. */
  function BaseSlotsIn(k: nat, bases: map<Access, seq<string>>, b: Access): seq<Slot> {
    if b in bases then BaseSlotSeq(k, b, |bases[b]|) else []
  }

  function BaseSlots(k: nat, q: Record, b: Access): (r: seq<Slot>)
    ensures forall s :: s in r ==> s.BaseSlot? && s.node == k && s.access == b && GetRec(q, s).Some?
    ensures forall s :: s in r <==> s.BaseSlot? && s.node == k && s.access == b && b in q.bases && s.index < |q.bases[b]|
  {
    BaseSlotsIn(k, q.bases, b)
  }

  /** Appending the slot of entry n to the slots of the first n entries. */
  lemma BaseSlotSeqSnoc(k: nat, b: Access, n: nat)
    ensures BaseSlotSeq(k, b, n + 1) == BaseSlotSeq(k, b, n) + [BaseSlot(k, b, n)]
  {
  }

  /** The bases a variadic base stands for, built one element at a time
      through the expansion of a one-parameter list. */
  method ExpandBasePack(name: string, ctx: Ctx) returns (elems: seq<string>)
    requires IsVariadic(name)
    ensures elems == BaseElements(name, ctx)
  {
    var vps := ExpandVariadicParms([TypeParm(name)], ctx.unexpanded, ctx.pack);
    BasePackTypes(name, ctx, vps);
    elems := TypesOf(vps);
    PackTypesAre(vps, elems, BaseElements(name, ctx));
  }

  /** The types of a list of typed parameters, in order. */
  method TypesOf(vps: seq<Parm>) returns (elems: seq<string>)
    requires forall j :: 0 <= j < |vps| ==> vps[j].ty.Some?
    ensures |elems| == |vps| && forall j :: 0 <= j < |vps| ==> vps[j].ty == Some(elems[j])
  {
    elems := [];
    var e := 0;
    while e < |vps|
      invariant 0 <= e <= |vps| && |elems| == e
      invariant forall j :: 0 <= j < e ==> vps[j].ty == Some(elems[j])
    {
      elems := elems + [vps[e].ty.value];
      e := e + 1;
    }
  }

  lemma PackTypesAre(vps: seq<Parm>, elems: seq<string>, want: seq<string>)
    requires |elems| == |vps| == |want|
    requires forall j :: 0 <= j < |vps| ==> vps[j].ty == Some(want[j])
    requires forall j :: 0 <= j < |vps| ==> vps[j].ty == Some(elems[j])
    ensures elems == want
  {
  }

  /** The types of a variadic base expanded as a parameter list are the
      bases it stands for. */
  lemma BasePackTypes(name: string, ctx: Ctx, vps: seq<Parm>)
    requires IsVariadic(name)
    requires vps == Expanded([TypeParm(name)], ctx.unexpanded, ctx.pack)
    ensures |vps| == |BaseElements(name, ctx)|
    ensures forall e :: 0 <= e < |vps| ==> vps[e].ty == Some(BaseElements(name, ctx)[e])
  {
    assert VariadicParm([TypeParm(name)]).Some?;
  }

  /** One base list of a class: each entry, or each base a trailing
      variadic entry stands for, is put back and queued for type patching. */
  method ExpandBases(k: nat, b: Access, items: seq<string>, ctx: Ctx) returns (items': seq<string>, types: seq<Slot>)
    requires VariadicBaseLast(items)
    ensures items' == ExpandedBases(items, ctx)
    ensures types == BaseSlotSeq(k, b, |items'|)
  {
    var n := |items|;
    if n > 0 && IsVariadic(items[n - 1]) {
      var elems := ExpandBasePack(items[n - 1], ctx);
      items' := items[..n - 1] + elems;
    } else {
      items' := items;
    }
    types := [];
    var i := 0;
    while i < |items'|
      invariant 0 <= i <= |items'|
      invariant types == BaseSlotSeq(k, b, i)
    {
      BaseSlotSeqSnoc(k, b, i);
      types := types + [BaseSlot(k, b, i)];
      i := i + 1;
    }
  }

  /** Base list b of a class, expanded; the other lists as they were. */
  function ExpandBaseList(bases: map<Access, seq<string>>, b: Access, ctx: Ctx): (m: map<Access, seq<string>>)
    ensures m.Keys == bases.Keys
    ensures b in bases ==> m[b] == ExpandedBases(bases[b], ctx)
    ensures forall c :: c in bases && c != b ==> m[c] == bases[c]
  {
    if b in bases then bases[b := ExpandedBases(bases[b], ctx)] else bases
  }

  /** Every base list of a class, expanded. */
  function ExpandedBaseMap(bases: map<Access, seq<string>>, ctx: Ctx): (m: map<Access, seq<string>>)
    ensures m.Keys == bases.Keys
    ensures forall b :: b in bases ==> m[b] == ExpandedBases(bases[b], ctx)
  {
    ExpandBaseList(ExpandBaseList(ExpandBaseList(bases, Public, ctx), Protected, ctx), Private, ctx)
  }

  /** A class: its three base lists are patched as types; its children are
      visited by the walk. */
  method VisitClass(k: nat, r: Record, ctx: Ctx) returns (q: Record, w: Work)
    requires r.kind == "class"
    requires forall b :: b in r.bases ==> VariadicBaseLast(r.bases[b])
    ensures q == r.(bases := ExpandedBaseMap(r.bases, ctx))
    ensures w == Work([], BaseSlots(k, q, Public) + BaseSlots(k, q, Protected) + BaseSlots(k, q, Private), [])
    ensures SameFrame(r, q) && WorkOf(k, q, w)
    ensures Queued(k, r, q, ctx, false, w) && WorkDistinct(w)
  {
    var bases, s1, s2, s3 := PatchBaseLists(k, r.bases, ctx);
    q := r.(bases := bases);
    w := Work([], s1 + s2 + s3, []);
    ClassQueued(k, r, q, ctx, w);
    BaseSlotsDistinct(k, q);
  }

  /** The base slots of a class are listed once each. */
  lemma BaseSlotsDistinct(k: nat, q: Record)
    ensures Distinct(BaseSlots(k, q, Public) + BaseSlots(k, q, Protected) + BaseSlots(k, q, Private))
  {
    DistinctJoin(BaseSlots(k, q, Public), BaseSlots(k, q, Protected));
    DistinctJoin(BaseSlots(k, q, Public) + BaseSlots(k, q, Protected), BaseSlots(k, q, Private));
  }

  lemma ClassQueued(k: nat, r: Record, q: Record, ctx: Ctx, w: Work)
    requires r.kind == "class"
    requires w == Work([], BaseSlots(k, q, Public) + BaseSlots(k, q, Protected) + BaseSlots(k, q, Private), [])
    ensures Queued(k, r, q, ctx, false, w)
  {
    forall s: Slot | s.node == k && s.BaseSlot?
      ensures s in w.types <==> s.access in q.bases && s.index < |q.bases[s.access]|
    {
      match s.access
      case Public =>
      case Protected =>
      case Private =>
    }
  }

  /** The three base lists in turn (the source loops over their names). */
  method PatchBaseLists(k: nat, bases: map<Access, seq<string>>, ctx: Ctx)
    returns (bases': map<Access, seq<string>>, s1: seq<Slot>, s2: seq<Slot>, s3: seq<Slot>)
    requires forall b :: b in bases ==> VariadicBaseLast(bases[b])
    ensures bases' == ExpandedBaseMap(bases, ctx)
    ensures s1 == BaseSlotsIn(k, bases', Public) && s2 == BaseSlotsIn(k, bases', Protected)
      && s3 == BaseSlotsIn(k, bases', Private)
  {
    var b1, b2;
    b1, s1 := PatchBaseList(k, bases, Public, ctx);
    b2, s2 := PatchBaseList(k, b1, Protected, ctx);
    bases', s3 := PatchBaseList(k, b2, Private, ctx);
  }

  /** One base list of a class, expanded, with the slots of its entries. */
  method PatchBaseList(k: nat, bases: map<Access, seq<string>>, b: Access, ctx: Ctx)
    returns (bases': map<Access, seq<string>>, slots: seq<Slot>)
    requires b in bases ==> VariadicBaseLast(bases[b])
    ensures bases' == ExpandBaseList(bases, b, ctx)
    ensures slots == BaseSlotsIn(k, bases', b)
  {
    if b !in bases {
      return bases, [];
    }
    var items;
    items, slots := ExpandBases(k, b, bases[b], ctx);
    bases' := bases[b := items];
  }

  /** The template's name in s (the text before its argument list) is
      replaced by tname when tname contains it. */
  function Retemplate(s: string, tname: string): string {
    var p := TemplatePrefix(s);
    if Contains(tname, p) then ReplaceId(s, p, tname).0 else s
  }

  /** The names of a constructor that is not itself a template, after the
      visit: (name, symbol name, whether the name is queued for patching).
      A name that still has template arguments is queued; otherwise the
      instance's arguments are appended to it.  The symbol name becomes the
      instance's name. */
  function ConstructorNames(name: string, symname: Option<string>, ctx: Ctx): (r: (string, Option<string>, bool))
    ensures r.1.Some? <==> symname.Some?
  {
    var n1 := Retemplate(name, ctx.tname);
    var queued := '<' in n1;
    var n2 := if queued then n1 else n1 + ctx.templateargs;
    var s2 := if symname.None? then None
      else
        var s1 := Retemplate(symname.value, ctx.tname);
        if '<' in s1 then Some(ctx.rname) else Some(ReplaceAll(s1, ctx.tname, ctx.rname));
    (n2, s2, queued)
  }

  function OptAttr(r: Record, a: Attr): Option<string> {
    if a in r.attrs then Some(r.attrs[a]) else None
  }

  /** The renaming part of a constructor's visit. */
  method RenameConstructor(k: nat, r: Record, ctx: Ctx) returns (q: Record, patch: seq<Slot>)
    requires NameAttr in r.attrs
    ensures SameFrame(r, q) && q.bases == r.bases && q.parmlists == r.parmlists
    ensures TemplateTypeAttr in r.attrs ==> q == r && patch == []
    ensures TemplateTypeAttr !in r.attrs ==>
      var names := ConstructorNames(r.attrs[NameAttr], OptAttr(r, SymNameAttr), ctx);
      q.attrs[NameAttr] == names.0 && OptAttr(q, SymNameAttr) == names.1
      && (forall a :: a in r.attrs && a != NameAttr && a != SymNameAttr ==> q.attrs[a] == r.attrs[a])
      && patch == if names.2 then [AttrSlot(k, NameAttr)] else []
  {
    q := r;
    patch := [];
    if TemplateTypeAttr !in r.attrs {
      var names := ConstructorNames(r.attrs[NameAttr], OptAttr(r, SymNameAttr), ctx);
      q := q.(attrs := q.attrs[NameAttr := names.0]);
      if names.1.Some? {
        q := q.(attrs := q.attrs[SymNameAttr := names.1.value]);
      }
      if names.2 {
        patch := [AttrSlot(k, NameAttr)];
      }
    }
  }

  /** A constructor: unless it is a template itself, its names are renamed
      to the instance's; its code is patched as code, its declarator as a
      type, then its parameters and exception specification. */
  method VisitConstructor(k: nat, r: Record, ctx: Ctx) returns (q: Record, w: Work)
    requires r.kind == "constructor" && NameAttr in r.attrs
    ensures SameFrame(r, q) && WorkOf(k, q, w) && q.bases == r.bases
    ensures q.parmlists == ExpandedLists(r.parmlists, ListsOf(r.kind), ctx)
    ensures TemplateTypeAttr in r.attrs ==> q.attrs == r.attrs
    ensures TemplateTypeAttr !in r.attrs ==>
      var names := ConstructorNames(r.attrs[NameAttr], OptAttr(r, SymNameAttr), ctx);
      q.attrs[NameAttr] == names.0 && OptAttr(q, SymNameAttr) == names.1
      && (forall a :: a in r.attrs && a != NameAttr && a != SymNameAttr ==> q.attrs[a] == r.attrs[a])
    ensures Queued(k, r, q, ctx, false, w) && WorkDistinct(w)
  {
    var patch;
    q, patch := RenameConstructor(k, r, ctx);
    var code := Queue([], q, AttrSlot(k, CodeAttr));
    var types := Queue([], q, AttrSlot(k, DeclAttr));
    var w0 := Work(patch, types, code);
    assert w0 == AttrWork(k, r, ctx, false);
    AttrWorkDistinct(k, r, ctx, false);
    q, w := ExpandParmLists(k, q, ListsOf(r.kind), ctx, w0);
    QueuedFromParts(k, r, q, ctx, false, w0, w);
  }

  /** A constructor of a class template, named as the template: its name
      gets the instance's template arguments and its symbol name becomes
      the instance's name. */
  lemma ConstructorOfTemplate(ctx: Ctx)
    requires |ctx.tname| > 0 && forall j :: 0 <= j < |ctx.tname| ==> IsIdChar(ctx.tname[j])
    ensures ConstructorNames(ctx.tname, Some(ctx.tname), ctx) == (ctx.tname + ctx.templateargs, Some(ctx.rname), false)
  {
    var t := ctx.tname;
    assert '<' !in t by {
      forall j | 0 <= j < |t| ensures t[j] != '<' { assert IsIdChar(t[j]); }
    }
    assert forall j :: 0 <= j < |t| ==> !OccursAt(t, j, "<(") by {
      forall j | 0 <= j < |t| ensures !OccursAt(t, j, "<(") { assert t[j] in t; }
    }
    assert IndexOf(t, "<(") == None;
    assert TemplatePrefix(t) == t;
    assert OccursAt(t, 0, t);
    assert Contains(t, t);
    ReplaceIdFromSelf(t, t, 0);
    assert Retemplate(t, t) == t;
    ReplaceAllAtEnd("", t, ctx.rname);
    assert "" + t == t && "" + ctx.rname == ctx.rname;
  }

  /** A constructor written with the template's arguments, e.g.
      Foo<(T)>: its name keeps them and is queued for patching; its symbol
      name becomes the instance's name. */
  lemma ConstructorWithArguments(name: string, ctx: Ctx)
    requires TemplatePrefix(name) == ctx.tname && '<' in name
    ensures ConstructorNames(name, Some(name), ctx) == (name, Some(ctx.rname), true)
  {
    assert OccursAt(ctx.tname, 0, ctx.tname);
    assert Contains(ctx.tname, ctx.tname);
    ReplaceIdFromSelf(name, ctx.tname, 0);
    assert Retemplate(name, ctx.tname) == name;
  }

  /** The names of a destructor of the template, after the visit: (name,
      symbol name, whether the name is queued for patching).  A name with
      template arguments is queued, otherwise the instance's arguments are
      appended; a symbol name with template arguments becomes the
      template's name, otherwise the template's name in it becomes the
      instance's. */
  function DestructorNames(name: Option<string>, symname: Option<string>, ctx: Ctx): (r: (Option<string>, Option<string>, bool))
    ensures r.0.Some? <==> name.Some?
    ensures r.1.Some? <==> symname.Some?
    ensures r.2 ==> r.0 == name
  {
    var queued := name.Some? && '<' in name.value;
    var n := if name.None? || queued then name else Some(name.value + ctx.templateargs);
    var s := if symname.None? then None
      else if '<' in symname.value then Some(ctx.tname)
      else Some(ReplaceAll(symname.value, ctx.tname, ctx.rname));
    (n, s, queued)
  }

  /** The usual destructor of a class template, ~Foo, becomes ~Foo<(int)>
      with symbol name ~Foo_int (for rname Foo_int). */
  lemma DestructorOfTemplate(ctx: Ctx)
    requires |ctx.tname| > 0 && forall j :: 0 <= j < |ctx.tname| ==> IsIdChar(ctx.tname[j])
    ensures DestructorNames(Some("~" + ctx.tname), Some("~" + ctx.tname), ctx)
      == (Some("~" + ctx.tname + ctx.templateargs), Some("~" + ctx.rname), false)
  {
    var t := ctx.tname;
    var d := "~" + t;
    assert '<' !in d by {
      forall j | 0 <= j < |d| ensures d[j] != '<' {
        if j > 0 { assert d[j] == t[j - 1]; assert IsIdChar(t[j - 1]); }
      }
    }
    assert !OccursAt("~" + t, 0, t) by {
      assert IsIdChar(t[0]);
    }
    ReplaceAllAtEnd("~", t, ctx.rname);
  }

  /** Which destructors the visit rewrites: those of the template itself,
      whose parent is the root, or whose parent is an %extend block of the
      root. */
  predicate DtorPatched(nodes: seq<Record>, root: nat, k: nat)
    requires k < |nodes|
  {
    var p := nodes[k].parent;
    p == Some(root)
    || (p.Some? && p.value < |nodes| && nodes[p.value].parent == Some(root) && EffectiveKind(nodes[p.value]) == "extend")
  }

  /** A destructor of the template: its names are renamed to the instance's
      and its code patched; any other destructor is left alone. */
  method VisitDestructor(k: nat, r: Record, ctx: Ctx, dtor: bool) returns (q: Record, w: Work)
    requires r.kind == "destructor"
    ensures SameFrame(r, q) && WorkOf(k, q, w) && q.bases == r.bases && q.parmlists == r.parmlists
    ensures !dtor ==> q == r && w == NoWork
    ensures dtor ==>
      var names := DestructorNames(OptAttr(r, NameAttr), OptAttr(r, SymNameAttr), ctx);
      OptAttr(q, NameAttr) == names.0 && OptAttr(q, SymNameAttr) == names.1
      && (forall a :: a in r.attrs && a != NameAttr && a != SymNameAttr ==> q.attrs[a] == r.attrs[a])
      && w == Work(if names.2 then [AttrSlot(k, NameAttr)] else [], [], if CodeAttr in r.attrs then [AttrSlot(k, CodeAttr)] else [])
    ensures Queued(k, r, q, ctx, dtor, w) && WorkDistinct(w)
  {
    q, w := r, NoWork;
    if dtor {
      var names := DestructorNames(OptAttr(r, NameAttr), OptAttr(r, SymNameAttr), ctx);
      if names.0.Some? {
        q := q.(attrs := q.attrs[NameAttr := names.0.value]);
      }
      if names.1.Some? {
        q := q.(attrs := q.attrs[SymNameAttr := names.1.value]);
      }
      w := Work(DestructorPatch(k, r, ctx), [], Held(r, AttrSlot(k, CodeAttr)));
    }
    DtorQueued(k, r, q, ctx, dtor, w);
  }

  lemma DtorQueued(k: nat, r: Record, q: Record, ctx: Ctx, dtor: bool, w: Work)
    requires r.kind == "destructor" && q.parmlists == r.parmlists
    requires w == if dtor then Work(DestructorPatch(k, r, ctx), [], Held(r, AttrSlot(k, CodeAttr))) else NoWork
    ensures Queued(k, r, q, ctx, dtor, w) && WorkDistinct(w)
  {
    QueuedFromParts(k, r, q, ctx, dtor, w, w);
    AttrWorkDistinct(k, r, ctx, dtor);
  }

  /** A using declaration: a used name with template arguments is queued
      for patching. */
  method VisitUsing(k: nat, r: Record) returns (w: Work)
    ensures WorkOf(k, r, w)
    ensures w == Work(UsingPatch(k, r), [], [])
    ensures AttrSlot(k, UnameAttr) in w.patch <==> UnameAttr in r.attrs && '<' in r.attrs[UnameAttr]
  {
    w := NoWork;
    if UnameAttr in r.attrs && '<' in r.attrs[UnameAttr] {
      w := Work([AttrSlot(k, UnameAttr)], [], []);
    }
  }

  /** Any other node: its code is patched as code, its type and declarator
      as types, then its parameters, keyword arguments, typemap pattern
      (whose parameter names are patched too) and exception
      specification; its children are visited by the walk. */
  method VisitOther(k: nat, r: Record, ctx: Ctx) returns (q: Record, w: Work)
    requires IsOther(r.kind)
    ensures q == r.(parmlists := ExpandedLists(r.parmlists, ListsOf(r.kind), ctx))
    ensures SameFrame(r, q) && WorkOf(k, q, w)
    ensures Queued(k, r, q, ctx, false, w) && WorkDistinct(w)
  {
    var code := Queue([], r, AttrSlot(k, CodeAttr));
    var types := Queue(Queue([], r, AttrSlot(k, TypeAttr)), r, AttrSlot(k, DeclAttr));
    var w0 := Work([], types, code);
    assert w0 == AttrWork(k, r, ctx, false);
    AttrWorkDistinct(k, r, ctx, false);
    q, w := ExpandParmLists(k, r, ListsOf(r.kind), ctx, w0);
    QueuedFromParts(k, r, q, ctx, false, w0, w);
  }

  // ---------------------------------------------------------------------
  // What a visit queues

  /** Each node type queues an attribute at most once on each list. */
  lemma AttrWorkDistinct(k: nat, r: Record, ctx: Ctx, dtor: bool)
    ensures WorkDistinct(AttrWork(k, r, ctx, dtor))
  {
    if r.kind == "cdecl" {
      CdeclDistinct(k, r);
    } else if IsOther(r.kind) {
      DistinctJoin(Held(r, AttrSlot(k, TypeAttr)), Held(r, AttrSlot(k, DeclAttr)));
    }
  }

  /** A simple declaration queues each attribute at most once on each list. */
  lemma CdeclDistinct(k: nat, r: Record)
    ensures WorkDistinct(Work(CdeclPatch(k, r), CdeclTypes(k, r), CdeclCode(k, r)))
  {
    var t, d, c, nm, sn := AttrSlot(k, TypeAttr), AttrSlot(k, DeclAttr), AttrSlot(k, CodeAttr), AttrSlot(k, NameAttr), AttrSlot(k, SymNameAttr);
    DistinctJoin(Held(r, t), Held(r, d));
    DistinctJoin(Held(r, t) + Held(r, d), if IsFriend(r) then Held(r, nm) else []);
    var conv := ConversionOperatorAttr in r.attrs;
    DistinctJoin(Held(r, c), if conv then Held(r, nm) else []);
    DistinctJoin(Held(r, c) + (if conv then Held(r, nm) else []), if conv && !IsFriend(r) then Held(r, sn) else []);
  }

  /** The node types without a branch of their own. */
  predicate IsOther(kind: string) {
    kind != "cdecl" && kind != "class" && kind != "constructor" && kind != "destructor" && kind != "using"
  }

  /** The parameter lists a visit expands, by node type. */
  function ListsOf(kind: string): (lists: seq<ParmListName>)
    ensures forall x, y :: 0 <= x < y < |lists| ==> lists[x] != lists[y]
  {
    if kind == "cdecl" || kind == "constructor" then [ParmsList, ThrowsList]
    else if IsOther(kind) then [ParmsList, KwargsList, PatternList, ThrowsList]
    else []
  }

  /** The name of a constructor that is not itself a template, when it
      keeps template arguments. */
  function ConstructorPatch(k: nat, r: Record, ctx: Ctx): seq<Slot> {
    if NameAttr in r.attrs && TemplateTypeAttr !in r.attrs
       && ConstructorNames(r.attrs[NameAttr], OptAttr(r, SymNameAttr), ctx).2
    then [AttrSlot(k, NameAttr)] else []
  }

  /** The name of a destructor, when it has template arguments. */
  function DestructorPatch(k: nat, r: Record, ctx: Ctx): seq<Slot> {
    if DestructorNames(OptAttr(r, NameAttr), OptAttr(r, SymNameAttr), ctx).2 then [AttrSlot(k, NameAttr)] else []
  }

  /** The used name of a using declaration, when it has template
      arguments. */
  function UsingPatch(k: nat, r: Record): seq<Slot> {
    if UnameAttr in r.attrs && '<' in r.attrs[UnameAttr] then [AttrSlot(k, UnameAttr)] else []
  }

  /** The attributes of node k (record r as the visit finds it) that the
      visit queues on each list, by node type; dtor says whether a
      destructor is one of the template's own. */
  function AttrWork(k: nat, r: Record, ctx: Ctx, dtor: bool): (w: Work)
    ensures AttrsOnly(w) && WorkOf(k, r, w)
  {
    if r.kind == "cdecl" then Work(CdeclPatch(k, r), CdeclTypes(k, r), CdeclCode(k, r))
    else if r.kind == "class" then NoWork
    else if r.kind == "constructor" then
      Work(ConstructorPatch(k, r, ctx), Held(r, AttrSlot(k, DeclAttr)), Held(r, AttrSlot(k, CodeAttr)))
    else if r.kind == "destructor" then
      (if dtor then Work(DestructorPatch(k, r, ctx), [], Held(r, AttrSlot(k, CodeAttr))) else NoWork)
    else if r.kind == "using" then Work(UsingPatch(k, r), [], [])
    else Work([], Held(r, AttrSlot(k, TypeAttr)) + Held(r, AttrSlot(k, DeclAttr)), Held(r, AttrSlot(k, CodeAttr)))
  }

  /** The visit of a node (record r before it, q after it) puts slot s of
      the node on list l: an attribute by its node type, a parameter field
      of a list the visit expands as expand_parms does, and every entry of
      a class's expanded base lists as a type. */
  ghost predicate SlotQueued(l: Worklist, r: Record, q: Record, ctx: Ctx, dtor: bool, s: Slot) {
    match s
    case AttrSlot(k, _) => s in Entries(AttrWork(k, r, ctx, dtor), l)
    case ParmSlot(_, pl, _, _) =>
      pl in ListsOf(r.kind) && ((l == Typelist && ParmTyped(q, s)) || (l == Cpatchlist && ParmCoded(q, s)))
    case BaseSlot(_, b, i) => l == Typelist && r.kind == "class" && b in q.bases && i < |q.bases[b]|
  }

  /** The slots of node k on each list of the work are exactly those the
      visit queues. */
  ghost predicate Queued(k: nat, r: Record, q: Record, ctx: Ctx, dtor: bool, w: Work) {
    forall s: Slot :: s.node == k ==>
      (s in w.patch <==> SlotQueued(Patchlist, r, q, ctx, dtor, s))
      && (s in w.types <==> SlotQueued(Typelist, r, q, ctx, dtor, s))
      && (s in w.code <==> SlotQueued(Cpatchlist, r, q, ctx, dtor, s))
  }

  /** Whether a slot is queued does not depend on the node type the visit
      leaves. */
  lemma SlotQueuedKind(l: Worklist, r: Record, q: Record, q': Record, ctx: Ctx, dtor: bool, s: Slot)
    requires q'.parmlists == q.parmlists && q'.bases == q.bases
    ensures SlotQueued(l, r, q, ctx, dtor, s) == SlotQueued(l, r, q', ctx, dtor, s)
  {
  }

  /** A visit that queues its attributes, then expands its parameter
      lists, queues exactly what it should. */
  lemma QueuedFromParts(k: nat, r: Record, q: Record, ctx: Ctx, dtor: bool, w0: Work, w: Work)
    requires r.kind != "class" && w0 == AttrWork(k, r, ctx, dtor)
    requires w.patch == w0.patch
    requires forall s: Slot :: !s.ParmSlot? ==> (s in w.types <==> s in w0.types) && (s in w.code <==> s in w0.code)
    requires ParmWork(k, q, ListsOf(r.kind), w)
    ensures Queued(k, r, q, ctx, dtor, w)
  {
  }

  /** Outside destructors, whether a destructor is the template's own does
      not matter. */
  lemma QueuedDtor(k: nat, r: Record, q: Record, ctx: Ctx, w: Work, dtor: bool)
    requires r.kind != "destructor" && Queued(k, r, q, ctx, false, w)
    ensures Queued(k, r, q, ctx, dtor, w)
  {
    assert AttrWork(k, r, ctx, false) == AttrWork(k, r, ctx, dtor);
  }

  lemma ExpandedListsNone(m: map<ParmListName, seq<Parm>>, ctx: Ctx)
    ensures ExpandedLists(m, [], ctx) == m
  {
  }

  // ---------------------------------------------------------------------
  // Dispatch on the node type

  /** The node types whose children the walk visits: all but simple
      declarations, constructors, destructors and using declarations. */
  predicate Recurses(kind: string) {
    kind != "cdecl" && kind != "constructor" && kind != "destructor" && kind != "using"
  }

  /** What the visit of a node relies on: a constructor has a name, and only
      the last entry of a base list may be a variadic pack. */
  predicate Ready(r: Record) {
    (EffectiveKind(r) == "constructor" ==> NameAttr in r.attrs)
    && (EffectiveKind(r) == "class" ==> forall b :: b in r.bases ==> VariadicBaseLast(r.bases[b]))
  }

  /** The visit of one node by its type (which is not "template": a template
      node is visited as what it templates).  dtor says whether a destructor
      is one of the template's own. */
  method VisitNode(k: nat, r: Record, ctx: Ctx, dtor: bool) returns (q: Record, w: Work, recurse: bool)
    requires r.kind != "template" && Ready(r)
    ensures SameFrame(r, q) && WorkOf(k, q, w)
    ensures recurse <==> Recurses(r.kind)
    ensures Queued(k, r, q, ctx, dtor, w) && WorkDistinct(w)
    ensures q.parmlists == ExpandedLists(r.parmlists, ListsOf(r.kind), ctx)
    ensures q.bases == if r.kind == "class" then ExpandedBaseMap(r.bases, ctx) else r.bases
    ensures r.kind == "destructor" && !dtor ==> q == r && w == NoWork
  {
    recurse := false;
    ExpandedListsNone(r.parmlists, ctx);
    if r.kind == "cdecl" {
      q, w := VisitCdecl(k, r, ctx);
      QueuedDtor(k, r, q, ctx, w, dtor);
    } else if r.kind == "class" {
      q, w := VisitClass(k, r, ctx);
      QueuedDtor(k, r, q, ctx, w, dtor);
      recurse := true;
    } else if r.kind == "constructor" {
      q, w := VisitConstructor(k, r, ctx);
      QueuedDtor(k, r, q, ctx, w, dtor);
    } else if r.kind == "destructor" {
      q, w := VisitDestructor(k, r, ctx, dtor);
    } else if r.kind == "using" {
      q := r;
      w := VisitUsing(k, r);
      QueuedFromParts(k, r, q, ctx, dtor, w, w);
      AttrWorkDistinct(k, r, ctx, dtor);
    } else {
      q, w := VisitOther(k, r, ctx);
      QueuedDtor(k, r, q, ctx, w, dtor);
      recurse := true;
    }
  }
}
